=== FILE: README.md ===
# AI enrichment core of the product information manager

This project is a Dafny model of the enrichment core of a product information
management (PIM) application. Catalog products carry key/value attributes.
An enrichment job asks a language model to fill in missing attribute values.
The job first finds similar products through an embedding-based vector
search, then generates values, scores each generated value's confidence, and
merges the values back into the product. The job and its per-product results
are recorded in a job store.

Around that pipeline the model also covers the pure data handling the
application relies on:

- the request validators;
- the CSV and Excel import mappers, which turn a spreadsheet row into a
  product, including the "number + unit" measure recogniser;
- the translation of a filter dictionary into database query conditions, with
  paging, sorting, the filtered vector search and its fallback;
- the prompt text the generation step sends to the model;
- the similar-product search with its three-tier alternative.

Every call into code outside the core is an input value. This covers the
database, the language model, the embedding service, `JSON.parse`,
`Number(...)` and number formatting. Each enters as a parameter, a function
value or a fault map. Failures are modelled explicitly:

- `Orchestrator.Faults` maps the n-th store call of a job to the error it
  throws.
- `VectorSearch.SearchDb` holds each database outcome, including which queries
  throw.
- `Wrappers.Result` carries errors from the model and the embedding service.

Modules (one per source file, plus shared support):

| module | models |
|---|---|
| `Json`, `Types`, `Wrappers`, `Text`, `ObjectIds` | JavaScript values and coercions, the catalog entities, strings, database identifiers |
| `Confidence` | `src/app/lib/ai/confidence-calculator.ts` |
| `Generation` | `src/app/infrastructure/ai/langchain/chains/attribute-generation-chain.ts` |
| `Rag` | `src/app/infrastructure/ai/langchain/chains/rag-chain.ts` |
| `Enrichment`, `Orchestrator` | `src/app/infrastructure/ai/enrichment-service.ts` (scoring and merge; the job loop) |
| `EnrichmentStore` | `src/app/infrastructure/repositories/mongodb/enrichment-repository.ts` (a class over a job map and a result list) |
| `Validators` | `src/app/lib/validators.ts` |
| `Measures`, `Importers` | the per-record mapping of `csv-processor.ts` and `excel-processor.ts` |
| `ProductQuery` | filters, paging, sorting, vector search and `isAttributeInUse` of `product-repository.ts` |
| `Prompts` | `src/app/infrastructure/ai/llm/prompt-templates.ts` |
| `VectorSearch` | `src/app/infrastructure/ai/vector-search/mongodb-vector-search.ts` and the embedding fallback |

The job loop is imperative, as in the source. `Orchestrator.ProcessEnrichmentJob`
drives an `EnrichmentStore.EnrichmentRepository` object through its methods.
Its postcondition equates the final store, the product writes and the call
count with the pure specification `Orchestrator.ProcessSpec`. The lemmas about
`ProcessSpec` then state what a run achieves:

- every product counted once;
- one result per product, in order;
- progress ending at 100;
- failures caught per product.

The import mappers, the condition builder and the response parser work the
same way. Each has a loop method proved equal to a specification function.

## Model

| member | source | states |
|---|---|---|
| Confidence.WeightsFor | src/app/lib/ai/confidence-calculator.ts:15-65 | definition of the weight row; RowsAreDistributions, UnlistedTypesUseDefault and PrototypeNamesScoreZero state its properties |
| Confidence.Score | src/app/lib/ai/confidence-calculator.ts:64-77 | definition of the clamped weighted sum; UnclampedSumInUnit and ScoreMonotone state its properties, and CalculateConfidence is proved to compute it |
| Confidence.Clamp | src/app/lib/ai/confidence-calculator.ts:77 | the result lies in [0, 1], equals its input inside that range, and is 0 below and 1 above it |
| Confidence.CalculateConfidence | src/app/lib/ai/confidence-calculator.ts:9-78 | the loop's clamped weighted sum over the type's weight row is the specified score; it lies in [0, 1] and does not depend on the value argument |
| Confidence.RowsAreDistributions | src/app/lib/ai/confidence-calculator.ts:15-62 | every weight row selected by a type name names the four metrics once each, with non-negative weights summing to exactly 1 |
| Confidence.UnlistedTypesUseDefault | src/app/lib/ai/confidence-calculator.ts:65 | a type with no row of its own (long_text, rich_text, any unknown name) uses the default row |
| Confidence.PrototypeNamesScoreZero | src/app/lib/ai/confidence-calculator.ts:65 | an inherited property name such as "toString" selects a row with no entries, so the score is 0 whatever the metrics |
| Confidence.SumBelowTotal | src/app/lib/ai/confidence-calculator.ts:68-74 | with metrics in [0, 1], a non-negative row's weighted sum lies between 0 and the row's total weight |
| Confidence.UnclampedSumInUnit | src/app/lib/ai/confidence-calculator.ts:68-77 | with metrics in [0, 1] the unclamped sum is already in [0, 1], so the clamp changes nothing |
| Confidence.SumMonotone | src/app/lib/ai/confidence-calculator.ts:68-74 | raising metrics never lowers the weighted sum of a non-negative row |
| Confidence.ScoreMonotone | src/app/lib/ai/confidence-calculator.ts:68-77 | raising metrics never lowers the final score |
| Confidence.ValidateFormat | src/app/lib/ai/confidence-calculator.ts:81-113 | the result is 0, 0.5 or 1, and 0.5 exactly for a type outside the seven known names; a measure check of `null` is the thrown error |
| Confidence.ValidityRules | src/app/lib/ai/confidence-calculator.ts:83-108 | short_text is 1 iff a string of at most 50 characters; number is 1 iff a number or a numeric string; multiple_select is 1 iff an array; measure is 1 iff an object with `v` and `u` and a numeric `v` |
| Enrichment.ScoreOne | src/app/infrastructure/ai/enrichment-service.ts:172-191 | an entry without a definition passes unchanged; one with a definition keeps key, value and unit and gets the clamped score of (confidence or 0.7, format validity, 0.8, confidence or 0.7); only a `null` measure value throws |
| Enrichment.ScoreAll | src/app/infrastructure/ai/enrichment-service.ts:172-191 | succeeds iff every entry scores, and then maps each entry to its scored form, position by position |
| Enrichment.ScoredConfidenceInUnit | src/app/infrastructure/ai/enrichment-service.ts:172-191 | every scored entry keeps its key, value and unit, and a defined one gets a confidence in [0, 1] |
| Enrichment.ParsedFormatValidity | src/app/infrastructure/ai/enrichment-service.ts:177 | for an entry the parser accepted, format validity is 0 for a measure (its value is a bare number), the 50-character test for short_text, and 1 for the other types |
| Enrichment.ParsedEntriesScore | src/app/infrastructure/ai/enrichment-service.ts:172-191 | scoring never throws on entries the parser accepted |
| Enrichment.KeepUnreplaced | src/app/infrastructure/ai/enrichment-service.ts:198-200 | the kept existing entries are at most as many as the existing ones |
| Enrichment.KeepUnreplacedMembers | src/app/infrastructure/ai/enrichment-service.ts:198-200 | an existing entry is kept iff no generated entry has its key |
| Enrichment.KeepUnreplacedAppend | src/app/infrastructure/ai/enrichment-service.ts:198-200 | the filter keeps the original order (it distributes over concatenation) |
| Enrichment.Merge | src/app/infrastructure/ai/enrichment-service.ts:194-204 | the merged list ends with all generated entries; an entry is in it iff it is generated, or existing with a key nothing generated |
| Enrichment.MergeReplaces | src/app/infrastructure/ai/enrichment-service.ts:197-202 | a key that was generated appears only with generated values; existing entries under other keys survive |
| Enrichment.MergeKeys | src/app/infrastructure/ai/enrichment-service.ts:194-204 | the merged keys are the union of the existing and the generated keys |
| Enrichment.Generated | src/app/infrastructure/ai/enrichment-service.ts:153-169 | the generated entries, obtained from the embedding, the similar-product search and the RAG chain, each name a requested attribute and conform to its type |
| Enrichment.EnrichProduct | src/app/infrastructure/ai/enrichment-service.ts:149-205 | fails exactly when generation fails, with its error; otherwise the scored entries merged over the existing attributes |
| Enrichment.VectorMatchesGiveNoContext | src/app/infrastructure/ai/enrichment-service.ts:160-169 | when the vector stage answers, its products carry no `attr`, so the RAG filter passes no similar product to generation |
| Enrichment.NoneRelevant | src/app/infrastructure/ai/langchain/chains/rag-chain.ts:52 | similar products without attributes are all filtered out |
| Generation.FirstIndex | src/app/infrastructure/ai/langchain/chains/attribute-generation-chain.ts:51 | none iff the character is absent; otherwise its first position |
| Generation.LastIndex | src/app/infrastructure/ai/langchain/chains/attribute-generation-chain.ts:51 | none iff the character is absent; otherwise its last position |
| Generation.ExtractArray | src/app/infrastructure/ai/langchain/chains/attribute-generation-chain.ts:51-57 | no span iff there is no `[` followed later by a `]`; otherwise the greedy span from the first `[` to the last `]` |
| Generation.Truncate | src/app/infrastructure/ai/langchain/chains/attribute-generation-chain.ts:70-72 | `substring(0, limit)`: a prefix, the whole text when it fits, else exactly `limit` characters (none for a negative limit) |
| Generation.AsNumber | src/app/infrastructure/ai/langchain/chains/attribute-generation-chain.ts:80-88 | kept iff `Number(v)` is not NaN, with `v` replaced by that number |
| Generation.Coerce | src/app/infrastructure/ai/langchain/chains/attribute-generation-chain.ts:66-118 | a kept entry keeps its key, unit and confidence and conforms to its definition's type |
| Generation.KeepEntry | src/app/infrastructure/ai/langchain/chains/attribute-generation-chain.ts:62-65 | an entry is kept only when a definition has its key, and then as that definition's coercion |
| Generation.KeepAll | src/app/infrastructure/ai/langchain/chains/attribute-generation-chain.ts:61-119 | at most as many entries as parsed; each names a requested attribute and conforms to it |
| Generation.ParseSpec | src/app/infrastructure/ai/langchain/chains/attribute-generation-chain.ts:45-124 | no span or an unparsable span gives the empty list rather than an error; every returned entry names a requested attribute and conforms to it |
| Generation.ParseResponse | src/app/infrastructure/ai/langchain/chains/attribute-generation-chain.ts:45-124 | the filtering loop returns exactly the specified kept entries |
| Generation.KeepAllAppend | src/app/infrastructure/ai/langchain/chains/attribute-generation-chain.ts:61 | the filter keeps the parsed order (it distributes over concatenation) |
| Generation.AcceptedEntriesKept | src/app/infrastructure/ai/langchain/chains/attribute-generation-chain.ts:61-119 | every parsed entry the filter accepts appears, coerced, in the output |
| Generation.KeptComeFromEntries | src/app/infrastructure/ai/langchain/chains/attribute-generation-chain.ts:61-119 | every output entry is the coercion of some parsed entry |
| Generation.CoercionRules | src/app/infrastructure/ai/langchain/chains/attribute-generation-chain.ts:68-117 | the per-type rules: short_text truncated to `maxLength or 50` and always kept; long and rich text stringified and kept; number kept iff numeric; measure also needs a listed unit; single_select kept iff an exact option; multiple_select wraps a string, drops other non-arrays and needs every element listed; other types dropped |
| Generation.SelectMatchingIsExact | src/app/infrastructure/ai/langchain/chains/attribute-generation-chain.ts:90-102 | option matching is case-sensitive ("red" is not "Red"), a single unlisted element rejects a multiple_select, and an empty array is accepted |
| Generation.GenerationRun | src/app/infrastructure/ai/langchain/chains/attribute-generation-chain.ts:17-43 | fails iff the model call fails, with its error; otherwise every entry names a requested attribute and conforms to it |
| Rag.Relevant | src/app/infrastructure/ai/langchain/chains/rag-chain.ts:52-55 | definition of the filter test; RelevantMeans states it as "some attribute key is requested" and FilterMembership ties it to the filter |
| Rag.RelevantMeans | src/app/infrastructure/ai/langchain/chains/rag-chain.ts:55 | the `some` test holds iff some attribute's key is among the requested names |
| Rag.FilterRelevant | src/app/infrastructure/ai/langchain/chains/rag-chain.ts:43-57 | never more products than given |
| Rag.FilterIsSubsequence | src/app/infrastructure/ai/langchain/chains/rag-chain.ts:51 | the kept products are a subsequence of the input, in order |
| Rag.FilterMembership | src/app/infrastructure/ai/langchain/chains/rag-chain.ts:51-56 | a product is kept iff it has a non-empty `attr` with a key among the requested names |
| Rag.FilterAppend | src/app/infrastructure/ai/langchain/chains/rag-chain.ts:51 | the filter distributes over concatenation |
| Rag.NoAttributesDropped | src/app/infrastructure/ai/langchain/chains/rag-chain.ts:52 | a product with a missing or empty `attr` is dropped |
| Rag.NothingToGenerate | src/app/infrastructure/ai/langchain/chains/rag-chain.ts:48-55 | with no requested attributes nothing is kept |
| Rag.FilterIdempotent | src/app/infrastructure/ai/langchain/chains/rag-chain.ts:43-57 | filtering the filtered list changes nothing |
| Rag.RagRun | src/app/infrastructure/ai/langchain/chains/rag-chain.ts:13-41 | generation is called with the filtered list; its error is rethrown unchanged; its entries name requested attributes |
| Rag.FilterSkipsIrrelevant | src/app/infrastructure/ai/langchain/chains/rag-chain.ts:51-56 | inserting an irrelevant product anywhere does not change the filtered list |
| Rag.IrrelevantProductIgnored | src/app/infrastructure/ai/langchain/chains/rag-chain.ts:24-34 | an irrelevant similar product has no effect on the generated values |
| EnrichmentStore.NewJob | src/app/infrastructure/repositories/mongodb/enrichment-repository.ts:21-30 | a new job is pending with progress 0, nothing processed, no error, and a total equal to the number of product ids |
| EnrichmentStore.ApplyUpdate | src/app/infrastructure/repositories/mongodb/enrichment-repository.ts:71-73 | definition of a `$set` on one job; UpdateFrame and UpdateAlgebra state its properties |
| EnrichmentStore.UpdateFrame | src/app/infrastructure/repositories/mongodb/enrichment-repository.ts:71-73 | a `$set` changes exactly the fields present in the update and keeps every other field |
| EnrichmentStore.UpdateAlgebra | src/app/infrastructure/repositories/mongodb/enrichment-repository.ts:71-73 | the empty update is the identity, an update is idempotent, and two updates compose into one |
| EnrichmentStore.UpdatedJobs | src/app/infrastructure/repositories/mongodb/enrichment-repository.ts:63-76 | an update keeps the set of jobs, changes no other job, and changes nothing for a malformed or unknown identifier |
| EnrichmentStore.RepeatedUpdateModifiesNothing | src/app/infrastructure/repositories/mongodb/enrichment-repository.ts:75 | repeating an update reports no modification and leaves the jobs as they are |
| EnrichmentStore.ResultsFor | src/app/infrastructure/repositories/mongodb/enrichment-repository.ts:94-108 | a result is listed iff it was saved under exactly this identifier |
| EnrichmentStore.ResultsForAppend | src/app/infrastructure/repositories/mongodb/enrichment-repository.ts:78-108 | saving a result appends it to its own job's list and leaves every other job's list alone |
| EnrichmentStore.EnrichmentRepository.constructor | src/app/infrastructure/repositories/mongodb/enrichment-repository.ts:17-34 | an empty store with no jobs and no results |
| EnrichmentStore.EnrichmentRepository.CreateEnrichmentJob | src/app/infrastructure/repositories/mongodb/enrichment-repository.ts:17-34 | on success the new job is stored under the inserted identifier, which is returned; an insertion error changes nothing |
| EnrichmentStore.EnrichmentRepository.GetEnrichmentJobStatus | src/app/infrastructure/repositories/mongodb/enrichment-repository.ts:36-61 | null iff the identifier is malformed or unknown; otherwise the stored fields under the canonical identifier |
| EnrichmentStore.EnrichmentRepository.UpdateEnrichmentJobStatus | src/app/infrastructure/repositories/mongodb/enrichment-repository.ts:63-76 | false and no change for a malformed identifier or a thrown error; otherwise the `$set` is applied and the result is true iff a field changed |
| EnrichmentStore.EnrichmentRepository.SaveEnrichmentResult | src/app/infrastructure/repositories/mongodb/enrichment-repository.ts:78-92 | appends exactly one result tagged with the job identifier, and changes nothing if the insertion throws |
| EnrichmentStore.EnrichmentRepository.GetEnrichmentResultsByJobId | src/app/infrastructure/repositories/mongodb/enrichment-repository.ts:94-108 | exactly the results saved under that identifier, in insertion order |
| ObjectIds.Canonical | src/app/infrastructure/repositories/mongodb/enrichment-repository.ts:45 | the canonical spelling has the same length and stays well-formed |
| ObjectIds.CanonicalIdempotent | src/app/infrastructure/repositories/mongodb/enrichment-repository.ts:45 | the canonical spelling is its own canonical form |
| Orchestrator.PercentRounds | src/app/infrastructure/ai/enrichment-service.ts:103 | the integer progress is the exact rational `100·i/n` rounded half up (the double rounding of the source can differ at a half) |
| Orchestrator.PercentProgress | src/app/infrastructure/ai/enrichment-service.ts:103 | progress is non-decreasing in the count, 0 at the start, 100 at the end, and within [0, 100] |
| Orchestrator.JobCall | src/app/infrastructure/ai/enrichment-service.ts:71-74 | a job-status update is one store call that touches neither the results nor the product writes |
| Orchestrator.ResultCall | src/app/infrastructure/ai/enrichment-service.ts:95-99 | saving a result is one store call that touches neither the jobs nor the product writes |
| Orchestrator.ProductCall | src/app/infrastructure/ai/enrichment-service.ts:88-92 | a product update is one call that leaves the job store alone |
| Orchestrator.Recover | src/app/infrastructure/ai/enrichment-service.ts:109-128 | the catch block makes at least one store call |
| Orchestrator.TryProduct | src/app/infrastructure/ai/enrichment-service.ts:80-108 | the try block never undoes store calls |
| Orchestrator.ProductPass | src/app/infrastructure/ai/enrichment-service.ts:80-128 | every product makes at least one store call |
| Orchestrator.Loop | src/app/infrastructure/ai/enrichment-service.ts:77-129 | the loop never undoes store calls |
| Orchestrator.ResultsOf | src/app/infrastructure/ai/enrichment-service.ts:95-99 | one result per product |
| Orchestrator.WritesOf | src/app/infrastructure/ai/enrichment-service.ts:88-92 | at most one write per product |
| Orchestrator.Overwrites | src/app/infrastructure/ai/enrichment-service.ts:132-137 | an update that sets every field of an earlier one erases its effect |
| Orchestrator.ProductPassWithoutFaults | src/app/infrastructure/ai/enrichment-service.ts:80-128 | without faults a product is counted once and leaves its result, its write when enriched, and its progress update |
| Orchestrator.LoopCountsEveryProduct | src/app/infrastructure/ai/enrichment-service.ts:77-129 | without faults the loop runs to the end and counts every product once |
| Orchestrator.LoopRecordsEveryProduct | src/app/infrastructure/ai/enrichment-service.ts:95-99 | without faults the loop records one result per product, in product order, with success iff enrichment succeeded, carrying the merged keys or the error |
| Orchestrator.LoopWritesEnrichedProducts | src/app/infrastructure/ai/enrichment-service.ts:88-92 | without faults every enriched product with a well-formed identifier is written with its merged attributes, in product order |
| Orchestrator.LoopReportsProgress | src/app/infrastructure/ai/enrichment-service.ts:102-108 | without faults the job's progress and processed count end at the last count and no other job changes |
| Orchestrator.LoopWithoutFaults | src/app/infrastructure/ai/enrichment-service.ts:77-129 | the four loop properties together |
| Orchestrator.RunWithoutFaults | src/app/infrastructure/ai/enrichment-service.ts:69-137 | without faults the run starts the job, runs the loop to the end and reaches the completion update |
| Orchestrator.ProcessSpec | src/app/infrastructure/ai/enrichment-service.ts:64-147 | definition of the run; JobWithoutFaults, RunWithoutFaults, StartFailureTouchesNoProduct and FailJobMarksFailed state its properties, and ProcessEnrichmentJob is proved to have its effect |
| Orchestrator.JobWithoutFaults | src/app/infrastructure/ai/enrichment-service.ts:64-147 | without faults the job ends completed with progress 100 and every product counted, also for no products; one result per product in order; every enriched product written |
| Orchestrator.CompletedJob | src/app/infrastructure/ai/enrichment-service.ts:132-137 | the completion update leaves the job completed with progress 100 and the total counted, with the rest of the record as it was |
| Orchestrator.StartFailureTouchesNoProduct | src/app/infrastructure/ai/enrichment-service.ts:138-146 | when the processing update fails, no product is written or recorded and the job is marked failed with that error |
| Orchestrator.FailedProductContinues | src/app/infrastructure/ai/enrichment-service.ts:109-128 | a failed product records a failed result with its error and no keys, is counted, and the loop continues |
| Orchestrator.FailedProgressUpdateCountsTwice | src/app/infrastructure/ai/enrichment-service.ts:102-128 | a progress update that throws after a successful product sends it through the catch block as well: it is counted twice and gets a second, failed result |
| Orchestrator.FailJobMarksFailed | src/app/infrastructure/ai/enrichment-service.ts:138-146 | an escaping error marks the job failed with its message |
| Orchestrator.UpdateJob | src/app/infrastructure/ai/enrichment-service.ts:71-74 | the store method call has exactly the effect of the specified job call |
| Orchestrator.SaveResult | src/app/infrastructure/ai/enrichment-service.ts:95-99 | the store method call has exactly the effect of the specified result call |
| Orchestrator.RecordFailure | src/app/infrastructure/ai/enrichment-service.ts:109-128 | the catch block's calls have exactly the effect of the specified recovery |
| Orchestrator.TryEnrich | src/app/infrastructure/ai/enrichment-service.ts:80-108 | the try block's calls have exactly the effect of the specified attempt |
| Orchestrator.EnrichOne | src/app/infrastructure/ai/enrichment-service.ts:79-128 | one loop iteration has exactly the effect of the specified product pass |
| Orchestrator.RunProducts | src/app/infrastructure/ai/enrichment-service.ts:77-129 | the loop over the products has exactly the effect of the specified loop |
| Orchestrator.ProcessEnrichmentJob | src/app/infrastructure/ai/enrichment-service.ts:64-147 | the whole run leaves the store, the product writes and the call count exactly as the specification says |
| Orchestrator.Ids | src/app/infrastructure/ai/enrichment-service.ts:38-39 | one identifier per element, the identifier of the element at the same position |
| Orchestrator.StartSpec | src/app/infrastructure/ai/enrichment-service.ts:33-58 | definition of the start; StartFailureRunsNothing and StartWithoutFaults state its properties, and StartEnrichmentJob is proved to have its effect |
| Orchestrator.StartFailureRunsNothing | src/app/infrastructure/ai/enrichment-service.ts:41-44 | when the job cannot be created, the error is returned and nothing else happens |
| Orchestrator.StartWithoutFaults | src/app/infrastructure/ai/enrichment-service.ts:33-58 | without faults the new job's identifier is returned and that job ends completed with every product counted; other jobs are untouched; results and writes are those of the run |
| Orchestrator.StartEnrichmentJob | src/app/infrastructure/ai/enrichment-service.ts:33-58 | creating the job, running it and recording an escaping error has exactly the effect of the specification |
| Validators.ValidateAttribute | src/app/lib/validators.ts:5-47 | checks in order name, display name, type, then options of a select type and units of a measure, each iff the earlier ones pass; valid iff all pass |
| Validators.ListsMatterOnlyToTheirTypes | src/app/lib/validators.ts:34-46 | options and units do not matter to any other type |
| Validators.ListChecks | src/app/lib/validators.ts:34-44 | a select type fails for options iff they are missing or empty, a measure for units likewise |
| Validators.FirstEntryErrorFindsFirst | src/app/lib/validators.ts:60-74 | no error iff no entry has an empty key or a nullish value; otherwise the message of the first such entry |
| Validators.ValidateProduct | src/app/lib/validators.ts:50-77 | a missing name fails first; without an attribute list, valid iff named |
| Validators.ProductValidity | src/app/lib/validators.ts:50-77 | valid iff named and every entry has a key and a present value; otherwise the message names the first faulty entry |
| Validators.ValidateFileType | src/app/lib/validators.ts:80-101 | accepted iff the extension is csv, xlsx or xls, as "csv" iff csv and as "excel" iff xlsx or xls; "File has no extension" iff the extension is empty; "Unsupported file type" iff it is any other non-empty text |
| Validators.Extension | src/app/lib/validators.ts:85 | definition of the extension; ExtensionIsLastSuffix, EmptyExtension and ExtensionIgnoresCase state its properties |
| Validators.ExtensionIsLastSuffix | src/app/lib/validators.ts:85 | the extension is the lower-cased text after the last dot, or the whole name when there is none |
| Validators.EmptyExtension | src/app/lib/validators.ts:87-89 | the extension is empty iff the name is empty or ends with a dot |
| Validators.ExtensionIgnoresCase | src/app/lib/validators.ts:85 | the extension of the lower-cased name is the extension of the name |
| Validators.FileTypeIgnoresCase | src/app/lib/validators.ts:85-100 | names that differ only in letter case get the same verdict |
| Measures.DigitRun | src/app/lib/file-processors/csv-processor.ts:86 | the length of the leading run of digits, stopped by a non-digit or the end |
| Measures.SpaceRun | src/app/lib/file-processors/csv-processor.ts:86 | the length of the leading run of whitespace, stopped by a non-space or the end |
| Measures.NumberLength | src/app/lib/file-processors/csv-processor.ts:86 | the number group covers the digits and, when present, the fraction |
| Measures.FractionSound | src/app/lib/file-processors/csv-processor.ts:86 | the fraction is digits and the number group reads whole part, dot, fraction |
| Measures.ParseUnitSound | src/app/lib/file-processors/csv-processor.ts:86 | an accepted remainder is a non-empty run of whitespace followed by the unit letters |
| Measures.ParseMeasure | src/app/lib/file-processors/csv-processor.ts:85-87 | definition of the measure pattern match; ParseMeasureSound and ParseMeasureComplete prove it accepts exactly the number-gap-unit texts |
| Measures.ParseMeasureSound | src/app/lib/file-processors/csv-processor.ts:85-87 | every accepted text is a number, a non-empty whitespace gap and a unit of letters, and nothing else |
| Measures.NumberComplete | src/app/lib/file-processors/csv-processor.ts:86 | a number followed by whitespace is read back with exactly its parts |
| Measures.UnitComplete | src/app/lib/file-processors/csv-processor.ts:86 | a whitespace gap followed by letters is read back as that unit |
| Measures.ParseMeasureComplete | src/app/lib/file-processors/csv-processor.ts:85-87 | every number-gap-unit text is accepted with exactly its parts, so the recogniser matches the pattern both ways |
| Measures.Pow10 | src/app/lib/file-processors/csv-processor.ts:91 | the scale 10^n of an n-digit fraction, at least 1; FractionBelowOne and MeasureValueBounds state what the parsed value means |
| Measures.MeasureValue | src/app/lib/file-processors/csv-processor.ts:91 | without a fraction, the value is the whole part |
| Measures.FractionBelowOne | src/app/lib/file-processors/csv-processor.ts:91 | the digits after the point are worth less than one |
| Measures.MeasureValueBounds | src/app/lib/file-processors/csv-processor.ts:91 | the parsed number lies in [whole part, whole part + 1) |
| Importers.FirstTruthyPicks | src/app/lib/file-processors/csv-processor.ts:29-41 | a fallback chain yields its first truthy value, and "" when every value is falsy |
| Importers.Present | src/app/lib/file-processors/csv-processor.ts:56-100 | no more entries than cells |
| Importers.PresentMembers | src/app/lib/file-processors/csv-processor.ts:56-100 | an entry is in the list iff some cell contributed it |
| Importers.PresentAppend | src/app/lib/file-processors/csv-processor.ts:57 | entries follow the column order (the collection distributes over concatenation) |
| Importers.MapRecords | src/app/lib/file-processors/csv-processor.ts:26 | one product per record |
| Importers.MapRecordsPerRecord | src/app/lib/file-processors/csv-processor.ts:26 | product i is the mapping of record i |
| Wrappers.NonEmpty | src/app/lib/file-processors/csv-processor.ts:102-104 | absent iff the list is empty, and otherwise exactly the list: the importers' `attr` field, and the `$and` of product-repository.ts lines 131-133 |
| Importers.SplitImages | src/app/lib/file-processors/csv-processor.ts:50 | one reference per comma-separated piece, and never none |
| Importers.CsvImages | src/app/lib/file-processors/csv-processor.ts:47-53 | definition of the CSV image list; ImagesTrimmed (through SplitImages) states its properties |
| Importers.ExcelImages | src/app/lib/file-processors/excel-processor.ts:38-45 | definition of the Excel image list; ImagesTrimmed (through SplitImages) states its properties |
| Importers.ImagesTrimmed | src/app/lib/file-processors/csv-processor.ts:50 | every image reference is its comma-separated piece with the surrounding whitespace removed, so it is trimmed and free of commas |
| Importers.CsvChain | src/app/lib/file-processors/csv-processor.ts:29-41 | the `||` chain over the fallback columns, "" when all are empty; FirstTruthyPicks states its meaning, the first truthy value |
| Importers.CsvEntries | src/app/lib/file-processors/csv-processor.ts:57-100 | one possible entry per cell |
| Importers.CsvProduct | src/app/lib/file-processors/csv-processor.ts:26-107 | the product is not enriched and carries `attr` only for a non-empty list |
| Importers.CollectCsvAttrs | src/app/lib/file-processors/csv-processor.ts:56-100 | the loop pushes exactly the specified entries |
| Importers.MapCsvRecord | src/app/lib/file-processors/csv-processor.ts:26-107 | the per-record steps build exactly the specified product |
| Importers.CsvProducts | src/app/lib/file-processors/csv-processor.ts:26 | one product per record |
| Importers.CsvProductsPerRecord | src/app/lib/file-processors/csv-processor.ts:26-45 | product i is the mapping of record i, and none is enriched |
| Importers.ProcessCsvRecords | src/app/lib/file-processors/csv-processor.ts:26-107 | the record loop builds exactly the specified products |
| Importers.CsvEntry | src/app/lib/file-processors/csv-processor.ts:58-99 | definition of a CSV cell's entry; CsvEntryMeaning and CsvMeasureCell state its properties |
| Importers.CsvEntryMeaning | src/app/lib/file-processors/csv-processor.ts:58-99 | no entry iff a basic column or an empty cell; otherwise keyed by the column, a number with its unit for a measure text, else the text |
| Importers.CsvAttrsFromCells | src/app/lib/file-processors/csv-processor.ts:58-99 | no attribute is named after a basic column or holds an empty text, and each comes from a cell of the record |
| Importers.CsvMeasureCell | src/app/lib/file-processors/csv-processor.ts:85-93 | a measure-looking cell becomes its number with its unit |
| Importers.ExcelEntries | src/app/lib/file-processors/excel-processor.ts:49-89 | one possible entry per cell |
| Importers.ExcelProduct | src/app/lib/file-processors/excel-processor.ts:27-96 | the product is not enriched and carries `attr` only for a non-empty list |
| Importers.CollectExcelAttrs | src/app/lib/file-processors/excel-processor.ts:48-89 | the loop pushes exactly the specified entries |
| Importers.MapExcelRecord | src/app/lib/file-processors/excel-processor.ts:27-96 | the per-record steps build exactly the specified product |
| Importers.ExcelProducts | src/app/lib/file-processors/excel-processor.ts:27 | one product per record |
| Importers.ExcelProductsPerRecord | src/app/lib/file-processors/excel-processor.ts:27-36 | product i is the mapping of record i, and none is enriched |
| Importers.ProcessExcelRecords | src/app/lib/file-processors/excel-processor.ts:27-96 | the record loop builds exactly the specified products |
| Importers.ExcelEntry | src/app/lib/file-processors/excel-processor.ts:51-89 | definition of an Excel cell's entry; ExcelKeepsZeroAndFalse, ExcelMeasuresFromTextOnly and CapitalisedColumnsDiffer state its properties |
| Importers.ExcelKeepsZeroAndFalse | src/app/lib/file-processors/excel-processor.ts:68-70 | `0` and `false` are kept as attribute values |
| Importers.ExcelMeasuresFromTextOnly | src/app/lib/file-processors/excel-processor.ts:73-88 | a non-empty cell that is not text is stored as it is |
| Importers.CapitalisedColumnsDiffer | src/app/lib/file-processors/excel-processor.ts:51-64 | "Product Name" and "Brand" become attributes in an Excel import and never in a CSV import |
| Importers.ExcelAttrsFromCells | src/app/lib/file-processors/excel-processor.ts:51-89 | every attribute comes from a non-empty cell of a non-basic column |
| ProductQuery.Conditions | src/app/infrastructure/repositories/mongodb/product-repository.ts:77-129 | at most one condition per filter entry |
| ProductQuery.ConditionFor | src/app/infrastructure/repositories/mongodb/product-repository.ts:79-127 | definition of one filter entry's clause; ConditionShapes and RangeBounds state its properties |
| ProductQuery.ConditionShapes | src/app/infrastructure/repositories/mongodb/product-repository.ts:79-127 | no condition iff the value is undefined, null or ""; the key is kept; an array gives membership; an object with neither bound, or a scalar, gives equality |
| ProductQuery.EmptyArrayStillFilters | src/app/infrastructure/repositories/mongodb/product-repository.ts:83-92 | an empty array still yields a membership condition |
| ProductQuery.RangeBounds | src/app/infrastructure/repositories/mongodb/product-repository.ts:93-120 | a range comes from an object with at least one bound, with `$gte` iff `min` is given and `$lte` iff `max` is given, carrying their values |
| ProductQuery.ConditionsAppend | src/app/infrastructure/repositories/mongodb/product-repository.ts:79 | conditions follow the filter order |
| ProductQuery.ConditionsFromEntries | src/app/infrastructure/repositories/mongodb/product-repository.ts:79-129 | a condition is built iff some filter entry contributes it |
| ProductQuery.NoConditions | src/app/infrastructure/repositories/mongodb/product-repository.ts:79-133 | no condition is built iff every filter value is undefined, null or "" |
| ProductQuery.AndOnlyWithConditions | src/app/infrastructure/repositories/mongodb/product-repository.ts:131-133 | the query has `$and` iff some filter value is set, and then a non-empty one |
| ProductQuery.BuildersAgree | src/app/infrastructure/repositories/mongodb/product-repository.ts:298-334 | the list/count query and the vector-search match use the same conditions |
| ProductQuery.CollectConditions | src/app/infrastructure/repositories/mongodb/product-repository.ts:79-129 | the loop, building ranges bound by bound, pushes exactly the specified conditions |
| ProductQuery.BuildQuery | src/app/infrastructure/repositories/mongodb/product-repository.ts:73-134 | the query built is the specified one, and its `$and` is the non-empty list of conditions |
| ProductQuery.PagesAdjoin | src/app/infrastructure/repositories/mongodb/product-repository.ts:71 | page 1 skips nothing and each page starts `limit` after the previous one |
| ProductQuery.Direction | src/app/infrastructure/repositories/mongodb/product-repository.ts:162 | the direction is -1 or 1, and -1 iff the order is "desc" |
| ProductQuery.IndexOf | src/app/infrastructure/repositories/mongodb/product-repository.ts:142 | a found position is where the pattern occurs |
| ProductQuery.IndexOfFindsFirst | src/app/infrastructure/repositories/mongodb/product-repository.ts:142 | not found iff no occurrence; otherwise no earlier occurrence exists |
| ProductQuery.SortOf | src/app/infrastructure/repositories/mongodb/product-repository.ts:140-175 | definition of the sort choice; SortSelection and AttributeSortRoundTrip state its properties |
| ProductQuery.SortSelection | src/app/infrastructure/repositories/mongodb/product-repository.ts:140-175 | a sort field starting with "attr." sorts by the attribute named after the prefix; any other sorts by the field itself; both with the order's direction |
| ProductQuery.AttributeSortRoundTrip | src/app/infrastructure/repositories/mongodb/product-repository.ts:140-142 | sorting by "attr." plus a name sorts by that attribute name |
| ProductQuery.PlanListProducts | src/app/infrastructure/repositories/mongodb/product-repository.ts:69-187 | the query, sort, skip and limit of `listProducts` are the specified ones |
| ProductQuery.BuildVectorPipeline | src/app/infrastructure/repositories/mongodb/product-repository.ts:336-370 | the pipeline uses index "product_vector_index" with 100 candidates, asks for 2·limit matches, filters with the list-query conditions and caps at limit |
| ProductQuery.Matching | src/app/infrastructure/repositories/mongodb/product-repository.ts:350-353 | the `$match` stage keeps at most the products it is given |
| ProductQuery.MatchingSound | src/app/infrastructure/repositories/mongodb/product-repository.ts:350-353 | a product passes iff it satisfies every condition |
| ProductQuery.SelectedSound | src/app/infrastructure/repositories/mongodb/product-repository.ts:344-369 | at most limit results, each among the first 2·limit ranked matches and satisfying the filter |
| ProductQuery.SearchProductsWithVector | src/app/infrastructure/repositories/mongodb/product-repository.ts:290-390 | definition of the search with its fallback; VectorSearchResults and FallbackPlan state its properties |
| ProductQuery.VectorSearchResults | src/app/infrastructure/repositories/mongodb/product-repository.ts:290-390 | on success, at most limit products in ranked order, each from the first 2·limit matches and satisfying the filters; on error, the `listProducts` fallback |
| ProductQuery.FallbackPlan | src/app/infrastructure/repositories/mongodb/product-repository.ts:382-388 | the fallback lists page 1 by name ascending, with the same conditions and limit |
| ProductQuery.IsAttributeInUse | src/app/infrastructure/repositories/mongodb/product-repository.ts:283-289 | definition of the in-use test; InUseIffSomeEntry proves it holds iff some product has an entry with that key |
| ProductQuery.InUseIffSomeEntry | src/app/infrastructure/repositories/mongodb/product-repository.ts:283-289 | an attribute is in use iff some product has an entry with that key |
| Prompts.FormatProductAttributes | src/app/infrastructure/ai/llm/prompt-templates.ts:152-174 | definition of the attribute listing; PlaceholderIffNoAttributes, AttributeLines and ValueRendering state its properties |
| Prompts.AttributeLines | src/app/infrastructure/ai/llm/prompt-templates.ts:157-172 | one line per attribute, in order |
| Prompts.PlaceholderIffNoAttributes | src/app/infrastructure/ai/llm/prompt-templates.ts:152-174 | "No attributes available" iff the attribute list is missing or empty |
| Prompts.ValueRendering | src/app/infrastructure/ai/llm/prompt-templates.ts:159-167 | a unit gives "v u" and wins; otherwise an array is joined with ", "; otherwise `String(v)`; an empty unit counts as none |
| Prompts.ZeroConfidenceNotShown | src/app/infrastructure/ai/llm/prompt-templates.ts:169-171 | a zero confidence shows no suffix, just like an absent one |
| Prompts.SimilarBlocks | src/app/infrastructure/ai/llm/prompt-templates.ts:56-65 | one block per similar product |
| Prompts.SimilarProductsSection | src/app/infrastructure/ai/llm/prompt-templates.ts:52-71 | no similar products gives the fixed limited-context text |
| Prompts.SimilarNumbering | src/app/infrastructure/ai/llm/prompt-templates.ts:58-59 | the similar products are numbered 1, 2, ... in list order |
| Prompts.AttributeBlocks | src/app/infrastructure/ai/llm/prompt-templates.ts:76-101 | one block per attribute to generate, in order |
| Prompts.ConstraintLines | src/app/infrastructure/ai/llm/prompt-templates.ts:82-98 | options only for select types, units only for measure, max length only for short_text, defaulting to 50 |
| Prompts.EmptyBarcodeOmitted | src/app/infrastructure/ai/llm/prompt-templates.ts:36 | an empty barcode leaves the line out exactly as a missing one does |
| Prompts.GenerationPrompt | src/app/infrastructure/ai/llm/prompt-templates.ts:26-150 | definition only: the product, similar-product and attribute sections joined in order; no property of the whole prompt is proved, only of its sections (the rows above) |
| VectorSearch.Take | src/app/infrastructure/ai/vector-search/mongodb-vector-search.ts:107 | a prefix of at most n elements, the whole list when it fits |
| VectorSearch.Project | src/app/infrastructure/ai/vector-search/mongodb-vector-search.ts:45-55 | the projection drops `attr` and keeps identifier, name and brand |
| VectorSearch.ProjectAll | src/app/infrastructure/ai/vector-search/mongodb-vector-search.ts:45-55 | each result is projected, position by position |
| VectorSearch.WithAttributes | src/app/infrastructure/ai/vector-search/mongodb-vector-search.ts:102-106 | exactly the products with a non-empty `attr` |
| VectorSearch.WithFirstAttribute | src/app/infrastructure/ai/vector-search/mongodb-vector-search.ts:118-122 | exactly the products with an `attr.0` |
| VectorSearch.Alternative | src/app/infrastructure/ai/vector-search/mongodb-vector-search.ts:94-148 | at most limit products from the collection; [] when a tier throws; otherwise the first non-empty tier capped at limit |
| VectorSearch.TierFiltersAgree | src/app/infrastructure/ai/vector-search/mongodb-vector-search.ts:102-122 | the first two tiers select the same products |
| VectorSearch.SecondTierRedundant | src/app/infrastructure/ai/vector-search/mongodb-vector-search.ts:118-143 | when the first tier finds nothing the second cannot either, so the answer is the third tier's |
| VectorSearch.FindSimilarProducts | src/app/infrastructure/ai/vector-search/mongodb-vector-search.ts:12-77 | at most limit products; the projected vector results when the embedding is non-empty, the index exists and the query returns something; otherwise the alternative search |
| VectorSearch.VectorResultsCarryNoAttributes | src/app/infrastructure/ai/vector-search/mongodb-vector-search.ts:45-55 | products from the vector stage carry no `attr` |
| VectorSearch.Embedding | src/app/infrastructure/ai/vector-search/embedding-service.ts:10-43 | the service's vector, or 1536 zeros when the service fails |
| VectorSearch.FailedEmbeddingStillQueries | src/app/infrastructure/ai/vector-search/embedding-service.ts:41 | the zero vector is not empty, so the search still runs the vector query |
| VectorSearch.IndexExists | src/app/infrastructure/ai/vector-search/mongodb-vector-search.ts:80-91 | definition of the index check; FindSimilarProducts and CreateVectorSearchIndex state how the search and the creation depend on it |
| VectorSearch.CreateVectorSearchIndex | src/app/infrastructure/ai/vector-search/mongodb-vector-search.ts:175-223 | creation is attempted iff the listing succeeds without "vector_index"; already present iff listed; never throws |
| Text.Trim | src/app/lib/file-processors/csv-processor.ts:50 | the text with its leading and trailing whitespace removed: an infix of the input with only whitespace around it, that neither starts nor ends with whitespace |
| Text.Split | src/app/lib/validators.ts:85 | `split` always yields at least one piece |
| Text.SplitPiecesFree | src/app/lib/validators.ts:85 | no piece contains the separator |
| Text.JoinSplit | src/app/lib/validators.ts:85 | joining the pieces with the separator gives the text back |
| Text.SinglePiece | src/app/lib/validators.ts:85 | one piece iff the separator does not occur, and then the piece is the text |
| Text.LastPieceIsSuffix | src/app/lib/validators.ts:85 | the last piece is the suffix after the last separator |
| Text.Lower | src/app/lib/validators.ts:85 | lower-casing keeps the length |
| Text.SplitLower | src/app/lib/validators.ts:85 | splitting on a non-letter commutes with lower-casing |
| Text.NatToString | src/app/infrastructure/ai/llm/prompt-templates.ts:59 | a count renders as a non-empty run of digits |
| Types.FindDef | src/app/infrastructure/ai/langchain/chains/attribute-generation-chain.ts:63-64 | none iff no definition has the name; otherwise a definition with that name |
| Json.Get | src/app/infrastructure/repositories/mongodb/product-repository.ts:95 | a missing property reads as undefined; a present one reads as one of its values |

## Left out

- I/O is an input to the model. This covers `fetch` of the import files, the `csv-parse` and `XLSX` readers, the language-model and embedding HTTP calls, and the database driver. Their results are parameters: parsed records, model replies, query outcomes and fault maps.
- Timestamps (`importedAt`, `createdAt`, `updatedAt`, `completedAt`, `enrichedAt`) are not modelled. Consequently `modifiedCount` is modelled as "some non-timestamp field changed".
- The fire-and-forget promise of `startEnrichmentJob` is not modelled, nor concurrent jobs. `Orchestrator.StartEnrichmentJob` runs the job to completion before returning its identifier. A rejection of the `.catch` block's own update is unobservable in the source and is dropped.
- Enrichment.ScoredConfidenceInUnit: the bound relies on the reply's `confidence` being a number or absent, because the parsed entry types it as a real. The source never checks it: a non-numeric truthy value such as `"high"` passes `confidence || 0.7` into the weighted sum, which yields NaN, and the clamp keeps NaN as the stored confidence.
- Floating point is replaced by exact arithmetic. Weights, metrics and scores are reals; `parseFloat` of a recognised measure is the exact decimal (`Measures.MeasureValue`). `Number(...)`, number-to-text and `toFixed(2)` are function parameters, and NaN is their absent result.
- Text is modelled as sequences of Unicode scalar values, not UTF-16 code units, so a character outside the Basic Multilingual Plane counts once here and twice in the source. Lengths and `substring` differ on such text: `Confidence.ValidateFormat`'s 50-character test for short_text gives 1 here and 0 in the source for 26 emoji (52 code units), and `Generation.Truncate` to 50 keeps 50 emoji here and 25 in the source. `toLowerCase` lower-cases ASCII letters only; the whitespace of `trim` and `\s` is JavaScript's full set (`Text.IsSpace`).
- Orchestrator.PercentRounds: progress rounds the exact rational 100·i/n, while the source rounds a double. The two differ when the double lands just below a half: 29 of 200 gives 15 here, but 29/200*100 is 14.499999999999998 in the source, which rounds to 14.
- Objects are modelled as ordered key/value lists in insertion order. `Object.entries` listing integer-like keys first is not modelled, nor are duplicate column names in an import record.
- Validators.ValidateProduct: an `attr` field that is present but not an array is modelled as absent.
- Search limits are positive. The enrichment service calls the similar-product search with 10, and `limit(0)` meaning "no limit" is not modelled.
- MongoDB's comparison of attribute values inside `$elemMatch` (`$in`, `$gte`, `$lte`, equality) is a predicate parameter. The order `$sort` produces is not modelled; the list plan records the sort it asks for. `$vectorSearch` ranking is an input list, and `numCandidates` is recorded but has no effect.
- `mapToProduct`'s conversion of `_id` to a string is not modelled. A vector-search result keeps the product's fields, and the projection resets `enriched` to its default.
- `updateProduct` on the product repository is a recorded write (`Orchestrator.ProductWrite`), not a change to a product collection.
- Orchestrator.EnrichWith: every product of a job is enriched against one fixed product collection (`env.db`). In the source, `updateProduct` changes the live collection, and the alternative search's first tier reads it, so a later product can get an earlier product's newly written attributes as similar-product context (for instance after a fresh import where every `attr` is empty). The model does not capture this; the merged attributes of `LoopWritesEnrichedProducts` and `JobWithoutFaults` are those of enrichment against the collection as it was when the job started.
- The in-place reassignment of `attr.v` inside `parseResponse` and the in-place growth of the import `attr` arrays are modelled as values built by loop methods. Aliasing of those objects is not captured.
- The fixed instruction text of the prompt and the system prompt are not modelled. `Prompts.GenerationPrompt` covers the product, similar-product and attribute sections.
- `storeProductEmbedding`, the attribute repository, the product CRUD beyond the queries above, the HTTP routes, the connection setup and the user interface are not part of this model.

=== FILE: confidence.dfy ===
/**
 * Confidence scoring of a generated attribute value: a per-type weight row,
 * a weighted sum of four metrics clamped to [0, 1], and the per-type format
 * validity score that feeds one of the metrics.
 */
module Confidence {
  import opened Wrappers
  import opened Json

  /** The four metrics, in the order the weight rows enumerate them. */
  datatype Metric = ContextualMatch | FormatValidity | SourceReliability | LlmConfidence

  /** A weight row: (metric, weight) pairs in enumeration order. */
  type Row = seq<(Metric, real)>

  function MakeRow(contextual: real, format: real, source: real, llm: real): Row
  {
    [(ContextualMatch, contextual), (FormatValidity, format), (SourceReliability, source), (LlmConfidence, llm)]
  }

  const DEFAULT_ROW: Row := MakeRow(0.4, 0.3, 0.2, 0.1)
  const SHORT_TEXT_ROW: Row := MakeRow(0.5, 0.2, 0.2, 0.1)
  const RICH_TEXT_ROW: Row := MakeRow(0.3, 0.4, 0.2, 0.1)
  const NUMERIC_ROW: Row := MakeRow(0.3, 0.5, 0.1, 0.1)
  const SELECT_ROW: Row := MakeRow(0.6, 0.2, 0.1, 0.1)

  /** The keys of the weight table, `default` included. */
  const TABLE_KEYS: set<string> :=
    {"default", "short_text", "rich_text", "number", "measure", "single_select", "multiple_select"}

  /**
   * The properties every object literal inherits. Looking one of these up in
   * the weight table yields a truthy function or object whose own enumerable
   * entries are empty, so the `|| weights.default` fallback does not apply.
   */
  const PROTOTYPE_NAMES: set<string> := {
    "constructor", "toString", "toLocaleString", "valueOf", "hasOwnProperty",
    "isPrototypeOf", "propertyIsEnumerable", "__proto__", "__defineGetter__",
    "__defineSetter__", "__lookupGetter__", "__lookupSetter__"}

  /** `weights[attributeType] || weights.default`, as the entries the loop then iterates. */
  function WeightsFor(attributeType: string): Row
  {
    match attributeType
    case "short_text" => SHORT_TEXT_ROW
    case "rich_text" => RICH_TEXT_ROW
    case "number" => NUMERIC_ROW
    case "measure" => NUMERIC_ROW
    case "single_select" => SELECT_ROW
    case "multiple_select" => SELECT_ROW
    case _ => if attributeType in PROTOTYPE_NAMES then [] else DEFAULT_ROW
  }

  /** `metrics[metric] || 0`: a missing metric counts as zero. */
  function MetricValue(metrics: map<Metric, real>, m: Metric): real
  {
    if m in metrics then metrics[m] else 0.0
  }

  /** The weighted sum of the metrics over a row, accumulated left to right. */
  function WeightedSum(row: Row, metrics: map<Metric, real>): real
  {
    if row == [] then 0.0
    else WeightedSum(row[..|row| - 1], metrics) + MetricValue(metrics, row[|row| - 1].0) * row[|row| - 1].1
  }

  /** The sum of a row's weights. */
  function TotalWeight(row: Row): real
  {
    if row == [] then 0.0 else TotalWeight(row[..|row| - 1]) + row[|row| - 1].1
  }

  predicate NonNegativeWeights(row: Row) {
    forall i :: 0 <= i < |row| ==> row[i].1 >= 0.0
  }

  /** `Math.max(0, Math.min(1, x))`. */
  function Clamp(x: real): (r: real)
    ensures 0.0 <= r <= 1.0
    ensures 0.0 <= x <= 1.0 ==> r == x
    ensures x < 0.0 ==> r == 0.0
    ensures x > 1.0 ==> r == 1.0
  {
    if x < 0.0 then 0.0 else if x > 1.0 then 1.0 else x
  }

  /** The score `calculateConfidence` returns; it depends on the type and the metrics only. */
  function Score(attributeType: string, metrics: map<Metric, real>): real
  {
    Clamp(WeightedSum(WeightsFor(attributeType), metrics))
  }

  /**
   * `calculateConfidence(attributeType, value, metrics)`: the loop over the
   * weight row accumulates the weighted sum, which is then clamped. The
   * `value` argument is accepted and never read.
   */
  method CalculateConfidence(attributeType: string, value: Value, metrics: map<Metric, real>)
    returns (score: real)
    ensures score == Score(attributeType, metrics)
    ensures 0.0 <= score <= 1.0
  {
    var typeWeights := WeightsFor(attributeType);
    var confidenceScore := 0.0;
    var i := 0;
    while i < |typeWeights|
      invariant 0 <= i <= |typeWeights|
      invariant confidenceScore == WeightedSum(typeWeights[..i], metrics)
    {
      var (metric, weight) := typeWeights[i];
      assert typeWeights[..i + 1][..i] == typeWeights[..i];
      confidenceScore := confidenceScore + MetricValue(metrics, metric) * weight;
      i := i + 1;
    }
    assert typeWeights[..i] == typeWeights;
    score := Clamp(confidenceScore);
  }

  /** Every row of the table has non-negative weights summing to exactly 1, and names each metric once. */
  lemma RowsAreDistributions(attributeType: string)
    requires attributeType !in PROTOTYPE_NAMES
    ensures var row := WeightsFor(attributeType);
      |row| == 4 && NonNegativeWeights(row) && TotalWeight(row) == 1.0 &&
      row[0].0 == ContextualMatch && row[1].0 == FormatValidity &&
      row[2].0 == SourceReliability && row[3].0 == LlmConfidence
  {
    var row := WeightsFor(attributeType);
    assert TotalWeight(row[..1]) == row[0].1 by { assert row[..1][..0] == []; }
    assert TotalWeight(row[..2]) == row[0].1 + row[1].1 by { assert row[..2][..1] == row[..1]; }
    assert TotalWeight(row[..3]) == row[0].1 + row[1].1 + row[2].1 by { assert row[..3][..2] == row[..2]; }
    assert row[..4] == row;
  }

  /** A type without a row of its own, `long_text` among them, is weighted by the default row. */
  lemma UnlistedTypesUseDefault(attributeType: string)
    requires attributeType !in TABLE_KEYS && attributeType !in PROTOTYPE_NAMES
    ensures WeightsFor(attributeType) == DEFAULT_ROW
  {
  }

  /** An inherited property name selects no weights at all, so the score is 0 whatever the metrics. */
  lemma PrototypeNamesScoreZero(attributeType: string, metrics: map<Metric, real>)
    requires attributeType in PROTOTYPE_NAMES
    ensures Score(attributeType, metrics) == 0.0
  {
  }

  /** With every metric at most 1, a non-negative row's sum is at most the row's total weight. */
  lemma {:induction false} SumBelowTotal(row: Row, metrics: map<Metric, real>)
    requires NonNegativeWeights(row)
    requires forall m :: 0.0 <= MetricValue(metrics, m) <= 1.0
    ensures 0.0 <= WeightedSum(row, metrics) <= TotalWeight(row)
  {
    if row != [] {
      var last := row[|row| - 1];
      var init := row[..|row| - 1];
      assert NonNegativeWeights(init) by {
        forall i | 0 <= i < |init| ensures init[i].1 >= 0.0 { assert init[i] == row[i]; }
      }
      SumBelowTotal(init, metrics);
      var x, w := MetricValue(metrics, last.0), last.1;
      Scaled(x, w);
      var sum, total := WeightedSum(init, metrics), TotalWeight(init);
      assert TotalWeight(row) == total + w;
      assert WeightedSum(row, metrics) == sum + x * w;
      AddBounds(sum, total, x * w, w);
    }
  }

  /** Adding a term bounded by its weight keeps a sum bounded by its total. */
  lemma AddBounds(sum: real, total: real, term: real, weight: real)
    requires 0.0 <= sum <= total && 0.0 <= term <= weight
    ensures 0.0 <= sum + term <= total + weight
  {
  }

  /** A weight scaled by a metric in [0, 1] stays between 0 and the weight. */
  lemma Scaled(x: real, weight: real)
    requires 0.0 <= x <= 1.0 && 0.0 <= weight
    ensures 0.0 <= x * weight <= weight
  {
    assert weight - x * weight == (1.0 - x) * weight;
  }

  /** When every metric lies in [0, 1], the unclamped sum already does, so the clamp changes nothing. */
  lemma UnclampedSumInUnit(attributeType: string, metrics: map<Metric, real>)
    requires forall m :: 0.0 <= MetricValue(metrics, m) <= 1.0
    ensures 0.0 <= WeightedSum(WeightsFor(attributeType), metrics) <= 1.0
    ensures Score(attributeType, metrics) == WeightedSum(WeightsFor(attributeType), metrics)
  {
    var row := WeightsFor(attributeType);
    if attributeType !in PROTOTYPE_NAMES {
      RowsAreDistributions(attributeType);
    }
    SumBelowTotal(row, metrics);
  }

  /** Over a non-negative row, raising metrics never lowers the weighted sum. */
  lemma {:induction false} SumMonotone(row: Row, lo: map<Metric, real>, hi: map<Metric, real>)
    requires NonNegativeWeights(row)
    requires forall m :: MetricValue(lo, m) <= MetricValue(hi, m)
    ensures WeightedSum(row, lo) <= WeightedSum(row, hi)
  {
    if row != [] {
      var last := row[|row| - 1];
      var init := row[..|row| - 1];
      assert NonNegativeWeights(init) by {
        forall i | 0 <= i < |init| ensures init[i].1 >= 0.0 { assert init[i] == row[i]; }
      }
      SumMonotone(init, lo, hi);
      assert MetricValue(lo, last.0) * last.1 <= MetricValue(hi, last.0) * last.1 by {
        assert last.1 >= 0.0;
      }
    }
  }

  /** The score is monotone: raising any metric (one or several) never lowers it. */
  lemma ScoreMonotone(attributeType: string, lo: map<Metric, real>, hi: map<Metric, real>)
    requires forall m :: MetricValue(lo, m) <= MetricValue(hi, m)
    ensures Score(attributeType, lo) <= Score(attributeType, hi)
  {
    if attributeType !in PROTOTYPE_NAMES {
      RowsAreDistributions(attributeType);
    }
    SumMonotone(WeightsFor(attributeType), lo, hi);
  }

  /**
   * `validateFormat(attributeType, value)`. `None` is the TypeError thrown
   * by `"v" in value` when a measure's value is `null`.
   */
  function ValidateFormat(f: Foreign, attributeType: string, value: Value): (r: Option<real>)
    ensures r.None? <==> attributeType == "measure" && value.Null?
    ensures r.Some? ==> r.value == 0.0 || r.value == 0.5 || r.value == 1.0
    ensures r == Some(0.5) <==>
      attributeType !in {"short_text", "long_text", "rich_text", "number", "single_select", "multiple_select", "measure"}
  {
    match attributeType
    case "short_text" => Some(if value.Str? && |value.s| <= 50 then 1.0 else 0.0)
    case "long_text" => Some(if value.Str? then 1.0 else 0.0)
    case "rich_text" => Some(if value.Str? then 1.0 else 0.0)
    case "number" =>
      Some(if value.Num? || (value.Str? && ToNumber(f, value).Some?) then 1.0 else 0.0)
    case "single_select" => Some(if value.Str? then 1.0 else 0.0)
    case "multiple_select" => Some(if value.Arr? then 1.0 else 0.0)
    case "measure" =>
      if !TypeofObject(value) then Some(0.0)
      else if value.Null? then None
      else if value.Arr? then Some(0.0)
      else
        var v := Get(value.fields, "v");
        Some(if Has(value.fields, "v") && Has(value.fields, "u") && (v.Num? || ToNumber(f, v).Some?)
             then 1.0 else 0.0)
    case _ => Some(0.5)
  }

  /** The per-type validity rules, with the short_text limit fixed at 50 characters. */
  lemma ValidityRules(f: Foreign, value: Value)
    ensures value.Str? ==>
      ValidateFormat(f, "short_text", value) == Some(if |value.s| <= 50 then 1.0 else 0.0)
    ensures ValidateFormat(f, "number", value) == Some(1.0) <==>
      value.Num? || (value.Str? && f.parseNumber(value.s).Some?)
    ensures ValidateFormat(f, "multiple_select", value) == Some(1.0) <==> value.Arr?
    ensures ValidateFormat(f, "measure", value) == Some(1.0) <==>
      value.Obj? && Has(value.fields, "v") && Has(value.fields, "u") &&
      ToNumber(f, Get(value.fields, "v")).Some?
    ensures ValidateFormat(f, "measure", value).Some? && !value.Obj? ==>
      ValidateFormat(f, "measure", value) == Some(0.0)
  {
  }
}

=== FILE: enrichment.dfy ===
/**
 * `enrichProduct`: embed the product text, retrieve similar products, run
 * the generation chain on them, score each generated value, and merge the
 * scored values over the product's existing attributes.
 */
module Enrichment {
  import opened Wrappers
  import opened Json
  import opened Types
  import opened Confidence
  import Generation
  import Rag
  import VectorSearch

  /** Everything `enrichProduct` consults outside its own code. */
  datatype EnrichEnv = EnrichEnv(
    f: Foreign,
    parse: Generation.JsonParse,
    complete: Generation.Completion,
    /** The embedding service's reply for a text, or the error it throws internally. */
    embed: string -> Result<seq<real>>,
    db: VectorSearch.SearchDb)

  /** The metric value used when the generated entry carries no truthy confidence. */
  const DEFAULT_CONFIDENCE: real := 0.7
  const SOURCE_RELIABILITY: real := 0.8
  /** The TypeError `validateFormat` throws for a measure whose value is `null`. */
  const NULL_IN_ERROR := "Cannot use 'in' operator to search for 'v' in null"

  /** `${product.name} ${product.brand} ${product.barcode || ""}`. */
  function ProductText(p: Product): string
  {
    p.name + " " + p.brand + " " + (if Filled(p.barcode) then p.barcode.value else "")
  }

  /** `attr.confidence || 0.7`. */
  function PriorConfidence(a: ProductAttribute): real
  {
    if a.confidence.Some? && a.confidence.value != 0.0 then a.confidence.value else DEFAULT_CONFIDENCE
  }

  /** The metrics passed to `calculateConfidence`. */
  function Metrics(prior: real, formatValidity: real): map<Metric, real>
  {
    map[ContextualMatch := prior, FormatValidity := formatValidity,
        SourceReliability := SOURCE_RELIABILITY, LlmConfidence := prior]
  }

  /**
   * The confidence assignment for one generated entry: an entry without a
   * definition passes through unchanged; otherwise its confidence becomes
   * the score of its type and metrics.
   */
  function ScoreOne(f: Foreign, defs: seq<Attribute>, a: ProductAttribute): (r: Result<ProductAttribute>)
    ensures FindDef(defs, a.k).None? ==> r == Ok(a)
    ensures r.Err? <==> FindDef(defs, a.k).Some? && FindDef(defs, a.k).value.typ == "measure" && a.v.Null?
    ensures r.Ok? && FindDef(defs, a.k).Some? ==>
      var def := FindDef(defs, a.k).value;
      r.value == a.(confidence := Some(Score(def.typ, Metrics(PriorConfidence(a), ValidateFormat(f, def.typ, a.v).value))))
  {
    var def := FindDef(defs, a.k);
    if def.None? then Ok(a)
    else
      var formatValidity := ValidateFormat(f, def.value.typ, a.v);
      if formatValidity.None? then Err(NULL_IN_ERROR)
      else Ok(a.(confidence := Some(Score(def.value.typ, Metrics(PriorConfidence(a), formatValidity.value)))))
  }

  /** `generatedAttributes.map(...)`: every entry scored, or the first error thrown. */
  function ScoreAll(f: Foreign, defs: seq<Attribute>, generated: seq<ProductAttribute>): (r: Result<seq<ProductAttribute>>)
    ensures r.Ok? <==> forall i :: 0 <= i < |generated| ==> ScoreOne(f, defs, generated[i]).Ok?
    ensures r.Ok? ==> |r.value| == |generated|
    ensures r.Ok? ==> forall i :: 0 <= i < |generated| ==> Ok(r.value[i]) == ScoreOne(f, defs, generated[i])
  {
    if generated == [] then Ok([])
    else
      var first := ScoreOne(f, defs, generated[0]);
      if first.Err? then Err(first.error)
      else
        var rest := ScoreAll(f, defs, generated[1..]);
        if rest.Err? then Err(rest.error)
        else Ok([first.value] + rest.value)
  }

  /** Every scored confidence lies in [0, 1], and keys, values and units are those generated. */
  lemma {:induction false} ScoredConfidenceInUnit(f: Foreign, defs: seq<Attribute>, generated: seq<ProductAttribute>)
    requires ScoreAll(f, defs, generated).Ok?
    ensures var scored := ScoreAll(f, defs, generated).value;
      forall i :: 0 <= i < |scored| ==>
        scored[i].k == generated[i].k && scored[i].v == generated[i].v && scored[i].u == generated[i].u &&
        (FindDef(defs, generated[i].k).Some? ==>
          scored[i].confidence.Some? && 0.0 <= scored[i].confidence.value <= 1.0)
  {
    var scored := ScoreAll(f, defs, generated).value;
    forall i | 0 <= i < |scored|
      ensures scored[i].k == generated[i].k && scored[i].v == generated[i].v && scored[i].u == generated[i].u
      ensures FindDef(defs, generated[i].k).Some? ==>
          scored[i].confidence.Some? && 0.0 <= scored[i].confidence.value <= 1.0
    {
      assert Ok(scored[i]) == ScoreOne(f, defs, generated[i]);
    }
  }

  /**
   * The format validity a parsed entry earns: its value already has its
   * type's shape, so only a long short_text value scores 0, and a measure,
   * whose value is a bare number, always scores 0.
   */
  lemma ParsedFormatValidity(f: Foreign, def: Attribute, a: ProductAttribute)
    requires Generation.Conforms(def, a)
    ensures def.typ == "measure" ==> ValidateFormat(f, def.typ, a.v) == Some(0.0)
    ensures def.typ == "short_text" ==> ValidateFormat(f, def.typ, a.v) == Some(if |a.v.s| <= 50 then 1.0 else 0.0)
    ensures def.typ !in {"measure", "short_text"} ==> ValidateFormat(f, def.typ, a.v) == Some(1.0)
  {
  }

  /** Scoring never throws on what the generation chain returns. */
  lemma ParsedEntriesScore(f: Foreign, defs: seq<Attribute>, generated: seq<ProductAttribute>)
    requires forall j :: 0 <= j < |generated| ==>
      FindDef(defs, generated[j].k).Some? && Generation.Conforms(FindDef(defs, generated[j].k).value, generated[j])
    ensures ScoreAll(f, defs, generated).Ok?
  {
    forall i | 0 <= i < |generated|
      ensures ScoreOne(f, defs, generated[i]).Ok?
    {
      var def := FindDef(defs, generated[i].k).value;
      if def.typ == "measure" {
        assert generated[i].v.Num?;
      }
    }
  }

  /** `existing.filter((attr) => !generated.some((ea) => ea.k === attr.k))`. */
  function KeepUnreplaced(existing: seq<ProductAttribute>, keys: seq<string>): (r: seq<ProductAttribute>)
    ensures |r| <= |existing|
  {
    if existing == [] then []
    else
      var rest := KeepUnreplaced(existing[1..], keys);
      if existing[0].k !in keys then [existing[0]] + rest else rest
  }

  /** An existing attribute survives exactly when its key is not replaced. */
  lemma {:induction false} KeepUnreplacedMembers(existing: seq<ProductAttribute>, keys: seq<string>)
    ensures forall a :: a in KeepUnreplaced(existing, keys) <==> a in existing && a.k !in keys
  {
    if existing != [] {
      KeepUnreplacedMembers(existing[1..], keys);
      assert forall a :: a in existing <==> a == existing[0] || a in existing[1..];
    }
  }

  /** The surviving existing attributes keep their relative order. */
  lemma {:induction false} KeepUnreplacedAppend(xs: seq<ProductAttribute>, ys: seq<ProductAttribute>, keys: seq<string>)
    ensures KeepUnreplaced(xs + ys, keys) == KeepUnreplaced(xs, keys) + KeepUnreplaced(ys, keys)
  {
    if xs == [] {
      assert xs + ys == ys;
    } else {
      var zs := xs + ys;
      assert zs[0] == xs[0] && zs[1..] == xs[1..] + ys;
      KeepUnreplacedAppend(xs[1..], ys, keys);
      var rest, right := KeepUnreplaced(xs[1..], keys), KeepUnreplaced(ys, keys);
      if xs[0].k !in keys {
        assert KeepUnreplaced(zs, keys) == [xs[0]] + (rest + right);
        assert KeepUnreplaced(xs, keys) == [xs[0]] + rest;
        assert [xs[0]] + (rest + right) == ([xs[0]] + rest) + right;
      } else {
        assert KeepUnreplaced(zs, keys) == rest + right;
        assert KeepUnreplaced(xs, keys) == rest;
      }
    }
  }


  /** The combined attribute list: unreplaced existing attributes, then every generated one. */
  function Merge(existing: seq<ProductAttribute>, generated: seq<ProductAttribute>): (r: seq<ProductAttribute>)
    ensures |r| >= |generated| && r[|r| - |generated|..] == generated
    ensures forall a :: a in r <==> a in generated || (a in existing && a.k !in Keys(generated))
  {
    KeepUnreplacedMembers(existing, Keys(generated));
    KeepUnreplaced(existing, Keys(generated)) + generated
  }

  lemma KeyOf(xs: seq<ProductAttribute>, a: ProductAttribute)
    requires a in xs
    ensures a.k in Keys(xs)
  {
    var i :| 0 <= i < |xs| && xs[i] == a;
    assert Keys(xs)[i] == a.k;
  }

  lemma WitnessOfKey(xs: seq<ProductAttribute>, k: string) returns (a: ProductAttribute)
    requires k in Keys(xs)
    ensures a in xs && a.k == k
  {
    var i :| 0 <= i < |xs| && Keys(xs)[i] == k;
    a := xs[i];
  }

  /**
   * A generated value replaces any existing value with the same key, and an
   * existing attribute whose key is not generated survives unchanged.
   */
  lemma MergeReplaces(existing: seq<ProductAttribute>, generated: seq<ProductAttribute>)
    ensures forall a :: a in Merge(existing, generated) && a.k in Keys(generated) ==> a in generated
    ensures forall a :: a in existing && a.k !in Keys(generated) ==> a in Merge(existing, generated)
  {
  }

  /** The merged keys are exactly the existing keys and the generated keys. */
  lemma MergeKeys(existing: seq<ProductAttribute>, generated: seq<ProductAttribute>, k: string)
    ensures k in Keys(Merge(existing, generated)) <==> k in Keys(existing) || k in Keys(generated)
  {
    var r := Merge(existing, generated);
    if k in Keys(r) {
      var a := WitnessOfKey(r, k);
      if a in generated { KeyOf(generated, a); } else { KeyOf(existing, a); }
    }
    if k in Keys(generated) {
      var a := WitnessOfKey(generated, k);
      KeyOf(r, a);
    } else if k in Keys(existing) {
      var a := WitnessOfKey(existing, k);
      KeyOf(r, a);
    }
  }

  /** The generation chain's outcome for the product: its similar products come from the search on its embedding. */
  function Generated(env: EnrichEnv, p: Product, defs: seq<Attribute>): (r: Result<seq<ProductAttribute>>)
    ensures r.Ok? ==> forall j :: 0 <= j < |r.value| ==>
      FindDef(defs, r.value[j].k).Some? && Generation.Conforms(FindDef(defs, r.value[j].k).value, r.value[j])
  {
    var embedding := VectorSearch.Embedding(env.embed(ProductText(p)));
    var similar := VectorSearch.FindSimilarProducts(embedding, VectorSearch.DEFAULT_LIMIT, env.db);
    Rag.RagRun(env.f, env.parse, env.complete, p, similar, defs)
  }

  /**
   * `enrichProduct(product, attributesToEnrich)`: it fails exactly when the
   * generation chain fails, and otherwise returns the scored values merged
   * over the existing attributes.
   */
  function EnrichProduct(env: EnrichEnv, p: Product, defs: seq<Attribute>): (r: Result<seq<ProductAttribute>>)
    ensures r.Err? <==> Generated(env, p, defs).Err?
    ensures r.Err? ==> r.error == Generated(env, p, defs).error
    ensures r.Ok? ==> ScoreAll(env.f, defs, Generated(env, p, defs).value).Ok?
    ensures r.Ok? ==> r.value == Merge(AttrsOf(p), ScoreAll(env.f, defs, Generated(env, p, defs).value).value)
  {
    var generated := Generated(env, p, defs);
    if generated.Err? then Err(generated.error)
    else
      ParsedEntriesScore(env.f, defs, generated.value);
      Ok(Merge(AttrsOf(p), ScoreAll(env.f, defs, generated.value).value))
  }

  /**
   * When the vector stage answers, its products lack attributes, so no
   * similar product reaches the prompt.
   */
  lemma VectorMatchesGiveNoContext(env: EnrichEnv, p: Product, defs: seq<Attribute>)
    requires VectorSearch.VectorPathTaken(VectorSearch.Embedding(env.embed(ProductText(p))), VectorSearch.DEFAULT_LIMIT, env.db)
    ensures Rag.FilterRelevant(
      VectorSearch.FindSimilarProducts(VectorSearch.Embedding(env.embed(ProductText(p))), VectorSearch.DEFAULT_LIMIT, env.db),
      defs) == []
  {
    var similar := VectorSearch.FindSimilarProducts(VectorSearch.Embedding(env.embed(ProductText(p))), VectorSearch.DEFAULT_LIMIT, env.db);
    VectorSearch.VectorResultsCarryNoAttributes(VectorSearch.Embedding(env.embed(ProductText(p))), VectorSearch.DEFAULT_LIMIT, env.db);
    NoneRelevant(similar, defs);
  }

  lemma {:induction false} NoneRelevant(similar: seq<Product>, defs: seq<Attribute>)
    requires forall q :: q in similar ==> q.attr.None?
    ensures Rag.FilterRelevant(similar, defs) == []
  {
    if similar != [] {
      assert similar[0] in similar;
      NoneRelevant(similar[1..], defs);
    }
  }
}

=== FILE: generation.dfy ===
/**
 * The attribute-generation step: the prompt goes to the completion backend,
 * and `parseResponse` cuts the JSON array out of the reply, parses it and
 * keeps, coerced to its declared type, each entry that names a target
 * attribute and passes that type's acceptance rule.
 */
module Generation {
  import opened Wrappers
  import opened Json
  import opened Types
  import Prompts

  /**
   * `JSON.parse` applied to the extracted text, with the elements that have
   * no `k` already dropped; `None` is a parse failure or a `null` element,
   * whose `.k` throws and makes the whole reply yield no attributes.
   */
  type JsonParse = string -> Option<seq<ProductAttribute>>

  /** The completion backend: a prompt in, the reply text or the error it throws out. */
  type Completion = string -> Result<string>

  function FirstIndex(s: string, c: char): (r: Option<nat>)
    ensures r.None? <==> c !in s
    ensures r.Some? ==> r.value < |s| && s[r.value] == c && c !in s[..r.value]
  {
    if s == [] then None
    else if s[0] == c then Some(0)
    else
      var r := FirstIndex(s[1..], c);
      if r.None? then None
      else
        assert s[..r.value + 1] == [s[0]] + s[1..][..r.value];
        Some(r.value + 1)
  }

  function LastIndex(s: string, c: char): (r: Option<nat>)
    ensures r.None? <==> c !in s
    ensures r.Some? ==> r.value < |s| && s[r.value] == c && c !in s[r.value + 1..]
  {
    if s == [] then None
    else if s[|s| - 1] == c then Some(|s| - 1)
    else
      var r := LastIndex(s[..|s| - 1], c);
      if r.None? then None
      else
        assert s[r.value + 1..] == s[..|s| - 1][r.value + 1..] + [s[|s| - 1]];
        Some(r.value)
  }

  /**
   * `response.match(/\[[\s\S]*\]/)`: the greedy span from the first `[` to
   * the last `]`, present exactly when some `[` is followed by some `]`.
   */
  function ExtractArray(response: string): (r: Option<string>)
    ensures r.None? <==>
      !exists i, j :: 0 <= i < j < |response| && response[i] == '[' && response[j] == ']'
    ensures r.Some? ==>
      exists i, j :: 0 <= i < j < |response| && response[i] == '[' && response[j] == ']' &&
        r.value == response[i..j + 1] && '[' !in response[..i] && ']' !in response[j + 1..]
  {
    var first := FirstIndex(response, '[');
    var last := LastIndex(response, ']');
    if first.Some? && last.Some? && first.value < last.value then
      Some(response[first.value..last.value + 1])
    else
      None
  }

  /** `s.length > limit ? s.substring(0, limit) : s`; a negative limit cuts to the empty string. */
  function Truncate(s: string, limit: int): (r: string)
    ensures |r| <= |s| && r == s[..|r|]
    ensures |s| <= limit ==> r == s
    ensures |s| > limit ==> |r| == (if limit < 0 then 0 else limit)
  {
    if |s| > limit then s[..if limit < 0 then 0 else limit] else s
  }

  /** `options?.includes(v)`: strict equality with one of the declared options. */
  predicate IsOption(options: Option<seq<string>>, v: Value) {
    options.Some? && v.Str? && v.s in options.value
  }

  /** `items.every((v) => options?.includes(v))`. */
  predicate AllOptions(options: Option<seq<string>>, items: seq<Value>) {
    forall i :: 0 <= i < |items| ==> IsOption(options, items[i])
  }

  /** A value that is not already a number becomes `Number(v)`; a NaN drops the entry. */
  function AsNumber(f: Foreign, a: ProductAttribute): (r: Option<ProductAttribute>)
    ensures r.Some? <==> ToNumber(f, a.v).Some?
    ensures r.Some? ==> r.value == a.(v := Num(ToNumber(f, a.v).value))
  {
    if a.v.Num? then Some(a)
    else
      var n := ToNumber(f, a.v);
      if n.None? then None else Some(a.(v := Num(n.value)))
  }

  /** The shape a kept entry has, by the type of its definition. */
  predicate Conforms(def: Attribute, a: ProductAttribute) {
    match def.typ
    case "short_text" =>
      var limit := Prompts.MaxLengthOrDefault(def.maxLength);
      a.v.Str? && |a.v.s| <= (if limit < 0 then 0 else limit)
    case "long_text" => a.v.Str?
    case "rich_text" => a.v.Str?
    case "number" => a.v.Num?
    case "single_select" => IsOption(def.options, a.v)
    case "multiple_select" => a.v.Arr? && AllOptions(def.options, a.v.items)
    case "measure" => a.v.Num? && Filled(a.u) && def.units.Some? && a.u.value in def.units.value
    case _ => false
  }

  /**
   * The per-type branch of the filter callback: the entry with its value
   * coerced in place, or `None` when the callback returns false.
   */
  function Coerce(f: Foreign, def: Attribute, a: ProductAttribute): (r: Option<ProductAttribute>)
    ensures r.Some? ==> r.value.k == a.k && r.value.u == a.u && r.value.confidence == a.confidence
    ensures r.Some? ==> Conforms(def, r.value)
  {
    match def.typ
    case "short_text" =>
      Some(a.(v := Str(Truncate(ToText(f, a.v), Prompts.MaxLengthOrDefault(def.maxLength)))))
    case "long_text" => Some(a.(v := Str(ToText(f, a.v))))
    case "rich_text" => Some(a.(v := Str(ToText(f, a.v))))
    case "number" => AsNumber(f, a)
    case "single_select" =>
      var s := Str(ToText(f, a.v));
      if IsOption(def.options, s) then Some(a.(v := s)) else None
    case "multiple_select" =>
      if a.v.Arr? then
        (if AllOptions(def.options, a.v.items) then Some(a) else None)
      else if a.v.Str? then
        (if AllOptions(def.options, [a.v]) then Some(a.(v := Arr([a.v]))) else None)
      else None
    case "measure" =>
      var b := AsNumber(f, a);
      if b.Some? && Filled(b.value.u) && def.units.Some? && b.value.u.value in def.units.value then b else None
    case _ => None
  }

  /** The filter callback for one parsed entry: it needs a target attribute of the same name. */
  function KeepEntry(f: Foreign, defs: seq<Attribute>, a: ProductAttribute): (r: Option<ProductAttribute>)
    ensures r.Some? ==> FindDef(defs, a.k).Some? && r == Coerce(f, FindDef(defs, a.k).value, a)
  {
    var def := FindDef(defs, a.k);
    if def.None? then None else Coerce(f, def.value, a)
  }

  /** The entries the filter keeps, in their original order, each coerced. */
  function KeepAll(f: Foreign, defs: seq<Attribute>, entries: seq<ProductAttribute>): (r: seq<ProductAttribute>)
    ensures |r| <= |entries|
    ensures forall j :: 0 <= j < |r| ==> FindDef(defs, r[j].k).Some? && Conforms(FindDef(defs, r[j].k).value, r[j])
  {
    if entries == [] then []
    else
      var kept := KeepAll(f, defs, entries[..|entries| - 1]);
      var last := KeepEntry(f, defs, entries[|entries| - 1]);
      if last.Some? then kept + [last.value] else kept
  }

  /** `parseResponse(response, attributesToEnrich)`; every failure yields the empty list. */
  function ParseSpec(f: Foreign, parse: JsonParse, response: string, defs: seq<Attribute>): (r: seq<ProductAttribute>)
    ensures ExtractArray(response).None? ==> r == []
    ensures ExtractArray(response).Some? && parse(ExtractArray(response).value).None? ==> r == []
    ensures forall j :: 0 <= j < |r| ==> FindDef(defs, r[j].k).Some? && Conforms(FindDef(defs, r[j].k).value, r[j])
  {
    var span := ExtractArray(response);
    if span.None? then []
    else
      var parsed := parse(span.value);
      if parsed.None? then [] else KeepAll(f, defs, parsed.value)
  }

  /** The filter loop of `parseResponse`, which coerces each kept entry's value in place. */
  method ParseResponse(f: Foreign, parse: JsonParse, response: string, attributesToEnrich: seq<Attribute>)
    returns (kept: seq<ProductAttribute>)
    ensures kept == ParseSpec(f, parse, response, attributesToEnrich)
  {
    var jsonMatch := ExtractArray(response);
    if jsonMatch.None? {
      return [];
    }
    var parsed := parse(jsonMatch.value);
    if parsed.None? {
      return [];
    }
    var attributes := parsed.value;
    kept := [];
    var i := 0;
    while i < |attributes|
      invariant 0 <= i <= |attributes|
      invariant kept == KeepAll(f, attributesToEnrich, attributes[..i])
    {
      var attr := attributes[i];
      var attributeDef := FindDef(attributesToEnrich, attr.k);
      if attributeDef.Some? {
        var coerced := Coerce(f, attributeDef.value, attr);
        if coerced.Some? {
          kept := kept + [coerced.value];
        }
      }
      assert attributes[..i + 1][..i] == attributes[..i];
      i := i + 1;
    }
    assert attributes[..i] == attributes;
  }

  /** Filtering distributes over concatenation, so the kept entries keep their relative order. */
  lemma {:induction false} KeepAllAppend(f: Foreign, defs: seq<Attribute>, xs: seq<ProductAttribute>, ys: seq<ProductAttribute>)
    ensures KeepAll(f, defs, xs + ys) == KeepAll(f, defs, xs) + KeepAll(f, defs, ys)
  {
    if ys != [] {
      var init := ys[..|ys| - 1];
      var zs := xs + ys;
      assert zs[..|zs| - 1] == xs + init && zs[|zs| - 1] == ys[|ys| - 1];
      KeepAllAppend(f, defs, xs, init);
      var left, kept := KeepAll(f, defs, xs), KeepAll(f, defs, init);
      var last := KeepEntry(f, defs, ys[|ys| - 1]);
      if last.Some? {
        assert KeepAll(f, defs, zs) == (left + kept) + [last.value];
        assert KeepAll(f, defs, ys) == kept + [last.value];
        assert (left + kept) + [last.value] == left + (kept + [last.value]);
      } else {
        assert KeepAll(f, defs, zs) == left + kept;
        assert KeepAll(f, defs, ys) == kept;
      }
    } else {
      assert xs + ys == xs;
    }
  }

  /** An entry is kept exactly when its callback accepts it, and then its coerced form is in the output. */
  lemma {:induction false} AcceptedEntriesKept(f: Foreign, defs: seq<Attribute>, entries: seq<ProductAttribute>, i: nat)
    requires i < |entries| && KeepEntry(f, defs, entries[i]).Some?
    ensures KeepEntry(f, defs, entries[i]).value in KeepAll(f, defs, entries)
  {
    var c := KeepEntry(f, defs, entries[i]).value;
    assert entries == entries[..i] + ([entries[i]] + entries[i + 1..]);
    KeepAllAppend(f, defs, entries[..i], [entries[i]] + entries[i + 1..]);
    KeepAllAppend(f, defs, [entries[i]], entries[i + 1..]);
    assert [entries[i]][..0] == [];
    assert KeepAll(f, defs, [entries[i]]) == [c];
  }

  /** Every output element is the coerced form of some parsed entry. */
  lemma {:induction false} KeptComeFromEntries(f: Foreign, defs: seq<Attribute>, entries: seq<ProductAttribute>, j: nat)
    requires j < |KeepAll(f, defs, entries)|
    ensures exists i :: 0 <= i < |entries| && KeepEntry(f, defs, entries[i]) == Some(KeepAll(f, defs, entries)[j])
  {
    var init := entries[..|entries| - 1];
    var kept := KeepAll(f, defs, init);
    if j < |kept| {
      KeptComeFromEntries(f, defs, init, j);
      var i :| 0 <= i < |init| && KeepEntry(f, defs, init[i]) == Some(kept[j]);
      assert entries[i] == init[i];
    } else {
      assert KeepEntry(f, defs, entries[|entries| - 1]) == Some(KeepAll(f, defs, entries)[j]);
    }
  }

  /** The acceptance and coercion rule of each attribute type, as the filter applies it. */
  lemma CoercionRules(f: Foreign, def: Attribute, a: ProductAttribute)
    // short_text: always kept, as a prefix of String(v) no longer than the limit
    ensures def.typ == "short_text" ==>
      var r := Coerce(f, def, a);
      var s := ToText(f, a.v);
      var limit := Prompts.MaxLengthOrDefault(def.maxLength);
      r.Some? && r.value.v.Str? && r.value.v.s == s[..|r.value.v.s|] &&
      (|s| <= limit ==> r.value.v.s == s) && (|s| > limit ==> |r.value.v.s| == if limit < 0 then 0 else limit)
    // long_text and rich_text: always kept, coerced to text
    ensures def.typ == "long_text" || def.typ == "rich_text" ==>
      Coerce(f, def, a) == Some(a.(v := Str(ToText(f, a.v))))
    // number: kept exactly when Number(v) is not NaN
    ensures def.typ == "number" ==>
      (Coerce(f, def, a).Some? <==> ToNumber(f, a.v).Some?)
    // measure: a number, and a non-empty unit among the declared units
    ensures def.typ == "measure" ==>
      (Coerce(f, def, a).Some? <==>
        ToNumber(f, a.v).Some? && Filled(a.u) && def.units.Some? && a.u.value in def.units.value)
    ensures (def.typ == "number" || def.typ == "measure") && Coerce(f, def, a).Some? ==>
      Coerce(f, def, a).value.v == Num(ToNumber(f, a.v).value)
    // single_select: exact, case-sensitive membership of String(v); nothing is corrected
    ensures def.typ == "single_select" ==>
      (Coerce(f, def, a).Some? <==> def.options.Some? && ToText(f, a.v) in def.options.value) &&
      (Coerce(f, def, a).Some? ==> Coerce(f, def, a).value.v == Str(ToText(f, a.v)))
    // multiple_select: a string is wrapped, another non-array is dropped, every element must be an option
    ensures def.typ == "multiple_select" && !a.v.Arr? && !a.v.Str? ==> Coerce(f, def, a).None?
    ensures def.typ == "multiple_select" && a.v.Str? ==>
      (Coerce(f, def, a).Some? <==> IsOption(def.options, a.v)) &&
      (Coerce(f, def, a).Some? ==> Coerce(f, def, a).value.v == Arr([a.v]))
    ensures def.typ == "multiple_select" && a.v.Arr? ==>
      (Coerce(f, def, a).Some? <==> AllOptions(def.options, a.v.items)) &&
      (Coerce(f, def, a).Some? ==> Coerce(f, def, a).value == a)
    // any other declared type: dropped
    ensures def.typ !in {"short_text", "long_text", "rich_text", "number", "single_select", "multiple_select", "measure"} ==>
      Coerce(f, def, a).None?
  {
    if def.typ == "multiple_select" && a.v.Str? {
      assert AllOptions(def.options, [a.v]) <==> IsOption(def.options, a.v) by {
        assert [a.v][0] == a.v;
      }
    }
  }

  /** Select matching is exact: a differently-cased option is rejected, and an empty selection passes. */
  lemma SelectMatchingIsExact(f: Foreign, def: Attribute, a: ProductAttribute)
    requires def.options == Some(["Red", "Blue"])
    ensures def.typ == "single_select" && a.v == Str("red") ==> Coerce(f, def, a).None?
    ensures def.typ == "single_select" && a.v == Str("Red") ==> Coerce(f, def, a) == Some(a)
    ensures def.typ == "multiple_select" && a.v == Arr([Str("Red"), Str("Purple")]) ==> Coerce(f, def, a).None?
    ensures def.typ == "multiple_select" && a.v == Arr([]) ==> Coerce(f, def, a) == Some(a)
  {
    if def.typ == "multiple_select" && a.v == Arr([Str("Red"), Str("Purple")]) {
      assert !IsOption(def.options, a.v.items[1]);
    }
  }

  /**
   * `AttributeGenerationChain.run`: the prompt goes to the completion backend;
   * its error is rethrown, and any reply at all yields the parsed list.
   */
  function GenerationRun(f: Foreign, parse: JsonParse, complete: Completion,
                         p: Product, similar: seq<Product>, defs: seq<Attribute>): (r: Result<seq<ProductAttribute>>)
    ensures r.Err? <==> complete(Prompts.GenerationPrompt(f, p, similar, defs)).Err?
    ensures r.Err? ==> r.error == complete(Prompts.GenerationPrompt(f, p, similar, defs)).error
    ensures r.Ok? ==> forall j :: 0 <= j < |r.value| ==>
      FindDef(defs, r.value[j].k).Some? && Conforms(FindDef(defs, r.value[j].k).value, r.value[j])
  {
    var response := complete(Prompts.GenerationPrompt(f, p, similar, defs));
    if response.Err? then Err(response.error)
    else Ok(ParseSpec(f, parse, response.value, defs))
  }
}

=== FILE: ids.dfy ===
/** Database identifiers as the repositories accept them. */
module ObjectIds {
  import Text

  predicate IsHexDigit(c: char) {
    '0' <= c <= '9' || 'a' <= c <= 'f' || 'A' <= c <= 'F'
  }

  /** `ObjectId.isValid(s)` for a string: exactly 24 hexadecimal digits. */
  predicate IsValid(s: string) {
    |s| == 24 && forall i :: 0 <= i < |s| ==> IsHexDigit(s[i])
  }

  /** `new ObjectId(s).toString()`: the lowercase spelling under which a record is found. */
  function Canonical(s: string): (r: string)
    ensures |r| == |s|
    ensures IsValid(s) ==> IsValid(r)
  {
    Text.Lower(s)
  }

  /** The canonical spelling is its own canonical form: canonicalising twice changes nothing. */
  lemma CanonicalIdempotent(s: string)
    ensures Canonical(Canonical(s)) == Canonical(s)
  {
    var c := Canonical(s);
    forall i | 0 <= i < |s|
      ensures Canonical(c)[i] == c[i]
    {
      assert c[i] == Text.LowerChar(s[i]);
    }
  }
}

=== FILE: importers.dfy ===
/**
 * The record-to-product mapping of the CSV and Excel importers. A parsed
 * record is an ordered list of (column, cell) pairs; each record becomes one
 * product whose name, brand, barcode and images come from fallback chains of
 * columns, and whose attribute list holds the remaining non-empty cells in
 * column order, a cell reading like "100 USD" becoming a measure.
 */
module Importers {
  import opened Wrappers
  import opened Json
  import opened Types
  import Text
  import opened Measures

  /** The product an importer produces, before the database assigns an identifier or a timestamp. */
  datatype ImportedProduct = ImportedProduct(
    name: Value,
    brand: Value,
    barcode: Value,
    images: seq<string>,
    enriched: bool,
    attr: Option<seq<ProductAttribute>>)

  /** The columns the CSV importer reads as basic fields and never turns into attributes. */
  const CSV_BASIC_KEYS: seq<string> := [
    "Product Name", "name", "product_name", "title", "Brand", "brand",
    "Barcode", "barcode", "sku", "product_code", "Images", "images", "image"]

  /** The columns the Excel importer reads as basic fields; only lower-case names. */
  const EXCEL_BASIC_KEYS: seq<string> := [
    "name", "product_name", "title", "brand", "barcode", "sku", "product_code", "images", "image"]

  /** `a || b || ... || ""`: the first truthy value, or the empty string. */
  function FirstTruthy(values: seq<Value>): Value
  {
    if values == [] then Str("")
    else if Truthy(values[0]) then values[0]
    else FirstTruthy(values[1..])
  }

  /** Value `i` is the first truthy one. */
  predicate FirstTruthyAt(values: seq<Value>, i: int) {
    0 <= i < |values| && Truthy(values[i]) && forall j :: 0 <= j < i ==> !Truthy(values[j])
  }

  /** A fallback chain yields its first truthy value, and the empty string when every value is falsy. */
  lemma {:induction false} FirstTruthyPicks(values: seq<Value>)
    ensures (forall i :: 0 <= i < |values| ==> !Truthy(values[i])) ==> FirstTruthy(values) == Str("")
    ensures forall i :: FirstTruthyAt(values, i) ==> FirstTruthy(values) == values[i]
  {
    if values != [] {
      FirstTruthyPicks(values[1..]);
      forall i | FirstTruthyAt(values, i) && i > 0
        ensures FirstTruthyAt(values[1..], i - 1)
      {
        assert forall j :: 0 <= j < i - 1 ==> values[1..][j] == values[j + 1];
      }
    }
  }

  /** `(key, value)` is the entry one cell contributes to the attribute list. */
  function MeasureEntry(key: string, m: Measure): ProductAttribute
    requires WellFormed(m)
  {
    ProductAttribute(key, Num(MeasureValue(m)), Some(m.unit), None)
  }

  /** The entries of the cells that contribute one, in column order. */
  function Present<T>(entries: seq<Option<T>>): (r: seq<T>)
    ensures |r| <= |entries|
  {
    if entries == [] then []
    else
      var last := entries[|entries| - 1];
      Present(entries[..|entries| - 1]) + (if last.Some? then [last.value] else [])
  }

  /** One more cell adds its entry, if any, at the end. */
  lemma PresentSnoc<T>(entries: seq<Option<T>>, i: nat)
    requires i < |entries|
    ensures Present(entries[..i + 1]) ==
      Present(entries[..i]) + (if entries[i].Some? then [entries[i].value] else [])
  {
    assert entries[..i + 1][..i] == entries[..i];
  }

  /** An entry is present exactly when some cell contributed it. */
  lemma {:induction false} PresentMembers<T>(entries: seq<Option<T>>)
    ensures forall x :: x in Present(entries) <==> Some(x) in entries
  {
    if entries != [] {
      var init := entries[..|entries| - 1];
      PresentMembers(init);
      assert entries == init + [entries[|entries| - 1]];
    }
  }

  /** Column order is kept: the entries of two runs of cells are those of the first followed by those of the second. */
  lemma {:induction false} PresentAppend<T>(xs: seq<Option<T>>, ys: seq<Option<T>>)
    ensures Present(xs + ys) == Present(xs) + Present(ys)
  {
    if ys != [] {
      var init := ys[..|ys| - 1];
      PresentAppend(xs, init);
      assert (xs + ys)[..|xs + ys| - 1] == xs + init;
      var tail := if ys[|ys| - 1].Some? then [ys[|ys| - 1].value] else [];
      assert (Present(xs) + Present(init)) + tail == Present(xs) + (Present(init) + tail);
    } else {
      assert xs + ys == xs;
    }
  }

  /** `records.map(g)`, built one record at a time. */
  function MapRecords<R, P>(g: R -> P, records: seq<R>): (r: seq<P>)
    ensures |r| == |records|
  {
    if records == [] then [] else MapRecords(g, records[..|records| - 1]) + [g(records[|records| - 1])]
  }

  lemma {:induction false} MapRecordsPerRecord<R, P>(g: R -> P, records: seq<R>)
    ensures forall i :: 0 <= i < |records| ==> MapRecords(g, records)[i] == g(records[i])
  {
    if records != [] {
      MapRecordsPerRecord(g, records[..|records| - 1]);
    }
  }

  /** `field.split(",").map((url) => url.trim())`. */
  function SplitImages(field: string): (r: seq<string>)
    ensures |r| == |Text.Split(field, ',')| && r != []
  {
    var pieces := Text.Split(field, ',');
    seq(|pieces|, i requires 0 <= i < |pieces| => Text.Trim(pieces[i]))
  }

  /**
   * Every image reference is its comma-separated piece with the surrounding
   * whitespace removed: trimmed, and free of commas.
   */
  lemma ImagesTrimmed(field: string)
    ensures forall i :: 0 <= i < |SplitImages(field)| ==>
      TrimmedFrom(Text.Split(field, ',')[i], SplitImages(field)[i]) && ',' !in SplitImages(field)[i]
  {
    Text.SplitPiecesFree(field, ',');
    var pieces := Text.Split(field, ',');
    forall i | 0 <= i < |pieces|
      ensures TrimmedFrom(pieces[i], Text.Trim(pieces[i])) && ',' !in Text.Trim(pieces[i])
    {
      PieceTrimmed(pieces[i]);
      TrimKeepsOnlyInner(pieces[i], ',');
    }
  }

  /** `image` is `piece` with only whitespace removed around it, and neither starts nor ends with whitespace. */
  ghost predicate TrimmedFrom(piece: string, image: string) {
    (exists a, b :: piece == a + image + b && Text.AllSpace(a) && Text.AllSpace(b)) &&
    (image == [] || (!Text.IsSpace(image[0]) && !Text.IsSpace(image[|image| - 1])))
  }

  lemma PieceTrimmed(s: string)
    ensures TrimmedFrom(s, Text.Trim(s))
  {
    var r := Text.Trim(s);
    var j, k :| 0 <= j <= k <= |s| && r == s[j..k] && Text.AllSpace(s[..j]) && Text.AllSpace(s[k..]);
    var a, b := s[..j], s[k..];
    ThreeParts(s, j, k);
    assert s == a + r + b && Text.AllSpace(a) && Text.AllSpace(b);
  }

  lemma ThreeParts(s: string, j: nat, k: nat)
    requires j <= k <= |s|
    ensures s == s[..j] + s[j..k] + s[k..]
  {
    assert s[..k] == s[..j] + s[j..k];
  }

  /** Trimming only removes characters. */
  lemma TrimKeepsOnlyInner(s: string, c: char)
    requires c !in s
    ensures c !in Text.Trim(s)
  {
    var t := Text.TrimStart(s);
    assert forall x :: x in t ==> x in s;
    var u := Text.TrimEnd(t);
    assert forall x :: x in u ==> x in t;
  }

  // ---- CSV ----

  /** A CSV record: every cell is text; a missing column reads as `undefined`, which behaves as "" below. */
  type CsvRecord = seq<(string, string)>

  /** `record[key]`, with a missing column as the empty string. */
  function CsvCell(record: CsvRecord, key: string): string
  {
    if record == [] then ""
    else if record[0].0 == key then record[0].1
    else CsvCell(record[1..], key)
  }

  /** `record[k1] || record[k2] || ... || ""` over CSV cells. */
  function CsvChain(record: CsvRecord, keys: seq<string>): (r: Value)
    ensures |keys| == 0 ==> r == Str("")
  {
    FirstTruthy(seq(|keys|, i requires 0 <= i < |keys| => Str(CsvCell(record, keys[i]))))
  }

  /** The images of a CSV record: the `Images` or `images` list, else the single `image`, else none. */
  function CsvImages(record: CsvRecord): seq<string>
  {
    var list := if CsvCell(record, "Images") != "" then CsvCell(record, "Images") else CsvCell(record, "images");
    if list != "" then SplitImages(list)
    else if CsvCell(record, "image") != "" then [Text.Trim(CsvCell(record, "image"))]
    else []
  }

  /** The entry a CSV cell contributes: none for a basic column or an empty cell, a measure for "100 USD", else the text. */
  function CsvEntry(key: string, value: string): Option<ProductAttribute>
  {
    if key in CSV_BASIC_KEYS || value == "" then None
    else
      match ParseMeasure(value)
      case Some(m) => (ParseMeasureSound(value); Some(MeasureEntry(key, m)))
      case None => Some(ProductAttribute(key, Str(value), None, None))
  }

  function CsvEntries(record: CsvRecord): (r: seq<Option<ProductAttribute>>)
    ensures |r| == |record|
  {
    seq(|record|, i requires 0 <= i < |record| => CsvEntry(record[i].0, record[i].1))
  }

  /** The attribute list the CSV importer's loop builds. */
  function CsvAttrs(record: CsvRecord): seq<ProductAttribute>
  {
    Present(CsvEntries(record))
  }

  /** The product a CSV record becomes. */
  function CsvProduct(record: CsvRecord): (p: ImportedProduct)
    ensures !p.enriched
    ensures p.attr == NonEmpty(CsvAttrs(record))
  {
    ImportedProduct(
      CsvChain(record, ["Product Name", "name", "product_name", "title"]),
      CsvChain(record, ["Brand", "brand"]),
      CsvChain(record, ["Barcode", "barcode", "sku", "product_code"]),
      CsvImages(record), false, NonEmpty(CsvAttrs(record)))
  }

  /** The loop over a CSV record's cells, pushing each contributed entry. */
  method CollectCsvAttrs(record: CsvRecord) returns (attr: seq<ProductAttribute>)
    ensures attr == CsvAttrs(record)
  {
    ghost var entries := CsvEntries(record);
    attr := [];
    var i := 0;
    while i < |record|
      invariant 0 <= i <= |record|
      invariant attr == Present(entries[..i])
    {
      var (key, value) := record[i];
      PresentSnoc(entries, i);
      assert entries[i] == CsvEntry(key, value);
      if key !in CSV_BASIC_KEYS && value != "" {
        var m := ParseMeasure(value);
        if m.Some? {
          ParseMeasureSound(value);
          attr := attr + [MeasureEntry(key, m.value)];
        } else {
          attr := attr + [ProductAttribute(key, Str(value), None, None)];
        }
      }
      i := i + 1;
    }
    assert entries[..i] == entries;
  }

  /** One CSV record: the basic fields, then the images and the attribute list assigned onto the product. */
  method MapCsvRecord(record: CsvRecord) returns (product: ImportedProduct)
    ensures product == CsvProduct(record)
  {
    product := ImportedProduct(
      CsvChain(record, ["Product Name", "name", "product_name", "title"]),
      CsvChain(record, ["Brand", "brand"]),
      CsvChain(record, ["Barcode", "barcode", "sku", "product_code"]),
      [], false, None);
    var list := if CsvCell(record, "Images") != "" then CsvCell(record, "Images") else CsvCell(record, "images");
    if list != "" {
      product := product.(images := SplitImages(list));
    } else if CsvCell(record, "image") != "" {
      product := product.(images := [Text.Trim(CsvCell(record, "image"))]);
    }
    var attr := CollectCsvAttrs(record);
    if |attr| > 0 {
      product := product.(attr := Some(attr));
    }
  }

  /** `records.map(...)` in the CSV importer. */
  function CsvProducts(records: seq<CsvRecord>): (r: seq<ImportedProduct>)
    ensures |r| == |records|
  {
    MapRecords(CsvProduct, records)
  }

  /** One product per record, in record order, none of them enriched. */
  lemma CsvProductsPerRecord(records: seq<CsvRecord>)
    ensures forall i :: 0 <= i < |records| ==> CsvProducts(records)[i] == CsvProduct(records[i])
    ensures forall i :: 0 <= i < |records| ==> !CsvProducts(records)[i].enriched
  {
    MapRecordsPerRecord(CsvProduct, records);
  }

  /** The mapping over the parsed records, one record at a time. */
  method ProcessCsvRecords(records: seq<CsvRecord>) returns (products: seq<ImportedProduct>)
    ensures products == CsvProducts(records)
  {
    products := [];
    for i := 0 to |records|
      invariant products == CsvProducts(records[..i])
    {
      var product := MapCsvRecord(records[i]);
      assert records[..i + 1][..i] == records[..i];
      products := products + [product];
    }
    assert records[..|records|] == records;
  }

  /**
   * What a CSV cell contributes: nothing for a basic column or an empty cell;
   * otherwise an entry under the column's name, holding the number and unit
   * when the text reads as a measure and the text itself when it does not.
   */
  lemma CsvEntryMeaning(key: string, value: string)
    ensures CsvEntry(key, value).None? <==> key in CSV_BASIC_KEYS || value == ""
    ensures CsvEntry(key, value).Some? ==> CsvEntry(key, value).value.k == key
    ensures CsvEntry(key, value).Some? && ParseMeasure(value).Some? ==>
      CsvEntry(key, value).value.u == Some(ParseMeasure(value).value.unit)
    ensures CsvEntry(key, value).Some? && ParseMeasure(value).None? ==>
      CsvEntry(key, value).value == ProductAttribute(key, Str(value), None, None)
  {
  }

  /** No CSV attribute is named after a basic column or holds an empty text, and each comes from one of the record's cells. */
  lemma CsvAttrsFromCells(record: CsvRecord)
    ensures forall a :: a in CsvAttrs(record) ==>
      a.k !in CSV_BASIC_KEYS && a.v != Str("") && exists i :: 0 <= i < |record| && a.k == record[i].0
  {
    var entries := CsvEntries(record);
    PresentMembers(entries);
    forall a | a in CsvAttrs(record)
      ensures a.k !in CSV_BASIC_KEYS && a.v != Str("") && exists i :: 0 <= i < |record| && a.k == record[i].0
    {
      var i :| 0 <= i < |entries| && entries[i] == Some(a);
      assert entries[i] == CsvEntry(record[i].0, record[i].1);
    }
  }

  /** A measure-looking CSV cell becomes a number with its unit. */
  lemma CsvMeasureCell(key: string, m: Measure, gap: string)
    requires key !in CSV_BASIC_KEYS && WellFormed(m) && gap != [] && Text.AllSpace(gap)
    ensures CsvEntry(key, Render(m, gap)) == Some(ProductAttribute(key, Num(MeasureValue(m)), Some(m.unit), None))
  {
    ParseMeasureComplete(m, gap);
    assert Render(m, gap) != "" by { assert |Render(m, gap)| >= |m.unit| > 0; }
  }

  // ---- Excel ----

  /** An Excel record: cells are JavaScript values as the sheet reader produces them. */
  type ExcelRecord = seq<(string, Value)>

  function ExcelChain(record: ExcelRecord, keys: seq<string>): Value
  {
    FirstTruthy(seq(|keys|, i requires 0 <= i < |keys| => Get(record, keys[i])))
  }

  /** The images of an Excel record: `String(images)` split on commas, else `String(image)`, else none. */
  function ExcelImages(f: Foreign, record: ExcelRecord): seq<string>
  {
    if Truthy(Get(record, "images")) then SplitImages(ToText(f, Get(record, "images")))
    else if Truthy(Get(record, "image")) then [Text.Trim(ToText(f, Get(record, "image")))]
    else []
  }

  /** `value === undefined || value === null || value === ""`. */
  predicate EmptyCell(value: Value) { value.Undefined? || value.Null? || value == Str("") }

  /** The entry an Excel cell contributes: the measure pattern is tried on text cells only. */
  function ExcelEntry(key: string, value: Value): Option<ProductAttribute>
  {
    if key in EXCEL_BASIC_KEYS || EmptyCell(value) then None
    else if value.Str? && ParseMeasure(value.s).Some? then
      var m := ParseMeasure(value.s).value;
      ParseMeasureSound(value.s);
      Some(MeasureEntry(key, m))
    else Some(ProductAttribute(key, value, None, None))
  }

  function ExcelEntries(record: ExcelRecord): (r: seq<Option<ProductAttribute>>)
    ensures |r| == |record|
  {
    seq(|record|, i requires 0 <= i < |record| => ExcelEntry(record[i].0, record[i].1))
  }

  function ExcelAttrs(record: ExcelRecord): seq<ProductAttribute>
  {
    Present(ExcelEntries(record))
  }

  /** The product an Excel record becomes. */
  function ExcelProduct(f: Foreign, record: ExcelRecord): (p: ImportedProduct)
    ensures !p.enriched
    ensures p.attr == NonEmpty(ExcelAttrs(record))
  {
    ImportedProduct(
      ExcelChain(record, ["name", "product_name", "title"]),
      ExcelChain(record, ["brand"]),
      ExcelChain(record, ["barcode", "sku", "product_code"]),
      ExcelImages(f, record), false, NonEmpty(ExcelAttrs(record)))
  }

  /** The loop over an Excel record's cells. */
  method CollectExcelAttrs(record: ExcelRecord) returns (attr: seq<ProductAttribute>)
    ensures attr == ExcelAttrs(record)
  {
    ghost var entries := ExcelEntries(record);
    attr := [];
    var i := 0;
    while i < |record|
      invariant 0 <= i <= |record|
      invariant attr == Present(entries[..i])
    {
      var (key, value) := record[i];
      PresentSnoc(entries, i);
      assert entries[i] == ExcelEntry(key, value);
      if key in EXCEL_BASIC_KEYS || EmptyCell(value) {
      } else if value.Str? && ParseMeasure(value.s).Some? {
        var m := ParseMeasure(value.s).value;
        ParseMeasureSound(value.s);
        attr := attr + [MeasureEntry(key, m)];
      } else {
        attr := attr + [ProductAttribute(key, value, None, None)];
      }
      i := i + 1;
    }
    assert entries[..i] == entries;
  }

  /** One Excel record: the basic fields, then the images and the attribute list assigned onto the product. */
  method MapExcelRecord(f: Foreign, record: ExcelRecord) returns (product: ImportedProduct)
    ensures product == ExcelProduct(f, record)
  {
    product := ImportedProduct(
      ExcelChain(record, ["name", "product_name", "title"]),
      ExcelChain(record, ["brand"]),
      ExcelChain(record, ["barcode", "sku", "product_code"]),
      [], false, None);
    if Truthy(Get(record, "images")) {
      product := product.(images := SplitImages(ToText(f, Get(record, "images"))));
    } else if Truthy(Get(record, "image")) {
      product := product.(images := [Text.Trim(ToText(f, Get(record, "image")))]);
    }
    var attr := CollectExcelAttrs(record);
    if |attr| > 0 {
      product := product.(attr := Some(attr));
    }
  }

  /** `records.map(...)` in the Excel importer. */
  function ExcelProducts(f: Foreign, records: seq<ExcelRecord>): (r: seq<ImportedProduct>)
    ensures |r| == |records|
  {
    MapRecords(record => ExcelProduct(f, record), records)
  }

  /** One product per record, in record order, none of them enriched. */
  lemma ExcelProductsPerRecord(f: Foreign, records: seq<ExcelRecord>)
    ensures forall i :: 0 <= i < |records| ==> ExcelProducts(f, records)[i] == ExcelProduct(f, records[i])
    ensures forall i :: 0 <= i < |records| ==> !ExcelProducts(f, records)[i].enriched
  {
    MapRecordsPerRecord(record => ExcelProduct(f, record), records);
  }

  /** The mapping over the parsed records, one record at a time. */
  method ProcessExcelRecords(f: Foreign, records: seq<ExcelRecord>) returns (products: seq<ImportedProduct>)
    ensures products == ExcelProducts(f, records)
  {
    products := [];
    for i := 0 to |records|
      invariant products == ExcelProducts(f, records[..i])
    {
      var product := MapExcelRecord(f, records[i]);
      assert records[..i + 1][..i] == records[..i];
      products := products + [product];
    }
    assert records[..|records|] == records;
  }

  /** Excel keeps falsy cells other than the empty ones: `0` and `false` become attribute values. */
  lemma ExcelKeepsZeroAndFalse(key: string)
    requires key !in EXCEL_BASIC_KEYS
    ensures ExcelEntry(key, Num(0.0)) == Some(ProductAttribute(key, Num(0.0), None, None))
    ensures ExcelEntry(key, Bool(false)) == Some(ProductAttribute(key, Bool(false), None, None))
  {
  }

  /** Only text cells are read as measures; any other non-empty cell is stored as it is. */
  lemma ExcelMeasuresFromTextOnly(key: string, value: Value)
    requires key !in EXCEL_BASIC_KEYS && !EmptyCell(value) && !value.Str?
    ensures ExcelEntry(key, value) == Some(ProductAttribute(key, value, None, None))
  {
  }

  /** The Excel importer skips only lower-case basic columns: "Product Name" and "Brand" become attributes there, never in CSV. */
  lemma CapitalisedColumnsDiffer(text: string)
    requires text != ""
    ensures CsvEntry("Product Name", text).None? && CsvEntry("Brand", text).None?
    ensures ExcelEntry("Product Name", Str(text)).Some? && ExcelEntry("Brand", Str(text)).Some?
  {
    assert "Product Name" !in EXCEL_BASIC_KEYS;
    assert "Brand" !in EXCEL_BASIC_KEYS;
  }

  /** Every Excel attribute comes from a non-empty cell of a non-basic column. */
  lemma ExcelAttrsFromCells(record: ExcelRecord)
    ensures forall a :: a in ExcelAttrs(record) ==>
      a.k !in EXCEL_BASIC_KEYS && exists i :: 0 <= i < |record| && a.k == record[i].0 && !EmptyCell(record[i].1)
  {
    var entries := ExcelEntries(record);
    PresentMembers(entries);
    forall a | a in ExcelAttrs(record)
      ensures a.k !in EXCEL_BASIC_KEYS && exists i :: 0 <= i < |record| && a.k == record[i].0 && !EmptyCell(record[i].1)
    {
      var i :| 0 <= i < |entries| && entries[i] == Some(a);
      assert entries[i] == ExcelEntry(record[i].0, record[i].1);
    }
  }
}

=== FILE: json.dfy ===
/**
 * JavaScript values as the core sees them, with the coercions it applies:
 * truthiness, `String(v)`, `Number(v)`, `typeof` and property lookup.
 */
module Json {
  import opened Wrappers
  import Text

  /**
   * A JavaScript value. Numbers are reals: the NaN that `Number(...)` may
   * produce is an absent number (`Option<real>`) and never stored in a value.
   * `Obj` keeps its properties in enumeration order.
   */
  datatype Value =
    | Str(s: string)
    | Num(n: real)
    | Bool(b: bool)
    | Arr(items: seq<Value>)
    | Obj(fields: seq<(string, Value)>)
    | Null
    | Undefined

  /**
   * The numeric routines of the JavaScript engine that the model does not
   * re-implement: string-to-number conversion (`None` is NaN), the default
   * rendering of a number and `toFixed(2)`.
   */
  datatype Foreign = Foreign(
    parseNumber: string -> Option<real>,
    numberText: real -> string,
    fixed2: real -> string)

  /** JavaScript truthiness: `""`, `0`, `false`, `null` and `undefined` are falsy. */
  predicate Truthy(v: Value) {
    match v
    case Str(s) => s != ""
    case Num(n) => n != 0.0
    case Bool(b) => b
    case Arr(_) => true
    case Obj(_) => true
    case Null => false
    case Undefined => false
  }

  /** `v === undefined || v === null`. */
  predicate IsNullish(v: Value) { v.Null? || v.Undefined? }

  /** `key in obj` for an object's own properties. */
  predicate Has(fields: seq<(string, Value)>, key: string) {
    exists i :: 0 <= i < |fields| && fields[i].0 == key
  }

  /** `obj[key]`: the first property with that key, `undefined` when there is none. */
  function Get(fields: seq<(string, Value)>, key: string): (r: Value)
    ensures !Has(fields, key) ==> r == Undefined
    ensures Has(fields, key) ==> exists i :: 0 <= i < |fields| && fields[i] == (key, r)
  {
    if fields == [] then Undefined
    else if fields[0].0 == key then fields[0].1
    else Get(fields[1..], key)
  }

  /** `String(v)`; inside an array, `null` and `undefined` render as the empty string. */
  function ToText(f: Foreign, v: Value): string
  {
    match v
    case Str(s) => s
    case Num(n) => f.numberText(n)
    case Bool(b) => if b then "true" else "false"
    case Arr(items) => Text.JoinChar(ItemTexts(f, items), ',')
    case Obj(_) => "[object Object]"
    case Null => "null"
    case Undefined => "undefined"
  }

  /** The pieces that `Array.prototype.join` concatenates. */
  function ItemTexts(f: Foreign, items: seq<Value>): (r: seq<string>)
    ensures |r| == |items|
  {
    if items == [] then []
    else [if IsNullish(items[0]) then "" else ToText(f, items[0])] + ItemTexts(f, items[1..])
  }

  /** `arr.join(sep)`. */
  function JoinValues(f: Foreign, items: seq<Value>, sep: string): string
  {
    Text.Join(ItemTexts(f, items), sep)
  }

  /** `Number(v)`; `None` stands for NaN. */
  function ToNumber(f: Foreign, v: Value): Option<real>
  {
    match v
    case Num(n) => Some(n)
    case Str(s) => f.parseNumber(s)
    case Bool(b) => Some(if b then 1.0 else 0.0)
    case Arr(_) => f.parseNumber(ToText(f, v))
    case Obj(_) => None
    case Null => Some(0.0)
    case Undefined => None
  }

  /** `typeof v === "object"`, which holds for `null` and arrays too. */
  predicate TypeofObject(v: Value) { v.Obj? || v.Arr? || v.Null? }
}

=== FILE: measure.dfy ===
/**
 * The recogniser the importers apply to a cell: a decimal number, some
 * whitespace and a run of ASCII letters (`^(\d+(?:\.\d+)?)\s+([a-zA-Z]+)$`),
 * written as a scanner over the text.
 */
module Measures {
  import opened Wrappers
  import opened Text

  /** The two captured groups, with the number split at its decimal point; `fraction` is empty when there is none. */
  datatype Measure = Measure(whole: string, fraction: string, unit: string)

  /** The text of the first captured group. */
  function Numeral(m: Measure): string
  {
    NumeralOf(m.whole, m.fraction)
  }

  function NumeralOf(whole: string, fraction: string): string
  {
    if fraction == [] then whole else whole + "." + fraction
  }

  /** The parts a successful match can produce. */
  predicate WellFormed(m: Measure) {
    m.whole != [] && AllDigits(m.whole) && AllDigits(m.fraction) && m.unit != [] && AllLetters(m.unit)
  }

  /** A matching text: the number, a gap of whitespace, the unit. */
  function Render(m: Measure, gap: string): string
  {
    Numeral(m) + gap + m.unit
  }

  /** The length of the run of digits that `s` starts with. */
  function DigitRun(s: string): (r: nat)
    ensures r <= |s| && forall i :: 0 <= i < r ==> IsDigit(s[i])
    ensures r == |s| || !IsDigit(s[r])
  {
    if s == [] || !IsDigit(s[0]) then 0 else DigitRun(s[1..]) + 1
  }

  /** The length of the run of whitespace that `s` starts with. */
  function SpaceRun(s: string): (r: nat)
    ensures r <= |s| && forall i :: 0 <= i < r ==> IsSpace(s[i])
    ensures r == |s| || !IsSpace(s[r])
  {
    if s == [] || !IsSpace(s[0]) then 0 else SpaceRun(s[1..]) + 1
  }

  /**
   * `s.match(/^(\d+(?:\.\d+)?)\s+([a-zA-Z]+)$/)`. The character classes are
   * disjoint, so the match, when there is one, is unique and needs no
   * backtracking: the digits, a fraction only if a digit follows the dot,
   * the whitespace, and letters to the end.
   */
  function ParseMeasure(s: string): Option<Measure>
  {
    if DigitRun(s) == 0 then None
    else ParseUnit(Whole(s), Fraction(s), s[NumberLength(s)..])
  }

  /** Where the fraction's digits start relative to the whole part: past the dot, or nowhere when there is no fraction. */
  function FractionStart(s: string, d: nat): nat
    requires d <= |s|
  {
    if d + 1 < |s| && s[d] == '.' && IsDigit(s[d + 1]) then 1 else 0
  }

  /** Where the first captured group ends: after the fraction's digits when there is a fraction, else after the whole part. */
  function NumberLength(s: string): (n: nat)
    ensures DigitRun(s) + FractionStart(s, DigitRun(s)) <= n <= |s|
  {
    var d := DigitRun(s);
    if FractionStart(s, d) == 1 then d + 1 + DigitRun(s[d + 1..]) else d
  }

  /** The digits before the decimal point. */
  function Whole(s: string): string
  {
    s[..DigitRun(s)]
  }

  /** The digits after the decimal point, empty when there is no fraction. */
  function Fraction(s: string): string
  {
    var d := DigitRun(s);
    s[d + FractionStart(s, d)..NumberLength(s)]
  }

  /** The rest after the number: whitespace, then letters to the end. */
  function ParseUnit(whole: string, fraction: string, rest: string): Option<Measure>
  {
    var w := SpaceRun(rest);
    if w == 0 || w == |rest| || !AllLetters(rest[w..]) then None
    else Some(Measure(whole, fraction, rest[w..]))
  }

  /** A run length is determined by where the run stops. */
  lemma DigitRunStops(s: string, k: nat)
    requires k <= |s| && (forall i :: 0 <= i < k ==> IsDigit(s[i])) && (k == |s| || !IsDigit(s[k]))
    ensures DigitRun(s) == k
  {
  }

  lemma SpaceRunStops(s: string, k: nat)
    requires k <= |s| && (forall i :: 0 <= i < k ==> IsSpace(s[i])) && (k == |s| || !IsSpace(s[k]))
    ensures SpaceRun(s) == k
  {
  }

  /** A prefix of digits, as the runs report it, is a text of digits. */
  lemma DigitsPrefix(s: string, k: nat)
    requires k <= |s| && forall i :: 0 <= i < k ==> IsDigit(s[i])
    ensures AllDigits(s[..k])
  {
    assert forall i :: 0 <= i < k ==> s[..k][i] == s[i];
  }

  /** The fraction is a text of digits, and the number is the whole part, then the dot and the fraction when there is one. */
  lemma FractionSound(s: string)
    ensures AllDigits(Fraction(s))
    ensures s[..NumberLength(s)] == NumeralOf(Whole(s), Fraction(s))
  {
    var d := DigitRun(s);
    if FractionStart(s, d) == 1 {
      var t := s[d + 1..];
      var f := DigitRun(t);
      var n := d + 1 + f;
      DigitsPrefix(t, f);
      assert Fraction(s) == s[d + 1..n] == t[..f];
      assert s[..n] == s[..d] + [s[d]] + s[d + 1..n];
    } else {
      assert Fraction(s) == [];
    }
  }

  /** What `ParseUnit` accepts is a non-empty gap of whitespace followed by the unit. */
  lemma ParseUnitSound(whole: string, fraction: string, rest: string)
    requires ParseUnit(whole, fraction, rest).Some?
    ensures var m := ParseUnit(whole, fraction, rest).value;
      var w := SpaceRun(rest);
      m.whole == whole && m.fraction == fraction && m.unit != [] && AllLetters(m.unit) &&
      0 < w && AllSpace(rest[..w]) && rest == rest[..w] + m.unit
  {
    var w := SpaceRun(rest);
    assert rest == rest[..w] + rest[w..];
  }

  /** The gap a recognised text has between its number and its unit. */
  function Gap(s: string): string
  {
    var rest := s[NumberLength(s)..];
    rest[..SpaceRun(rest)]
  }

  /** Three consecutive slices make up the whole text. */
  lemma Slices(s: string, n: nat, w: nat)
    requires n + w <= |s|
    ensures s == s[..n] + s[n..][..w] + s[n..][w..]
  {
  }

  /** Whatever the recogniser accepts is a number, a non-empty gap of whitespace and a unit, in that order. */
  lemma ParseMeasureSound(s: string)
    requires ParseMeasure(s).Some?
    ensures var m := ParseMeasure(s).value;
      WellFormed(m) && Gap(s) != [] && AllSpace(Gap(s)) && s == Render(m, Gap(s))
  {
    var n := NumberLength(s);
    var rest := s[n..];
    var w := SpaceRun(rest);
    Slices(s, n, w);
    var m := ParseUnit(Whole(s), Fraction(s), rest).value;
    assert ParseMeasure(s) == Some(m);
    DigitsPrefix(s, DigitRun(s));
    FractionSound(s);
    ParseUnitSound(Whole(s), Fraction(s), rest);
  }

  /** The scanner reads back a number followed by whitespace. */
  lemma NumberComplete(m: Measure, rest: string)
    requires m.whole != [] && AllDigits(m.whole) && AllDigits(m.fraction)
    requires rest != [] && IsSpace(rest[0])
    ensures var s := Numeral(m) + rest;
      DigitRun(s) == |m.whole| && NumberLength(s) == |Numeral(m)| && Whole(s) == m.whole && Fraction(s) == m.fraction
  {
    var s := Numeral(m) + rest;
    var d := |m.whole|;
    var n := |Numeral(m)|;
    assert s[n] == rest[0];
    assert s[..d] == m.whole;
    DigitRunStops(s, d);
    if m.fraction != [] {
      assert s[d] == '.' && s[d + 1] == m.fraction[0];
      var t := s[d + 1..];
      assert t == m.fraction + rest;
      DigitRunStops(t, |m.fraction|);
      assert s[d + 1..n] == m.fraction;
    }
  }

  /** The unit scanner reads back a gap of whitespace followed by letters. */
  lemma UnitComplete(whole: string, fraction: string, gap: string, unit: string)
    requires gap != [] && AllSpace(gap) && unit != [] && AllLetters(unit)
    ensures ParseUnit(whole, fraction, gap + unit) == Some(Measure(whole, fraction, unit))
  {
    var rest := gap + unit;
    assert rest[|gap|] == unit[0];
    SpaceRunStops(rest, |gap|);
    assert rest[|gap|..] == unit;
  }

  /** Every number-gap-unit text is recognised, with exactly its parts. */
  lemma ParseMeasureComplete(m: Measure, gap: string)
    requires WellFormed(m) && gap != [] && AllSpace(gap)
    ensures ParseMeasure(Render(m, gap)) == Some(m)
  {
    var rest := gap + m.unit;
    assert Render(m, gap) == Numeral(m) + rest;
    NumberComplete(m, rest);
    var s := Numeral(m) + rest;
    assert s[|Numeral(m)|..] == rest;
    UnitComplete(m.whole, m.fraction, gap, m.unit);
  }

  /** The value of a run of decimal digits. */
  function DigitsValue(ds: string): (r: nat)
    requires AllDigits(ds)
  {
    if ds == [] then 0 else DigitsValue(ds[..|ds| - 1]) * 10 + (ds[|ds| - 1] as int - '0' as int)
  }

  function Pow10(k: nat): (r: nat)
    ensures r >= 1
  {
    if k == 0 then 1 else 10 * Pow10(k - 1)
  }

  /** `parseFloat` of the first captured group, as an exact decimal. */
  function MeasureValue(m: Measure): (r: real)
    requires WellFormed(m)
    ensures m.fraction == [] ==> r == DigitsValue(m.whole) as real
  {
    DigitsValue(m.whole) as real + DigitsValue(m.fraction) as real / Pow10(|m.fraction|) as real
  }

  /** The fraction adds less than one to the whole part. */
  lemma {:induction false} FractionBelowOne(ds: string)
    requires AllDigits(ds)
    ensures DigitsValue(ds) < Pow10(|ds|)
  {
    if ds != [] {
      var init := ds[..|ds| - 1];
      assert AllDigits(init) by {
        forall i | 0 <= i < |init| ensures IsDigit(init[i]) { assert init[i] == ds[i]; }
      }
      FractionBelowOne(init);
      assert IsDigit(ds[|ds| - 1]);
    }
  }

  /** The recognised number lies in `[whole, whole + 1)`. */
  lemma MeasureValueBounds(m: Measure)
    requires WellFormed(m)
    ensures DigitsValue(m.whole) as real <= MeasureValue(m) < DigitsValue(m.whole) as real + 1.0
  {
    FractionBelowOne(m.fraction);
    var p := Pow10(|m.fraction|) as real;
    var x := DigitsValue(m.fraction) as real;
    DivideBelowOne(x, p);
  }

  lemma DivideBelowOne(x: real, p: real)
    requires 0.0 <= x < p
    ensures 0.0 <= x / p < 1.0
  {
    var q := x / p;
    assert q * p == x;
  }
}

=== FILE: orchestrator.dfy ===
/**
 * The enrichment job run: `startEnrichmentJob` creates the job record and
 * `processEnrichmentJob` walks the products one at a time, recording a
 * result and the progress after each, then completes the job, or marks it
 * failed when an error escapes.
 *
 * Every repository call of a run is numbered from the first one, including
 * one with a malformed identifier that never reaches the database; `faults`
 * maps a call's number to the error that call throws. A call that throws
 * changes nothing. Product writes are collected in the order they happen.
 */
module Orchestrator {
  import opened Wrappers
  import opened Types
  import opened EnrichmentStore
  import ObjectIds
  import Enrichment

  type Faults = map<nat, string>

  function FaultAt(faults: Faults, call: nat): Option<string> {
    if call in faults then Some(faults[call]) else None
  }

  /** No call numbered `from` or later throws. */
  predicate NoFaultsFrom(faults: Faults, from: nat) {
    forall call :: call in faults ==> call < from
  }

  /** `updateProduct(id, {attr, enriched: true})`, without its timestamps. */
  datatype ProductWrite = ProductWrite(productId: string, attr: seq<ProductAttribute>)

  /** The database and the number of calls made so far. */
  datatype World = World(store: Store, writes: seq<ProductWrite>, calls: nat)

  /** A world after one call, and what that call threw. */
  datatype Effect = Effect(w: World, thrown: Option<string>)

  /**
   * `Math.round((processed / total) * 100)` computed exactly: round half up
   * of the rational 100·processed/total. The source rounds a double, which
   * can differ at a half (29 of 200 is 14.499999999999998 there, so 14).
   */
  function Percent(processed: nat, total: nat): int
    requires total > 0
  {
    (200 * processed + total) / (2 * total)
  }

  /** The result is the nearest integer to 100·processed/total, halves rounding up. */
  lemma PercentRounds(processed: nat, total: nat)
    requires total > 0
    ensures 2 * total * Percent(processed, total) <= 200 * processed + total < 2 * total * (Percent(processed, total) + 1)
  {
  }

  /** The quotient is the unique `q` with `d·q <= a < d·(q + 1)`. */
  lemma DivideExactly(a: nat, d: nat, q: nat)
    requires 0 < d && d * q <= a < d * (q + 1)
    ensures a / d == q
  {
    var r := a / d;
    assert d * r <= a < d * r + d;
    if r < q {
      MultiplyMonotone(d, r + 1, q);
      assert false;
    } else if r > q {
      MultiplyMonotone(d, q + 1, r);
      assert false;
    }
  }

  lemma MultiplyMonotone(d: nat, x: nat, y: nat)
    requires x <= y
    ensures d * x <= d * y
  {
    assert d * y == d * x + d * (y - x);
  }

  lemma DivideMonotone(a: nat, b: nat, d: nat)
    requires 0 < d && a <= b
    ensures a / d <= b / d
  {
    var qa, qb := a / d, b / d;
    assert d * qa <= a && b < d * qb + d;
    if qa > qb {
      MultiplyMonotone(d, qb + 1, qa);
      assert false;
    }
  }

  /** Progress never decreases as products are processed, starts at 0, ends at 100 and stays within [0, 100]. */
  lemma PercentProgress(i: nat, j: nat, total: nat)
    requires 0 < total && i <= j
    ensures Percent(i, total) <= Percent(j, total)
    ensures Percent(0, total) == 0 && Percent(total, total) == 100
    ensures j <= total ==> 0 <= Percent(j, total) <= 100
  {
    DivideMonotone(200 * i + total, 200 * j + total, 2 * total);
    DivideExactly(200 * 0 + total, 2 * total, 0);
    DivideExactly(200 * total + total, 2 * total, 100);
    if j <= total {
      DivideMonotone(200 * j + total, 200 * total + total, 2 * total);
    }
  }

  const STARTED := JobUpdate(Some(Processing), Some(0), None, None, None)

  function ProgressUpdate(processed: nat, total: nat): JobUpdate
    requires total > 0
  {
    JobUpdate(None, Some(Percent(processed, total)), None, Some(processed), None)
  }

  function Completion(total: nat): JobUpdate {
    JobUpdate(Some(Completed), Some(100), None, Some(total), None)
  }

  function Failure(message: string): JobUpdate {
    JobUpdate(Some(Failed), None, None, None, Some(message))
  }

  /** `updateEnrichmentJobStatus`: a malformed identifier never reaches the database. */
  function JobCall(w: World, faults: Faults, jobId: string, u: JobUpdate): (e: Effect)
    ensures e.w.calls == w.calls + 1 && e.w.writes == w.writes && e.w.store.results == w.store.results
  {
    var next := w.(calls := w.calls + 1);
    if !ObjectIds.IsValid(jobId) then Effect(next, None)
    else if FaultAt(faults, w.calls).Some? then Effect(next, FaultAt(faults, w.calls))
    else Effect(next.(store := next.store.(jobs := UpdatedJobs(w.store.jobs, jobId, u))), None)
  }

  /** `saveEnrichmentResult`: always reaches the database. */
  function ResultCall(w: World, faults: Faults, jobId: string, r: EnrichmentResult): (e: Effect)
    ensures e.w.calls == w.calls + 1 && e.w.writes == w.writes && e.w.store.jobs == w.store.jobs
  {
    var next := w.(calls := w.calls + 1);
    if FaultAt(faults, w.calls).Some? then Effect(next, FaultAt(faults, w.calls))
    else Effect(next.(store := next.store.(results := w.store.results + [StoredResult(jobId, r)])), None)
  }

  /** `updateProduct`: a malformed identifier never reaches the database. */
  function ProductCall(w: World, faults: Faults, productId: string, attr: seq<ProductAttribute>): (e: Effect)
    ensures e.w.calls == w.calls + 1 && e.w.store == w.store
  {
    var next := w.(calls := w.calls + 1);
    if !ObjectIds.IsValid(productId) then Effect(next, None)
    else if FaultAt(faults, w.calls).Some? then Effect(next, FaultAt(faults, w.calls))
    else Effect(next.(writes := w.writes + [ProductWrite(productId, attr)]), None)
  }

  /** The state of the product loop: the world, `processedCount`, and an error that escaped the loop. */
  datatype Pass = Pass(w: World, processed: nat, escaped: Option<string>)

  /** The per-product `catch` block: record a failed result, count the product, report progress. */
  function Recover(w: World, faults: Faults, jobId: string, total: nat, processed: nat, p: Product, message: string): (r: Pass)
    requires total > 0
    ensures r.w.calls > w.calls
  {
    var saved := ResultCall(w, faults, jobId, EnrichmentResult(p.id, [], false, Some(message)));
    if saved.thrown.Some? then Pass(saved.w, processed, saved.thrown)
    else
      var updated := JobCall(saved.w, faults, jobId, ProgressUpdate(processed + 1, total));
      Pass(updated.w, processed + 1, updated.thrown)
  }

  /**
   * The per-product `try` block, given the product's enrichment outcome:
   * write the product, record its result, count it and report progress.
   * `escaped` is the error thrown out of the block, if any.
   */
  function TryProduct(w: World, faults: Faults, jobId: string, total: nat, processed: nat, p: Product,
                      outcome: Result<seq<ProductAttribute>>): (r: Pass)
    requires total > 0
    ensures r.w.calls >= w.calls
  {
    if outcome.Err? then Pass(w, processed, Some(outcome.error))
    else
      var written := ProductCall(w, faults, p.id, outcome.value);
      if written.thrown.Some? then Pass(written.w, processed, written.thrown)
      else
        var saved := ResultCall(written.w, faults, jobId, EnrichmentResult(p.id, Keys(outcome.value), true, None));
        if saved.thrown.Some? then Pass(saved.w, processed, saved.thrown)
        else
          var updated := JobCall(saved.w, faults, jobId, ProgressUpdate(processed + 1, total));
          Pass(updated.w, processed + 1, updated.thrown)
  }

  /** One iteration of the product loop: the `try` block, and the `catch` block for what it throws. */
  function ProductPass(w: World, faults: Faults, jobId: string, total: nat, processed: nat, p: Product,
                       outcome: Result<seq<ProductAttribute>>): (r: Pass)
    requires total > 0
    ensures r.w.calls > w.calls
  {
    var tried := TryProduct(w, faults, jobId, total, processed, p, outcome);
    if tried.escaped.Some? then Recover(tried.w, faults, jobId, total, tried.processed, p, tried.escaped.value)
    else tried
  }

  /** The product loop over the remaining products; an escaping error ends it. */
  function Loop(w: World, faults: Faults, jobId: string, total: nat, processed: nat,
                products: seq<Product>, enrich: Enricher): (r: Pass)
    requires |products| <= total
    ensures r.w.calls >= w.calls
    decreases |products|
  {
    if products == [] then Pass(w, processed, None)
    else
      var pass := ProductPass(w, faults, jobId, total, processed, products[0], enrich(products[0]));
      if pass.escaped.Some? then pass
      else Loop(pass.w, faults, jobId, total, pass.processed, products[1..], enrich)
  }

  /** The outcome of enriching one product: its merged attributes or the error. */
  type Enricher = Product -> Result<seq<ProductAttribute>>

  /** `enrichProduct(product, attributesToEnrich)` for every product. */
  function EnrichWith(env: Enrichment.EnrichEnv, attributesToEnrich: seq<Attribute>): Enricher {
    p => Enrichment.EnrichProduct(env, p, attributesToEnrich)
  }

  /** The run's end: the world, and the error `processEnrichmentJob` itself rejects with. */
  datatype Finish = Finish(w: World, rejected: Option<string>)

  /** The outer `catch` block: mark the job failed with the message. */
  function FailJob(w: World, faults: Faults, jobId: string, message: string): Finish
  {
    var e := JobCall(w, faults, jobId, Failure(message));
    Finish(e.w, e.thrown)
  }

  /** `processEnrichmentJob(jobId, products, attributesToEnrich)`. */
  function ProcessSpec(w: World, faults: Faults, jobId: string, products: seq<Product>,
                       enrich: Enricher): Finish
  {
    var started := JobCall(w, faults, jobId, STARTED);
    if started.thrown.Some? then FailJob(started.w, faults, jobId, started.thrown.value)
    else
      var pass := Loop(started.w, faults, jobId, |products|, 0, products, enrich);
      if pass.escaped.Some? then FailJob(pass.w, faults, jobId, pass.escaped.value)
      else
        var done := JobCall(pass.w, faults, jobId, Completion(|products|));
        if done.thrown.Some? then FailJob(done.w, faults, jobId, done.thrown.value)
        else Finish(done.w, None)
  }

  /** The recorded result of a product, by its enrichment outcome. */
  function ResultOf(p: Product, outcome: Result<seq<ProductAttribute>>): EnrichmentResult
  {
    if outcome.Ok? then EnrichmentResult(p.id, Keys(outcome.value), true, None)
    else EnrichmentResult(p.id, [], false, Some(outcome.error))
  }

  /** One result per product, in product order. */
  function ResultsOf(jobId: string, products: seq<Product>, enrich: Enricher): (r: seq<StoredResult>)
    ensures |r| == |products|
  {
    if products == [] then []
    else
      var first := StoredResult(jobId, ResultOf(products[0], enrich(products[0])));
      [first] + ResultsOf(jobId, products[1..], enrich)
  }

  /** The write a product leaves: its merged attributes, when enriched and its identifier is well formed. */
  function WriteOf(p: Product, outcome: Result<seq<ProductAttribute>>): seq<ProductWrite>
  {
    if outcome.Ok? && ObjectIds.IsValid(p.id) then [ProductWrite(p.id, outcome.value)] else []
  }

  /** The product writes of a run, in product order. */
  function WritesOf(products: seq<Product>, enrich: Enricher): (r: seq<ProductWrite>)
    ensures |r| <= |products|
  {
    if products == [] then [] else WriteOf(products[0], enrich(products[0])) + WritesOf(products[1..], enrich)
  }

  /** `second` sets every field `first` sets. */
  predicate Covers(second: JobUpdate, first: JobUpdate) {
    (first.status.Some? ==> second.status.Some?) && (first.progress.Some? ==> second.progress.Some?) &&
    (first.productsTotal.Some? ==> second.productsTotal.Some?) &&
    (first.productsProcessed.Some? ==> second.productsProcessed.Some?) && (first.error.Some? ==> second.error.Some?)
  }

  /** A later update that sets every field an earlier one set erases the earlier one. */
  lemma Overwrites(jobs: map<string, Job>, jobId: string, first: JobUpdate, second: JobUpdate)
    requires Covers(second, first)
    ensures UpdatedJobs(UpdatedJobs(jobs, jobId, first), jobId, second) == UpdatedJobs(jobs, jobId, second)
  {
    if Known(jobs, jobId) {
      UpdateAlgebra(jobs[Key(jobId)], first, second);
      assert Then(first, second) == second;
    }
  }

  /** Without faults, one product is counted once and leaves its result, its write and its progress. */
  lemma ProductPassWithoutFaults(w: World, faults: Faults, jobId: string, total: nat, processed: nat, p: Product,
                                 outcome: Result<seq<ProductAttribute>>)
    requires total > 0 && NoFaultsFrom(faults, w.calls)
    ensures var r := ProductPass(w, faults, jobId, total, processed, p, outcome);
      r.escaped.None? && r.processed == processed + 1 &&
      r.w.store.results == w.store.results + [StoredResult(jobId, ResultOf(p, outcome))] &&
      r.w.writes == w.writes + WriteOf(p, outcome) &&
      r.w.store.jobs == UpdatedJobs(w.store.jobs, jobId, ProgressUpdate(processed + 1, total))
  {
    assert FaultAt(faults, w.calls) == None && FaultAt(faults, w.calls + 1) == None;
    assert FaultAt(faults, w.calls + 2) == None;
  }

  /** Without faults, the loop runs to the end and counts every product once. */
  lemma {:induction false} LoopCountsEveryProduct(w: World, faults: Faults, jobId: string, total: nat, processed: nat,
                                                  products: seq<Product>, enrich: Enricher)
    requires |products| <= total && NoFaultsFrom(faults, w.calls)
    ensures var r := Loop(w, faults, jobId, total, processed, products, enrich);
      r.escaped.None? && r.processed == processed + |products|
    decreases |products|
  {
    if products != [] {
      var pass := ProductPass(w, faults, jobId, total, processed, products[0], enrich(products[0]));
      ProductPassWithoutFaults(w, faults, jobId, total, processed, products[0], enrich(products[0]));
      LoopCountsEveryProduct(pass.w, faults, jobId, total, processed + 1, products[1..], enrich);
    }
  }

  /** Without faults, the loop records one result per product, in product order. */
  lemma {:induction false} LoopRecordsEveryProduct(w: World, faults: Faults, jobId: string, total: nat, processed: nat,
                                                   products: seq<Product>, enrich: Enricher)
    requires |products| <= total && NoFaultsFrom(faults, w.calls)
    ensures var r := Loop(w, faults, jobId, total, processed, products, enrich);
      r.w.store.results == w.store.results + ResultsOf(jobId, products, enrich)
    decreases |products|
  {
    if products != [] {
      var pass := ProductPass(w, faults, jobId, total, processed, products[0], enrich(products[0]));
      ProductPassWithoutFaults(w, faults, jobId, total, processed, products[0], enrich(products[0]));
      LoopRecordsEveryProduct(pass.w, faults, jobId, total, processed + 1, products[1..], enrich);
      var first := [StoredResult(jobId, ResultOf(products[0], enrich(products[0])))];
      assert (w.store.results + first) + ResultsOf(jobId, products[1..], enrich) ==
        w.store.results + (first + ResultsOf(jobId, products[1..], enrich));
    }
  }

  /** Without faults, the loop writes every enriched product with a well-formed identifier, in product order. */
  lemma {:induction false} LoopWritesEnrichedProducts(w: World, faults: Faults, jobId: string, total: nat, processed: nat,
                                                      products: seq<Product>, enrich: Enricher)
    requires |products| <= total && NoFaultsFrom(faults, w.calls)
    ensures var r := Loop(w, faults, jobId, total, processed, products, enrich);
      r.w.writes == w.writes + WritesOf(products, enrich)
    decreases |products|
  {
    if products != [] {
      var pass := ProductPass(w, faults, jobId, total, processed, products[0], enrich(products[0]));
      ProductPassWithoutFaults(w, faults, jobId, total, processed, products[0], enrich(products[0]));
      LoopWritesEnrichedProducts(pass.w, faults, jobId, total, processed + 1, products[1..], enrich);
      var first := WriteOf(products[0], enrich(products[0]));
      assert (w.writes + first) + WritesOf(products[1..], enrich) == w.writes + (first + WritesOf(products[1..], enrich));
    }
  }

  /** Without faults, the job's progress fields end at the last count, and nothing else in the job map changes. */
  lemma {:induction false} LoopReportsProgress(w: World, faults: Faults, jobId: string, total: nat, processed: nat,
                                               products: seq<Product>, enrich: Enricher)
    requires |products| <= total && NoFaultsFrom(faults, w.calls)
    ensures var r := Loop(w, faults, jobId, total, processed, products, enrich);
      r.w.store.jobs == (if products == [] then w.store.jobs
                         else UpdatedJobs(w.store.jobs, jobId, ProgressUpdate(processed + |products|, total)))
    decreases |products|
  {
    if products != [] {
      var pass := ProductPass(w, faults, jobId, total, processed, products[0], enrich(products[0]));
      ProductPassWithoutFaults(w, faults, jobId, total, processed, products[0], enrich(products[0]));
      LoopReportsProgress(pass.w, faults, jobId, total, processed + 1, products[1..], enrich);
      if products[1..] != [] {
        Overwrites(w.store.jobs, jobId, ProgressUpdate(processed + 1, total), ProgressUpdate(processed + |products|, total));
      }
    }
  }

  /**
   * Without faults, the loop processes every product: each is counted once,
   * leaves its result and (when enriched) its write in order, and the job's
   * progress fields end at the last count.
   */
  lemma LoopWithoutFaults(w: World, faults: Faults, jobId: string, total: nat, processed: nat,
                          products: seq<Product>, enrich: Enricher)
    requires |products| <= total && NoFaultsFrom(faults, w.calls)
    ensures var r := Loop(w, faults, jobId, total, processed, products, enrich);
      r.escaped.None? && r.processed == processed + |products| &&
      r.w.store.results == w.store.results + ResultsOf(jobId, products, enrich) &&
      r.w.writes == w.writes + WritesOf(products, enrich) &&
      r.w.store.jobs == (if products == [] then w.store.jobs
                         else UpdatedJobs(w.store.jobs, jobId, ProgressUpdate(processed + |products|, total)))
  {
    LoopCountsEveryProduct(w, faults, jobId, total, processed, products, enrich);
    LoopRecordsEveryProduct(w, faults, jobId, total, processed, products, enrich);
    LoopWritesEnrichedProducts(w, faults, jobId, total, processed, products, enrich);
    LoopReportsProgress(w, faults, jobId, total, processed, products, enrich);
  }

  /** Without faults, the run reaches the completion update, after the loop has run to the end. */
  lemma RunWithoutFaults(w: World, faults: Faults, jobId: string, products: seq<Product>, enrich: Enricher)
    requires Known(w.store.jobs, jobId) && NoFaultsFrom(faults, w.calls)
    ensures var started := JobCall(w, faults, jobId, STARTED);
      var pass := Loop(started.w, faults, jobId, |products|, 0, products, enrich);
      started.thrown.None? && started.w.store.jobs == UpdatedJobs(w.store.jobs, jobId, STARTED) &&
      ProcessSpec(w, faults, jobId, products, enrich) ==
        Finish(pass.w.(calls := pass.w.calls + 1, store := pass.w.store.(jobs := UpdatedJobs(pass.w.store.jobs, jobId, Completion(|products|)))), None)
  {
    var started := JobCall(w, faults, jobId, STARTED);
    assert FaultAt(faults, w.calls) == None;
    LoopCountsEveryProduct(started.w, faults, jobId, |products|, 0, products, enrich);
    var pass := Loop(started.w, faults, jobId, |products|, 0, products, enrich);
    assert FaultAt(faults, pass.w.calls) == None;
  }

  /**
   * Without faults, a run over a stored job completes it with progress 100
   * and every product counted, records one result per product in order, and
   * writes each enriched product; this includes the run over no products.
   */
  lemma JobWithoutFaults(w: World, faults: Faults, jobId: string, products: seq<Product>, enrich: Enricher)
    requires Known(w.store.jobs, jobId) && NoFaultsFrom(faults, w.calls)
    ensures var r := ProcessSpec(w, faults, jobId, products, enrich);
      r.rejected.None? &&
      r.w.store.jobs == UpdatedJobs(w.store.jobs, jobId, Completion(|products|)) &&
      r.w.store.results == w.store.results + ResultsOf(jobId, products, enrich) &&
      r.w.writes == w.writes + WritesOf(products, enrich)
  {
    RunWithoutFaults(w, faults, jobId, products, enrich);
    var started := JobCall(w, faults, jobId, STARTED);
    LoopWithoutFaults(started.w, faults, jobId, |products|, 0, products, enrich);
    if products != [] {
      Overwrites(started.w.store.jobs, jobId, ProgressUpdate(|products|, |products|), Completion(|products|));
    }
    Overwrites(w.store.jobs, jobId, STARTED, Completion(|products|));
  }

  /**
   * The job a fault-free run leaves behind: completed, progress 100, every
   * product counted, the rest of the record as it was.
   */
  lemma CompletedJob(jobs: map<string, Job>, jobId: string, total: nat)
    requires Known(jobs, jobId)
    ensures var after := UpdatedJobs(jobs, jobId, Completion(total));
      var job := after[Key(jobId)];
      var before := jobs[Key(jobId)];
      job.status == Completed && job.progress == 100 && job.productsProcessed == total &&
      job.productsTotal == before.productsTotal && job.error == before.error &&
      job.productIds == before.productIds && job.attributeIds == before.attributeIds
  {
    UpdateFrame(jobs[Key(jobId)], Completion(total));
  }

  /**
   * When the first call fails, no product is touched: nothing is written or
   * recorded, and the job is marked failed with that error.
   */
  lemma StartFailureTouchesNoProduct(w: World, faults: Faults, jobId: string, products: seq<Product>,
                                     enrich: Enricher)
    requires Known(w.store.jobs, jobId) && w.calls in faults && NoFaultsFrom(faults, w.calls + 1)
    ensures var r := ProcessSpec(w, faults, jobId, products, enrich);
      r.rejected.None? && r.w.writes == w.writes && r.w.store.results == w.store.results &&
      r.w.store.jobs == UpdatedJobs(w.store.jobs, jobId, Failure(faults[w.calls])) &&
      r.w.store.jobs[Key(jobId)].status == Failed && r.w.store.jobs[Key(jobId)].error == Some(faults[w.calls])
  {
  }

  /**
   * A failed product records a failed result with its error and no
   * attribute keys, is counted, and the loop goes on.
   */
  lemma FailedProductContinues(w: World, faults: Faults, jobId: string, total: nat, processed: nat, p: Product, message: string)
    requires total > 0 && Known(w.store.jobs, jobId) && NoFaultsFrom(faults, w.calls)
    ensures var r := ProductPass(w, faults, jobId, total, processed, p, Err(message));
      r.escaped.None? && r.processed == processed + 1 && r.w.writes == w.writes &&
      r.w.store.results == w.store.results + [StoredResult(jobId, EnrichmentResult(p.id, [], false, Some(message)))] &&
      r.w.store.jobs[Key(jobId)].progress == Percent(processed + 1, total) &&
      r.w.store.jobs[Key(jobId)].productsProcessed == processed + 1
  {
  }

  /**
   * As written, a progress update that throws after a successful product
   * sends the product through the `catch` block too: it is counted twice
   * and gets a second, failed result.
   */
  lemma FailedProgressUpdateCountsTwice(w: World, faults: Faults, jobId: string, total: nat, processed: nat,
                                        p: Product, attr: seq<ProductAttribute>)
    requires total > 0 && Known(w.store.jobs, jobId) && ObjectIds.IsValid(p.id)
    requires w.calls !in faults && w.calls + 1 !in faults && w.calls + 2 in faults
    requires w.calls + 3 !in faults && w.calls + 4 !in faults
    ensures var r := ProductPass(w, faults, jobId, total, processed, p, Ok(attr));
      r.escaped.None? && r.processed == processed + 2 &&
      r.w.store.results == w.store.results + [
        StoredResult(jobId, EnrichmentResult(p.id, Keys(attr), true, None)),
        StoredResult(jobId, EnrichmentResult(p.id, [], false, Some(faults[w.calls + 2])))]
  {
  }

  /** When the final failure update itself succeeds, the job ends failed with the escaping error. */
  lemma FailJobMarksFailed(w: World, faults: Faults, jobId: string, message: string)
    requires Known(w.store.jobs, jobId) && w.calls !in faults
    ensures var r := FailJob(w, faults, jobId, message);
      r.rejected.None? && r.w.store.jobs[Key(jobId)].status == Failed &&
      r.w.store.jobs[Key(jobId)].error == Some(message) &&
      r.w.store.results == w.store.results && r.w.writes == w.writes
  {
  }

  /** Calls the store's update with the fault for the next call number. */
  method UpdateJob(store: EnrichmentRepository, jobId: string, u: JobUpdate, faults: Faults,
                   ghost writes: seq<ProductWrite>, calls: nat)
    returns (thrown: Option<string>)
    requires store.Valid()
    modifies store
    ensures store.Valid()
    ensures Effect(World(store.State(), writes, calls + 1), thrown) ==
      JobCall(World(old(store.State()), writes, calls), faults, jobId, u)
  {
    var modified;
    modified, thrown := store.UpdateEnrichmentJobStatus(jobId, u, FaultAt(faults, calls));
  }

  /** Calls the store's result insertion with the fault for the next call number. */
  method SaveResult(store: EnrichmentRepository, jobId: string, r: EnrichmentResult, faults: Faults,
                    ghost writes: seq<ProductWrite>, calls: nat)
    returns (thrown: Option<string>)
    requires store.Valid()
    modifies store
    ensures store.Valid()
    ensures Effect(World(store.State(), writes, calls + 1), thrown) ==
      ResultCall(World(old(store.State()), writes, calls), faults, jobId, r)
  {
    thrown := store.SaveEnrichmentResult(jobId, r, FaultAt(faults, calls));
  }

  /** The per-product `catch` block. */
  method RecordFailure(store: EnrichmentRepository, jobId: string, total: nat, processedCount: nat, p: Product,
                       message: string, faults: Faults, ghost writes: seq<ProductWrite>, calls: nat)
    returns (processed: nat, callsAfter: nat, escaped: Option<string>)
    requires total > 0
    requires store.Valid()
    modifies store
    ensures store.Valid()
    ensures Pass(World(store.State(), writes, callsAfter), processed, escaped) ==
      Recover(World(old(store.State()), writes, calls), faults, jobId, total, processedCount, p, message)
  {
    escaped := SaveResult(store, jobId, EnrichmentResult(p.id, [], false, Some(message)), faults, writes, calls);
    callsAfter := calls + 1;
    processed := processedCount;
    if escaped.Some? {
      return;
    }
    processed := processed + 1;
    escaped := UpdateJob(store, jobId, ProgressUpdate(processed, total), faults, writes, callsAfter);
    callsAfter := callsAfter + 1;
  }

  /** The `try` block of the product loop. */
  method TryEnrich(store: EnrichmentRepository, jobId: string, total: nat, processedCount: nat, product: Product,
                   outcome: Result<seq<ProductAttribute>>, faults: Faults, writes: seq<ProductWrite>, calls: nat)
    returns (processed: nat, writesAfter: seq<ProductWrite>, callsAfter: nat, failure: Option<string>)
    requires total > 0
    requires store.Valid()
    modifies store
    ensures store.Valid()
    ensures Pass(World(store.State(), writesAfter, callsAfter), processed, failure) ==
      TryProduct(World(old(store.State()), writes, calls), faults, jobId, total, processedCount, product, outcome)
  {
    processed, writesAfter, callsAfter := processedCount, writes, calls;
    if outcome.Err? {
      return processed, writesAfter, callsAfter, Some(outcome.error);
    }
    var enrichedAttributes := outcome.value;
    // updateProduct: a malformed identifier is answered with null before any call is made
    failure := None;
    if ObjectIds.IsValid(product.id) {
      failure := FaultAt(faults, callsAfter);
      if failure.None? {
        writesAfter := writesAfter + [ProductWrite(product.id, enrichedAttributes)];
      }
    }
    callsAfter := callsAfter + 1;
    if failure.Some? {
      return;
    }
    failure := SaveResult(store, jobId, EnrichmentResult(product.id, Keys(enrichedAttributes), true, None),
                          faults, writesAfter, callsAfter);
    callsAfter := callsAfter + 1;
    if failure.Some? {
      return;
    }
    processed := processed + 1;
    failure := UpdateJob(store, jobId, ProgressUpdate(processed, total), faults, writesAfter, callsAfter);
    callsAfter := callsAfter + 1;
  }

  /** The body of the product loop. */
  method EnrichOne(store: EnrichmentRepository, jobId: string, total: nat, processedCount: nat, product: Product,
                   outcome: Result<seq<ProductAttribute>>, faults: Faults, writes: seq<ProductWrite>, calls: nat)
    returns (processed: nat, writesAfter: seq<ProductWrite>, callsAfter: nat, escaped: Option<string>)
    requires total > 0
    requires store.Valid()
    modifies store
    ensures store.Valid()
    ensures Pass(World(store.State(), writesAfter, callsAfter), processed, escaped) ==
      ProductPass(World(old(store.State()), writes, calls), faults, jobId, total, processedCount, product, outcome)
  {
    var failure;
    processed, writesAfter, callsAfter, failure := TryEnrich(store, jobId, total, processedCount, product,
                                                             outcome, faults, writes, calls);
    escaped := None;
    if failure.Some? {
      processed, callsAfter, escaped := RecordFailure(store, jobId, total, processed, product,
                                                      failure.value, faults, writesAfter, callsAfter);
    }
  }

  /** The product loop of `processEnrichmentJob`, from the first product on. */
  method RunProducts(store: EnrichmentRepository, jobId: string, products: seq<Product>,
                     attributesToEnrich: seq<Attribute>, env: Enrichment.EnrichEnv, faults: Faults,
                     writes0: seq<ProductWrite>, calls0: nat)
    returns (processedCount: nat, writes: seq<ProductWrite>, calls: nat, escaped: Option<string>)
    requires store.Valid()
    modifies store
    ensures store.Valid()
    ensures Pass(World(store.State(), writes, calls), processedCount, escaped) ==
      Loop(World(old(store.State()), writes0, calls0), faults, jobId, |products|, 0, products, EnrichWith(env, attributesToEnrich))
  {
    ghost var enrich := EnrichWith(env, attributesToEnrich);
    ghost var spec := Loop(World(store.State(), writes0, calls0), faults, jobId, |products|, 0, products, enrich);
    processedCount, writes, calls, escaped := 0, writes0, calls0, None;
    var i := 0;
    while i < |products| && escaped.None?
      invariant 0 <= i <= |products|
      invariant store.Valid()
      invariant escaped.None? ==>
        spec == Loop(World(store.State(), writes, calls), faults, jobId, |products|, processedCount, products[i..], enrich)
      invariant escaped.Some? ==> spec == Pass(World(store.State(), writes, calls), processedCount, escaped)
      decreases |products| - i
    {
      var product := products[i];
      var outcome := Enrichment.EnrichProduct(env, product, attributesToEnrich);
      assert outcome == enrich(product);
      assert products[i..][0] == product && products[i..][1..] == products[i + 1..];
      processedCount, writes, calls, escaped := EnrichOne(store, jobId, |products|, processedCount, product,
                                                          outcome, faults, writes, calls);
      i := i + 1;
    }
    if escaped.None? {
      assert products[i..] == [];
    }
  }

  /**
   * `processEnrichmentJob(jobId, products, attributesToEnrich)` on the store
   * object; `calls0` numbers its first database call. It returns the
   * product writes, the number of calls after the run, and the error the
   * run itself rejects with.
   */
  method ProcessEnrichmentJob(store: EnrichmentRepository, jobId: string, products: seq<Product>,
                              attributesToEnrich: seq<Attribute>, env: Enrichment.EnrichEnv, faults: Faults, calls0: nat)
    returns (writes: seq<ProductWrite>, calls: nat, rejected: Option<string>)
    requires store.Valid()
    modifies store
    ensures store.Valid()
    ensures Finish(World(store.State(), writes, calls), rejected) ==
      ProcessSpec(World(old(store.State()), [], calls0), faults, jobId, products, EnrichWith(env, attributesToEnrich))
  {
    ghost var enrich := EnrichWith(env, attributesToEnrich);
    ghost var started := JobCall(World(store.State(), [], calls0), faults, jobId, STARTED);
    writes := [];
    calls := calls0;
    var escaped := UpdateJob(store, jobId, STARTED, faults, writes, calls);
    calls := calls + 1;
    assert Effect(World(store.State(), writes, calls), escaped) == started;
    if escaped.None? {
      ghost var pass := Loop(started.w, faults, jobId, |products|, 0, products, enrich);
      var processedCount;
      processedCount, writes, calls, escaped := RunProducts(store, jobId, products, attributesToEnrich, env, faults, writes, calls);
      assert World(store.State(), writes, calls) == pass.w && escaped == pass.escaped;
      if escaped.None? {
        ghost var done := JobCall(pass.w, faults, jobId, Completion(|products|));
        escaped := UpdateJob(store, jobId, Completion(|products|), faults, writes, calls);
        calls := calls + 1;
        assert Effect(World(store.State(), writes, calls), escaped) == done;
      }
    }
    rejected := None;
    if escaped.Some? {
      rejected := UpdateJob(store, jobId, Failure(escaped.value), faults, writes, calls);
      calls := calls + 1;
    }
  }

  /** `products.map((p) => p._id)` and `attributesToEnrich.map((a) => a._id)`. */
  function Ids<T>(xs: seq<T>, id: T -> string): (r: seq<string>)
    ensures |r| == |xs|
    ensures forall i :: 0 <= i < |xs| ==> r[i] == id(xs[i])
  {
    seq(|xs|, i requires 0 <= i < |xs| => id(xs[i]))
  }

  function ProductId(p: Product): string { p.id }

  function AttributeId(a: Attribute): string { a.id }

  /** What `startEnrichmentJob` resolves or rejects with, and the world once the run it starts has ended. */
  datatype Start = Start(jobId: Result<string>, w: World)

  /** The world after `createEnrichmentJob` stores a fresh job under `insertedId`. */
  function Created(w: World, insertedId: string, products: seq<Product>, attributesToEnrich: seq<Attribute>): World
  {
    var job := NewJob(Ids(products, ProductId), Ids(attributesToEnrich, AttributeId));
    World(Store(w.store.jobs[insertedId := job], w.store.results), w.writes, w.calls + 1)
  }

  /** The run's `.catch`: a rejected run marks the job failed once more; what that call throws is never observed. */
  function Caught(finish: Finish, faults: Faults, jobId: string): World
  {
    match finish.rejected
    case Some(message) => JobCall(finish.w, faults, jobId, Failure(message)).w
    case None => finish.w
  }

  /**
   * `startEnrichmentJob(products, attributesToEnrich)`: the insertion, whose
   * identifier the database picks as `insertedId`, then the run it starts.
   */
  function StartSpec(w: World, faults: Faults, insertedId: string, products: seq<Product>,
                     attributesToEnrich: seq<Attribute>, enrich: Enricher): Start
  {
    match FaultAt(faults, w.calls)
    case Some(message) => Start(Err(message), w.(calls := w.calls + 1))
    case None =>
      var created := Created(w, insertedId, products, attributesToEnrich);
      Start(Ok(insertedId), Caught(ProcessSpec(created, faults, insertedId, products, enrich), faults, insertedId))
  }

  /** A failed insertion rejects with its error and runs nothing: no job, no result, no write. */
  lemma StartFailureRunsNothing(w: World, faults: Faults, insertedId: string, products: seq<Product>,
                                attributesToEnrich: seq<Attribute>, enrich: Enricher)
    requires w.calls in faults
    ensures var s := StartSpec(w, faults, insertedId, products, attributesToEnrich, enrich);
      s.jobId == Err(faults[w.calls]) && s.w.store == w.store && s.w.writes == w.writes
  {
  }

  /**
   * Without faults, `startEnrichmentJob` resolves with the new identifier,
   * and the job it creates ends completed at progress 100 with every
   * product counted, one result per product in order and every enriched
   * product written; no other job changes.
   */
  lemma StartWithoutFaults(w: World, faults: Faults, insertedId: string, products: seq<Product>,
                           attributesToEnrich: seq<Attribute>, enrich: Enricher)
    requires ObjectIds.IsValid(insertedId) && Key(insertedId) == insertedId
    requires NoFaultsFrom(faults, w.calls)
    ensures var s := StartSpec(w, faults, insertedId, products, attributesToEnrich, enrich);
      s.jobId == Ok(insertedId) && insertedId in s.w.store.jobs &&
      var job := s.w.store.jobs[insertedId];
      job.status == Completed && job.progress == 100 && job.error == None &&
      job.productsProcessed == |products| && job.productsTotal == |products| &&
      job.productIds == Ids(products, ProductId) && job.attributeIds == Ids(attributesToEnrich, AttributeId) &&
      (forall key :: key in w.store.jobs && key != insertedId ==> key in s.w.store.jobs && s.w.store.jobs[key] == w.store.jobs[key]) &&
      s.w.store.results == w.store.results + ResultsOf(insertedId, products, enrich) &&
      s.w.writes == w.writes + WritesOf(products, enrich)
  {
    var created := Created(w, insertedId, products, attributesToEnrich);
    assert Known(created.store.jobs, insertedId);
    JobWithoutFaults(created, faults, insertedId, products, enrich);
    CompletedJob(created.store.jobs, insertedId, |products|);
  }

  /**
   * `startEnrichmentJob` on the store object: `calls0` numbers the
   * insertion, the first database call. It returns the identifier or the
   * insertion's error, the product writes of the run, and the number of
   * calls made.
   */
  method StartEnrichmentJob(store: EnrichmentRepository, products: seq<Product>, attributesToEnrich: seq<Attribute>,
                            env: Enrichment.EnrichEnv, insertedId: string, faults: Faults, calls0: nat)
    returns (jobId: Result<string>, writes: seq<ProductWrite>, calls: nat)
    requires store.Valid()
    requires ObjectIds.IsValid(insertedId) && Key(insertedId) == insertedId && insertedId !in store.jobs
    modifies store
    ensures store.Valid()
    ensures Start(jobId, World(store.State(), writes, calls)) ==
      StartSpec(World(old(store.State()), [], calls0), faults, insertedId, products, attributesToEnrich,
                EnrichWith(env, attributesToEnrich))
  {
    ghost var w0 := World(store.State(), [], calls0);
    var productIds := Ids(products, ProductId);
    var attributeIds := Ids(attributesToEnrich, AttributeId);
    jobId := store.CreateEnrichmentJob(productIds, attributeIds, insertedId, FaultAt(faults, calls0));
    calls := calls0 + 1;
    writes := [];
    if jobId.Err? {
      return;
    }
    ghost var created := World(store.State(), writes, calls);
    assert created == Created(w0, insertedId, products, attributesToEnrich);
    var rejected;
    writes, calls, rejected := ProcessEnrichmentJob(store, insertedId, products, attributesToEnrich, env, faults, calls);
    ghost var finish := Finish(World(store.State(), writes, calls), rejected);
    assert finish == ProcessSpec(created, faults, insertedId, products, EnrichWith(env, attributesToEnrich));
    if rejected.Some? {
      // the `.catch` handler; what it throws in turn is never observed
      var _ := UpdateJob(store, insertedId, Failure(rejected.value), faults, writes, calls);
      calls := calls + 1;
    }
  }
}

=== FILE: product_query.dfy ===
/**
 * The product repository's query building: attribute filters become
 * `$elemMatch` clauses on `attr`, a page becomes a skip, a sort field
 * becomes either a plain sort or an attribute sort, and the vector search
 * becomes a pipeline with a fallback to the plain listing.
 */
module ProductQuery {
  import opened Wrappers
  import opened Json
  import opened Types
  import Text
  import VectorSearch

  /** The `filters` record, in `Object.entries` order. */
  type Filters = seq<(string, Value)>

  /** One `{attr: {$elemMatch: {k: key, v: ...}}}` clause. */
  datatype Condition =
    /** `v: {$in: values}`. */
    | In(key: string, values: seq<Value>)
    /** `v: {$gte: ..., $lte: ...}`, each bound only when the filter gives it. */
    | Range(key: string, gte: Option<Value>, lte: Option<Value>)
    /** `v: value`. */
    | Eq(key: string, value: Value)

  /** `{}` when `and` is absent, `{$and: conditions}` otherwise. */
  datatype Query = Query(and: Option<seq<Condition>>)

  /** `value === undefined || value === null || value === ""`: the filter is ignored. */
  predicate Ignored(v: Value) { IsNullish(v) || v == Str("") }

  /** `value.min` or `value.max` as a bound: absent when it reads `undefined`. */
  function Bound(fields: seq<(string, Value)>, name: string): Option<Value>
  {
    var b := Get(fields, name);
    if b.Undefined? then None else Some(b)
  }

  /** `typeof value === "object" && (value.min !== undefined || value.max !== undefined)`, arrays and `null` being handled before. */
  predicate IsRange(v: Value) {
    v.Obj? && (Bound(v.fields, "min").Some? || Bound(v.fields, "max").Some?)
  }

  /** The clause one filter entry contributes, if any. */
  function ConditionFor(key: string, value: Value): Option<Condition>
  {
    if Ignored(value) then None
    else if value.Arr? then Some(In(key, value.items))
    else if IsRange(value) then Some(Range(key, Bound(value.fields, "min"), Bound(value.fields, "max")))
    else Some(Eq(key, value))
  }

  /** The clauses of all entries, in entry order. */
  function Conditions(filters: Filters): (r: seq<Condition>)
    ensures |r| <= |filters|
  {
    if filters == [] then []
    else
      var (key, value) := filters[|filters| - 1];
      Conditions(filters[..|filters| - 1]) + (match ConditionFor(key, value) case Some(c) => [c] case None => [])
  }

  /** The query of `listProducts` and `countProducts`, built only when the record has some key. */
  function ListQuery(filters: Filters): Query
  {
    Query(if |filters| > 0 then NonEmpty(Conditions(filters)) else None)
  }

  /** The `$match` stage of `searchProductsWithVector`, built with no check on the record's size. */
  function VectorMatch(filters: Filters): Option<seq<Condition>>
  {
    NonEmpty(Conditions(filters))
  }

  /** Each entry yields exactly the clause its value calls for. */
  lemma ConditionShapes(key: string, value: Value)
    ensures ConditionFor(key, value).None? <==> Ignored(value)
    ensures ConditionFor(key, value).Some? ==> ConditionFor(key, value).value.key == key
    ensures value.Arr? ==> ConditionFor(key, value) == Some(In(key, value.items))
    ensures value.Obj? && Bound(value.fields, "min").None? && Bound(value.fields, "max").None? ==>
      ConditionFor(key, value) == Some(Eq(key, value))
    ensures !value.Arr? && !value.Obj? && !Ignored(value) ==> ConditionFor(key, value) == Some(Eq(key, value))
  {
  }

  /** An array filter yields a membership clause even when it is empty, which then matches nothing. */
  lemma EmptyArrayStillFilters(key: string)
    ensures ConditionFor(key, Arr([])) == Some(In(key, []))
  {
  }

  /** A range clause carries `$gte` exactly when `min` is given and `$lte` exactly when `max` is, never neither. */
  lemma RangeBounds(key: string, value: Value)
    requires ConditionFor(key, value).Some? && ConditionFor(key, value).value.Range?
    ensures var c := ConditionFor(key, value).value;
      value.Obj? && (c.gte.Some? || c.lte.Some?) &&
      (c.gte.Some? <==> !Get(value.fields, "min").Undefined?) &&
      (c.gte.Some? ==> c.gte.value == Get(value.fields, "min")) &&
      (c.lte.Some? <==> !Get(value.fields, "max").Undefined?) &&
      (c.lte.Some? ==> c.lte.value == Get(value.fields, "max"))
  {
  }

  /** One more entry adds its clause, if any, at the end. */
  lemma ConditionsSnoc(filters: Filters, i: nat)
    requires i < |filters|
    ensures Conditions(filters[..i + 1]) ==
      Conditions(filters[..i]) + (match ConditionFor(filters[i].0, filters[i].1) case Some(c) => [c] case None => [])
  {
    assert filters[..i + 1][..i] == filters[..i];
  }

  /** Entry order is kept: the clauses of two runs of entries are those of the first followed by those of the second. */
  lemma {:induction false} ConditionsAppend(xs: Filters, ys: Filters)
    ensures Conditions(xs + ys) == Conditions(xs) + Conditions(ys)
  {
    if ys != [] {
      var init := ys[..|ys| - 1];
      ConditionsAppend(xs, init);
      assert (xs + ys)[..|xs + ys| - 1] == xs + init;
      var (key, value) := ys[|ys| - 1];
      var tail := match ConditionFor(key, value) case Some(c) => [c] case None => [];
      assert (Conditions(xs) + Conditions(init)) + tail == Conditions(xs) + (Conditions(init) + tail);
    } else {
      assert xs + ys == xs;
    }
  }

  /** Entry `i` of the record contributes the clause `c`. */
  predicate Contributes(filters: Filters, i: int, c: Condition) {
    0 <= i < |filters| && ConditionFor(filters[i].0, filters[i].1) == Some(c)
  }

  /** A clause is built exactly for an entry that calls for it. */
  lemma {:induction false} ConditionsFromEntries(filters: Filters)
    ensures forall c :: c in Conditions(filters) <==> exists i :: Contributes(filters, i, c)
  {
    if filters != [] {
      var n := |filters| - 1;
      var init := filters[..n];
      ConditionsFromEntries(init);
      var tail := match ConditionFor(filters[n].0, filters[n].1) case Some(c) => [c] case None => [];
      assert Conditions(filters) == Conditions(init) + tail;
      forall c ensures c in Conditions(filters) <==> exists i :: Contributes(filters, i, c) {
        if exists i :: Contributes(filters, i, c) {
          var i :| Contributes(filters, i, c);
          if i < n {
            assert Contributes(init, i, c);
          } else {
            assert c in tail;
          }
        }
        if c in Conditions(init) {
          var i :| Contributes(init, i, c);
          assert Contributes(filters, i, c);
        } else if c in tail {
          assert Contributes(filters, n, c);
        }
      }
    }
  }

  /** There are no clauses exactly when every value is ignored. */
  lemma {:induction false} NoConditions(filters: Filters)
    ensures Conditions(filters) == [] <==> forall i :: 0 <= i < |filters| ==> Ignored(filters[i].1)
  {
    if filters != [] {
      var n := |filters| - 1;
      var init := filters[..n];
      NoConditions(init);
      assert forall i :: 0 <= i < n ==> init[i] == filters[i];
      var tail := match ConditionFor(filters[n].0, filters[n].1) case Some(c) => [c] case None => [];
      assert Conditions(filters) == Conditions(init) + tail;
      assert tail == [] <==> Ignored(filters[n].1);
    }
  }

  /** `query.$and` is set exactly when some filter value is not ignored. */
  lemma AndOnlyWithConditions(filters: Filters)
    ensures ListQuery(filters).and.Some? <==> exists i :: 0 <= i < |filters| && !Ignored(filters[i].1)
    ensures ListQuery(filters).and.Some? ==> ListQuery(filters).and.value != []
  {
    NoConditions(filters);
  }

  /** The size check of the listing and the count changes nothing: all three builders filter alike. */
  lemma BuildersAgree(filters: Filters)
    ensures ListQuery(filters).and == VectorMatch(filters)
  {
  }

  /** The for-of loop over the entries, pushing each clause and building a range's bounds one at a time. */
  method CollectConditions(filters: Filters) returns (conds: seq<Condition>)
    ensures conds == Conditions(filters)
  {
    conds := [];
    for i := 0 to |filters|
      invariant conds == Conditions(filters[..i])
    {
      var key, value := filters[i].0, filters[i].1;
      ConditionsSnoc(filters, i);
      if !Ignored(value) {
        if value.Arr? {
          conds := conds + [In(key, value.items)];
        } else if value.Obj? && (!Get(value.fields, "min").Undefined? || !Get(value.fields, "max").Undefined?) {
          var gte: Option<Value> := None;
          var lte: Option<Value> := None;
          if !Get(value.fields, "min").Undefined? {
            gte := Some(Get(value.fields, "min"));
          }
          if !Get(value.fields, "max").Undefined? {
            lte := Some(Get(value.fields, "max"));
          }
          conds := conds + [Range(key, gte, lte)];
        } else {
          conds := conds + [Eq(key, value)];
        }
      }
    }
    assert filters[..|filters|] == filters;
  }

  /** The query that `listProducts` and `countProducts` send. */
  method BuildQuery(filters: Filters) returns (query: Query)
    ensures query == ListQuery(filters)
    ensures query.and.Some? ==> query.and.value == Conditions(filters) && query.and.value != []
  {
    query := Query(None);
    if |filters| > 0 {
      var conds := CollectConditions(filters);
      if |conds| > 0 {
        query := Query(Some(conds));
      }
    }
  }

  /** `(page - 1) * limit`. */
  function Skip(page: int, limit: nat): int
  {
    (page - 1) * limit
  }

  /** The first page skips nothing, and each page starts where the previous one ends. */
  lemma PagesAdjoin(page: int, limit: nat)
    ensures Skip(1, limit) == 0
    ensures Skip(page + 1, limit) == Skip(page, limit) + limit
    ensures page >= 1 ==> Skip(page, limit) >= 0
  {
  }

  /** `sortOrder === "desc" ? -1 : 1`. */
  function Direction(sortOrder: string): (r: int)
    ensures r == -1 || r == 1
    ensures r == -1 <==> sortOrder == "desc"
  {
    if sortOrder == "desc" then -1 else 1
  }

  /** Where `pattern` first occurs in `s`, as `indexOf` finds it. */
  function IndexOf(s: string, pattern: string): (r: Option<nat>)
    ensures r.Some? ==> r.value + |pattern| <= |s| && s[r.value..r.value + |pattern|] == pattern
    decreases |s|
  {
    if Text.StartsWith(s, pattern) then Some(0)
    else if s == [] then None
    else match IndexOf(s[1..], pattern)
      case Some(i) => Some(i + 1)
      case None => None
  }

  /** No earlier position holds the pattern. */
  lemma {:induction false} IndexOfFindsFirst(s: string, pattern: string)
    ensures IndexOf(s, pattern).Some? ==> forall j :: 0 <= j < IndexOf(s, pattern).value ==> !Text.StartsWith(s[j..], pattern)
    ensures IndexOf(s, pattern).None? ==> forall j :: 0 <= j <= |s| ==> !Text.StartsWith(s[j..], pattern)
    decreases |s|
  {
    if !Text.StartsWith(s, pattern) && s != [] {
      IndexOfFindsFirst(s[1..], pattern);
      forall j | 1 <= j <= |s| ensures s[j..] == s[1..][j - 1..] {}
    }
  }

  /** `s.replace(pattern, "")`: the first occurrence is removed. */
  function RemoveFirst(s: string, pattern: string): string
  {
    match IndexOf(s, pattern)
    case Some(i) => s[..i] + s[i + |pattern|..]
    case None => s
  }

  const ATTRIBUTE_PREFIX := "attr."

  /** The sort a listing applies: by the value of an attribute entry, or by a field of the product. */
  datatype Sort = ByAttribute(name: string, direction: int) | ByField(field: string, direction: int)

  /** `sortField.startsWith("attr.")` selects the attribute sort, with the name left once the prefix is replaced away. */
  function SortOf(sortField: string, sortOrder: string): Sort
  {
    if Text.StartsWith(sortField, ATTRIBUTE_PREFIX) then ByAttribute(RemoveFirst(sortField, ATTRIBUTE_PREFIX), Direction(sortOrder))
    else ByField(sortField, Direction(sortOrder))
  }

  /** An attribute sort names exactly the text after the prefix, so the prefix and the name give back the sort field; any other field is sorted on as given. */
  lemma SortSelection(sortField: string, sortOrder: string)
    ensures SortOf(sortField, sortOrder).ByAttribute? <==> Text.StartsWith(sortField, ATTRIBUTE_PREFIX)
    ensures SortOf(sortField, sortOrder).ByAttribute? ==> ATTRIBUTE_PREFIX + SortOf(sortField, sortOrder).name == sortField
    ensures SortOf(sortField, sortOrder).ByField? ==> SortOf(sortField, sortOrder).field == sortField
    ensures SortOf(sortField, sortOrder).direction == -1 <==> sortOrder == "desc"
  {
    if Text.StartsWith(sortField, ATTRIBUTE_PREFIX) {
      assert sortField == ATTRIBUTE_PREFIX + sortField[|ATTRIBUTE_PREFIX|..];
    }
  }

  /** Sorting on `"attr." + name` sorts on the attribute `name`, even when the name itself contains the prefix. */
  lemma AttributeSortRoundTrip(name: string, sortOrder: string)
    ensures SortOf(ATTRIBUTE_PREFIX + name, sortOrder) == ByAttribute(name, Direction(sortOrder))
  {
    var s := ATTRIBUTE_PREFIX + name;
    assert s[..|ATTRIBUTE_PREFIX|] == ATTRIBUTE_PREFIX;
    assert s[|ATTRIBUTE_PREFIX|..] == name;
  }

  /** The options of `listProducts`. */
  datatype ListOptions = ListOptions(page: int, limit: nat, sortField: string, sortOrder: string, filters: Filters)

  /** What `listProducts` asks the database for: the query, the sort, how many to skip and how many to return. */
  datatype ListPlan = ListPlan(query: Query, sort: Sort, skip: int, limit: nat)

  function ListPlanOf(o: ListOptions): ListPlan
  {
    ListPlan(ListQuery(o.filters), SortOf(o.sortField, o.sortOrder), Skip(o.page, o.limit), o.limit)
  }

  /** `listProducts` up to the database call. */
  method PlanListProducts(o: ListOptions) returns (plan: ListPlan)
    ensures plan == ListPlanOf(o)
  {
    var query := BuildQuery(o.filters);
    var skip := (o.page - 1) * o.limit;
    var sort: Sort;
    if Text.StartsWith(o.sortField, ATTRIBUTE_PREFIX) {
      sort := ByAttribute(RemoveFirst(o.sortField, ATTRIBUTE_PREFIX), Direction(o.sortOrder));
    } else {
      sort := ByField(o.sortField, Direction(o.sortOrder));
    }
    plan := ListPlan(query, sort, skip, o.limit);
  }

  const PRODUCT_VECTOR_INDEX := "product_vector_index"
  const NUM_CANDIDATES := 100

  /** The stages of the vector pipeline: the index, the candidate counts, the optional `$match` and the final `$limit`. */
  datatype VectorPlan = VectorPlan(index: string, numCandidates: nat, candidates: nat, filter: Option<seq<Condition>>, limit: nat)

  function VectorPlanOf(filters: Filters, limit: nat): VectorPlan
  {
    VectorPlan(PRODUCT_VECTOR_INDEX, NUM_CANDIDATES, 2 * limit, VectorMatch(filters), limit)
  }

  /** The pipeline `searchProductsWithVector` builds. */
  method BuildVectorPipeline(filters: Filters, limit: nat) returns (plan: VectorPlan)
    ensures plan == VectorPlanOf(filters, limit)
    ensures plan.candidates == 2 * limit && plan.limit == limit
    ensures plan.filter == ListQuery(filters).and
  {
    var conds := CollectConditions(filters);
    var filter: Option<seq<Condition>> := None;
    if |conds| > 0 {
      filter := Some(conds);
    }
    plan := VectorPlan(PRODUCT_VECTOR_INDEX, NUM_CANDIDATES, limit * 2, filter, limit);
    BuildersAgree(filters);
  }

  /**
   * How the database compares an attribute value against a clause's value
   * test (`$in`, `$gte`/`$lte`, equality); the model does not re-implement
   * the database's ordering of mixed values.
   */
  type ValueTest = (Condition, Value) -> bool

  /** `$elemMatch`: some entry has the clause's key and passes its value test. */
  predicate Satisfies(test: ValueTest, p: Product, c: Condition) {
    exists i :: 0 <= i < |AttrsOf(p)| && AttrsOf(p)[i].k == c.key && test(c, AttrsOf(p)[i].v)
  }

  /** `$and` of the clauses; an absent filter keeps everything. */
  predicate SatisfiesAll(test: ValueTest, p: Product, filter: Option<seq<Condition>>) {
    filter.Some? ==> forall j :: 0 <= j < |filter.value| ==> Satisfies(test, p, filter.value[j])
  }

  /** The `$match` stage, keeping order. */
  function Matching(test: ValueTest, products: seq<Product>, filter: Option<seq<Condition>>): (r: seq<Product>)
    ensures |r| <= |products|
  {
    if products == [] then []
    else
      var rest := Matching(test, products[..|products| - 1], filter);
      var last := products[|products| - 1];
      if SatisfiesAll(test, last, filter) then rest + [last] else rest
  }

  lemma {:induction false} MatchingSound(test: ValueTest, products: seq<Product>, filter: Option<seq<Condition>>)
    ensures forall p :: p in Matching(test, products, filter) <==> p in products && SatisfiesAll(test, p, filter)
  {
    if products != [] {
      var init := products[..|products| - 1];
      MatchingSound(test, init, filter);
      assert products == init + [products[|products| - 1]];
    }
  }

  /** The `$project` stage leaves out `enriched`, which then reads back as `undefined`, a false value. */
  function Projected(p: Product): Product
  {
    p.(enriched := false)
  }

  /** The documents that survive `$vectorSearch`, `$match` and `$limit`, given the candidates the index ranks best first. */
  function Selected(plan: VectorPlan, test: ValueTest, ranked: seq<Product>): seq<Product>
  {
    VectorSearch.Take(Matching(test, VectorSearch.Take(ranked, plan.candidates), plan.filter), plan.limit)
  }

  /** The documents the pipeline returns, after `$project`. */
  function RunVectorPlan(plan: VectorPlan, test: ValueTest, ranked: seq<Product>): seq<Product>
  {
    var selected := Selected(plan, test, ranked);
    seq(|selected|, i requires 0 <= i < |selected| => Projected(selected[i]))
  }

  /** The fallback listing: the first page, by name ascending, with the same filters and limit. */
  function FallbackOptions(filters: Filters, limit: nat): ListOptions
  {
    ListOptions(1, limit, "name", "asc", filters)
  }

  /**
   * `searchProductsWithVector(embedding, filters, limit)`. `ranked` is what
   * the index returns best first, or the error the aggregation throws;
   * `listProducts` is the plain listing it falls back to.
   */
  function SearchProductsWithVector(filters: Filters, limit: nat, test: ValueTest,
                                    ranked: Result<seq<Product>>, listProducts: ListOptions -> seq<Product>): seq<Product>
  {
    match ranked
    case Ok(candidates) => RunVectorPlan(VectorPlanOf(filters, limit), test, candidates)
    case Err(_) => listProducts(FallbackOptions(filters, limit))
  }

  /** At most `limit` documents survive, each one of the candidate window and each passing the filter. */
  lemma SelectedSound(plan: VectorPlan, test: ValueTest, ranked: seq<Product>)
    ensures |Selected(plan, test, ranked)| <= plan.limit
    ensures forall q :: q in Selected(plan, test, ranked) ==>
      q in VectorSearch.Take(ranked, plan.candidates) && SatisfiesAll(test, q, plan.filter)
  {
    var window := VectorSearch.Take(ranked, plan.candidates);
    MatchingSound(test, window, plan.filter);
  }

  /**
   * A vector search returns at most `limit` products, each the projection of
   * one of the best `2 * limit` candidates that passes every filter clause;
   * on error it returns the plain listing of the same filters.
   */
  lemma VectorSearchResults(filters: Filters, limit: nat, test: ValueTest,
                            ranked: Result<seq<Product>>, listProducts: ListOptions -> seq<Product>)
    ensures var r := SearchProductsWithVector(filters, limit, test, ranked, listProducts);
      (ranked.Err? ==> r == listProducts(FallbackOptions(filters, limit))) &&
      (ranked.Ok? ==> var selected := Selected(VectorPlanOf(filters, limit), test, ranked.value);
        |r| == |selected| <= limit &&
        (forall i :: 0 <= i < |r| ==> r[i] == Projected(selected[i])) &&
        (forall q :: q in selected ==>
          q in VectorSearch.Take(ranked.value, 2 * limit) && SatisfiesAll(test, q, VectorMatch(filters))))
  {
    if ranked.Ok? {
      SelectedSound(VectorPlanOf(filters, limit), test, ranked.value);
    }
  }

  /** The fallback listing filters as the vector pipeline would, on the first page sorted by name ascending. */
  lemma FallbackPlan(filters: Filters, limit: nat)
    ensures var plan := ListPlanOf(FallbackOptions(filters, limit));
      plan.query.and == VectorPlanOf(filters, limit).filter && plan.skip == 0 &&
      plan.sort == ByField("name", 1) && plan.limit == limit
  {
  }

  /** `countDocuments({"attr.k": name})`: the products with an entry of that key. */
  function CountUsing(products: seq<Product>, name: string): nat
  {
    if products == [] then 0
    else CountUsing(products[..|products| - 1], name) + (if name in Keys(AttrsOf(products[|products| - 1])) then 1 else 0)
  }

  /** `isAttributeInUse(name)`: the count is positive. */
  predicate IsAttributeInUse(products: seq<Product>, name: string) {
    CountUsing(products, name) > 0
  }

  /** An attribute is in use exactly when some product has an entry with its name as key. */
  lemma {:induction false} InUseIffSomeEntry(products: seq<Product>, name: string)
    ensures IsAttributeInUse(products, name) <==>
      exists j, i :: 0 <= j < |products| && 0 <= i < |AttrsOf(products[j])| && AttrsOf(products[j])[i].k == name
  {
    if products != [] {
      var n := |products| - 1;
      var init := products[..n];
      InUseIffSomeEntry(init, name);
      assert forall j :: 0 <= j < n ==> init[j] == products[j];
      var keys := Keys(AttrsOf(products[n]));
      if name in keys {
        var i :| 0 <= i < |keys| && keys[i] == name;
        assert AttrsOf(products[n])[i].k == name;
      } else if CountUsing(init, name) == 0 {
        forall j, i | 0 <= j < |products| && 0 <= i < |AttrsOf(products[j])|
          ensures AttrsOf(products[j])[i].k != name
        {
          if j == n {
            assert keys[i] == AttrsOf(products[j])[i].k;
          }
        }
      }
    }
  }
}

=== FILE: prompts.dfy ===
/**
 * The data-carrying parts of the attribute-generation prompt: the product
 * section, the similar-products section, the per-attribute section and the
 * rendering of a product's attributes.
 */
module Prompts {
  import opened Wrappers
  import opened Json
  import opened Types
  import Text

  const NO_ATTRIBUTES := "No attributes available"

  const LIMITED_CONTEXT :=
    "\nLimited Similar Products Context:\n" +
    "No similar products with matching attributes were found in the database.\n" +
    "You should rely more on the product name, brand, and your general knowledge about this type of product.\n"

  function IntToString(n: int): string
  {
    if n < 0 then "-" + Text.NatToString(-n) else Text.NatToString(n)
  }

  /** The value part of an attribute line: a unit wins, then an array's elements, then `String(v)`. */
  function ValueText(f: Foreign, a: ProductAttribute): string
  {
    if Filled(a.u) then ToText(f, a.v) + " " + a.u.value
    else if a.v.Arr? then JoinValues(f, a.v.items, ", ")
    else ToText(f, a.v)
  }

  /** The confidence suffix, present only for a truthy confidence. */
  function ConfidenceSuffix(f: Foreign, a: ProductAttribute): string
  {
    if a.confidence.Some? && a.confidence.value != 0.0
    then " (confidence: " + f.fixed2(a.confidence.value) + ")"
    else ""
  }

  function AttributeLine(f: Foreign, a: ProductAttribute): string
  {
    "  " + a.k + ": " + ValueText(f, a) + ConfidenceSuffix(f, a)
  }

  function AttributeLines(f: Foreign, attrs: seq<ProductAttribute>): (r: seq<string>)
    ensures |r| == |attrs|
    ensures forall i :: 0 <= i < |attrs| ==> r[i] == AttributeLine(f, attrs[i])
  {
    if attrs == [] then [] else [AttributeLine(f, attrs[0])] + AttributeLines(f, attrs[1..])
  }

  /** `formatProductAttributes(product)`. */
  function FormatProductAttributes(f: Foreign, p: Product): string
  {
    if AttrsOf(p) == [] then NO_ATTRIBUTES
    else Text.Join(AttributeLines(f, AttrsOf(p)), "\n")
  }

  /** A join of non-empty pieces begins with the first piece. */
  lemma JoinStartsWithFirst(parts: seq<string>, sep: string)
    requires parts != []
    ensures Text.StartsWith(Text.Join(parts, sep), parts[0])
  {
    if |parts| > 1 {
      assert Text.Join(parts, sep) == parts[0] + (sep + Text.Join(parts[1..], sep));
    }
  }

  /**
   * The placeholder appears exactly when the product has no attributes:
   * every rendered line starts with two spaces, so no rendering of a
   * non-empty list equals it.
   */
  lemma PlaceholderIffNoAttributes(f: Foreign, p: Product)
    ensures FormatProductAttributes(f, p) == NO_ATTRIBUTES <==> AttrsOf(p) == []
  {
    var attrs := AttrsOf(p);
    if attrs != [] {
      var lines := AttributeLines(f, attrs);
      JoinStartsWithFirst(lines, "\n");
      var r := Text.Join(lines, "\n");
      assert lines[0][..2] == "  ";
      assert r[..2] == lines[0][..2];
      assert NO_ATTRIBUTES[0] == 'N';
    }
  }

  /** How a value is rendered: a unit takes precedence over everything else, then arrays are joined with ", ". */
  lemma ValueRendering(f: Foreign, a: ProductAttribute)
    ensures Filled(a.u) ==> ValueText(f, a) == ToText(f, a.v) + " " + a.u.value
    ensures !Filled(a.u) && a.v.Arr? ==> ValueText(f, a) == JoinValues(f, a.v.items, ", ")
    ensures !Filled(a.u) && !a.v.Arr? ==> ValueText(f, a) == ToText(f, a.v)
    ensures a.u == Some("") ==> ValueText(f, a) == ValueText(f, a.(u := None))
  {
  }

  /** A zero confidence is falsy and renders exactly like an absent one. */
  lemma ZeroConfidenceNotShown(f: Foreign, a: ProductAttribute)
    requires a.confidence == Some(0.0)
    ensures AttributeLine(f, a) == AttributeLine(f, a.(confidence := None))
    ensures AttributeLine(f, a) == "  " + a.k + ": " + ValueText(f, a)
  {
  }

  function SimilarHeading(number: nat): string
  {
    "\n- Similar Product " + Text.NatToString(number) + ":"
  }

  /** The block for one similar product, numbered from 1. */
  function SimilarBlock(f: Foreign, number: nat, p: Product): string
  {
    SimilarHeading(number) +
    ("\n  Name: " + p.name + "\n  Brand: " + p.brand + "\n  " + FormatProductAttributes(f, p) + "\n")
  }

  /** `similarProducts.map((p, index) => ...)`: one block per similar product. */
  function SimilarBlocks(f: Foreign, ps: seq<Product>): (r: seq<string>)
    ensures |r| == |ps|
  {
    seq(|ps|, index requires 0 <= index < |ps| => SimilarBlock(f, index + 1, ps[index]))
  }

  /** The similar-products section: numbered blocks, or the fixed limited-context text for none. */
  function SimilarProductsSection(f: Foreign, ps: seq<Product>): (r: string)
    ensures ps == [] ==> r == LIMITED_CONTEXT
  {
    if ps == [] then LIMITED_CONTEXT
    else
      "\nSimilar Products Information (" + Text.NatToString(|ps|) + " products found):\n" +
      Text.Join(SimilarBlocks(f, ps), "\n") + "\n"
  }

  /** The similar products are numbered 1, 2, ... in list order. */
  lemma SimilarNumbering(f: Foreign, ps: seq<Product>, i: nat)
    requires i < |ps|
    ensures SimilarBlocks(f, ps)[i] == SimilarBlock(f, i + 1, ps[i])
    ensures Text.StartsWith(SimilarBlocks(f, ps)[i], SimilarHeading(i + 1))
  {
  }

  predicate IsSelect(t: string) { t == "single_select" || t == "multiple_select" }

  /** `${list?.join(", ")}`: an absent list renders as "undefined". */
  function ListText(xs: Option<seq<string>>): string
  {
    if xs.Some? then Text.Join(xs.value, ", ") else "undefined"
  }

  function OptionsLine(a: Attribute): string
  {
    if IsSelect(a.typ) then "Options: " + ListText(a.options) + " (YOU MUST SELECT FROM THESE OPTIONS ONLY)" else ""
  }

  function UnitsLine(a: Attribute): string
  {
    if a.typ == "measure" then "Units: " + ListText(a.units) + " (YOU MUST USE ONE OF THESE UNITS)" else ""
  }

  /** `attr.maxLength || 50`. */
  function MaxLengthOrDefault(maxLength: Option<int>): int
  {
    if maxLength.Some? && maxLength.value != 0 then maxLength.value else 50
  }

  function MaxLengthLine(a: Attribute): string
  {
    if a.typ == "short_text" then "Max Length: " + IntToString(MaxLengthOrDefault(a.maxLength)) + " characters" else ""
  }

  /** The instructions for one attribute to generate. */
  function AttributeBlock(a: Attribute): string
  {
    "\n- " + a.displayName + " (" + a.name + ")\n  Type: " + a.typ +
    "\n  Description: " + (if Filled(a.description) then a.description.value else "No description available") +
    "\n  " + OptionsLine(a) + "\n  " + UnitsLine(a) + "\n  " + MaxLengthLine(a) + "\n"
  }

  function AttributeBlocks(defs: seq<Attribute>): (r: seq<string>)
    ensures |r| == |defs|
    ensures forall i :: 0 <= i < |defs| ==> r[i] == AttributeBlock(defs[i])
  {
    if defs == [] then [] else [AttributeBlock(defs[0])] + AttributeBlocks(defs[1..])
  }

  function AttributesSection(defs: seq<Attribute>): string
  {
    "\nATTRIBUTES TO GENERATE (YOU MUST GENERATE ALL OF THESE):\n" + Text.Join(AttributeBlocks(defs), "\n") + "\n"
  }

  /** Which constraint lines an attribute's block carries depends on its type only. */
  lemma ConstraintLines(a: Attribute)
    ensures OptionsLine(a) != "" <==> IsSelect(a.typ)
    ensures UnitsLine(a) != "" <==> a.typ == "measure"
    ensures MaxLengthLine(a) != "" <==> a.typ == "short_text"
    ensures a.typ == "short_text" && (a.maxLength.None? || a.maxLength == Some(0)) ==>
      MaxLengthLine(a) == "Max Length: 50 characters"
  {
    assert Text.NatToString(50) == Text.NatToString(5) + [Text.DigitChar(0)] == "50";
  }

  /** The product section of the prompt. */
  function ProductInfo(f: Foreign, p: Product): string
  {
    "\nProduct Information:\nName: " + p.name + "\nBrand: " + p.brand + "\n" +
    (if Filled(p.barcode) then "Barcode: " + p.barcode.value else "") + "\n" +
    (if |p.images| > 0 then "Has " + Text.NatToString(|p.images|) + " product images"
     else "No product images available") + "\n\n" +
    (if AttrsOf(p) != [] then "Existing Product Attributes:\n" + FormatProductAttributes(f, p)
     else "No existing attributes available for this product") + "\n  "
  }

  /** An empty barcode is falsy and leaves the barcode line out, exactly as a missing one does. */
  lemma EmptyBarcodeOmitted(f: Foreign, p: Product)
    requires p.barcode == Some("")
    ensures ProductInfo(f, p) == ProductInfo(f, p.(barcode := None))
  {
  }

  /**
   * `getAttributeGenerationPrompt(product, similarProducts, attributesToEnrich)`
   * up to the fixed instruction text that follows the attribute section.
   */
  function GenerationPrompt(f: Foreign, p: Product, similar: seq<Product>, defs: seq<Attribute>): string
  {
    "\n" + ProductInfo(f, p) + "\n\n" + SimilarProductsSection(f, similar) + "\n\n" + AttributesSection(defs) + "\n\n"
  }
}

=== FILE: rag.dfy ===
/**
 * The retrieval-augmented step: similar products are narrowed to those
 * sharing at least one key with the attributes to generate, and only those
 * reach the generation prompt.
 */
module Rag {
  import opened Wrappers
  import opened Json
  import opened Types
  import Generation
  import Prompts

  /** `attrs.some((attr) => names.includes(attr.k))`. */
  predicate SomeKeyIn(attrs: seq<ProductAttribute>, names: seq<string>) {
    attrs != [] && (attrs[0].k in names || SomeKeyIn(attrs[1..], names))
  }

  /** A product with some attribute whose key is among the names to generate; no attribute list means none. */
  predicate Relevant(p: Product, names: seq<string>) {
    SomeKeyIn(AttrsOf(p), names)
  }

  /** Relevance is the existence of an attribute with a key among the names. */
  lemma {:induction false} RelevantMeans(attrs: seq<ProductAttribute>, names: seq<string>)
    ensures SomeKeyIn(attrs, names) <==> exists a :: a in attrs && a.k in names
  {
    if attrs != [] {
      RelevantMeans(attrs[1..], names);
      assert forall a :: a in attrs <==> a == attrs[0] || a in attrs[1..];
    }
  }

  /** `filterRelevantSimilarProducts(similarProducts, attributesToEnrich)`. */
  function FilterRelevant(similar: seq<Product>, defs: seq<Attribute>): (r: seq<Product>)
    ensures |r| <= |similar|
  {
    if similar == [] then []
    else
      var rest := FilterRelevant(similar[1..], defs);
      if Relevant(similar[0], Names(defs)) then [similar[0]] + rest else rest
  }

  /** `xs` is obtained from `ys` by deleting elements, the rest keeping their order. */
  predicate IsSubsequence(xs: seq<Product>, ys: seq<Product>)
    decreases |ys|
  {
    if xs == [] then true
    else if ys == [] then false
    else if xs[0] == ys[0] then IsSubsequence(xs[1..], ys[1..])
    else IsSubsequence(xs, ys[1..])
  }

  /** The filter keeps the surviving products in their original order. */
  lemma {:induction false} FilterIsSubsequence(similar: seq<Product>, defs: seq<Attribute>)
    ensures IsSubsequence(FilterRelevant(similar, defs), similar)
  {
    if similar != [] {
      FilterIsSubsequence(similar[1..], defs);
      var rest := FilterRelevant(similar[1..], defs);
      if !Relevant(similar[0], Names(defs)) {
        if rest != [] {
          FilterMembership(similar[1..], defs, rest[0]);
          assert rest[0] in rest;
        }
      }
    }
  }

  /** A product survives exactly when it is in the input and relevant. */
  lemma {:induction false} FilterMembership(similar: seq<Product>, defs: seq<Attribute>, p: Product)
    ensures p in FilterRelevant(similar, defs) <==> p in similar && Relevant(p, Names(defs))
  {
    if similar != [] {
      FilterMembership(similar[1..], defs, p);
      assert p in similar <==> p == similar[0] || p in similar[1..];
    }
  }

  /** Filtering distributes over concatenation. */
  lemma {:induction false} FilterAppend(xs: seq<Product>, ys: seq<Product>, defs: seq<Attribute>)
    ensures FilterRelevant(xs + ys, defs) == FilterRelevant(xs, defs) + FilterRelevant(ys, defs)
  {
    if xs == [] {
      assert xs + ys == ys;
    } else {
      var zs := xs + ys;
      assert zs[0] == xs[0] && zs[1..] == xs[1..] + ys;
      FilterAppend(xs[1..], ys, defs);
      var rest, right := FilterRelevant(xs[1..], defs), FilterRelevant(ys, defs);
      if Relevant(xs[0], Names(defs)) {
        assert FilterRelevant(zs, defs) == [xs[0]] + (rest + right);
        assert FilterRelevant(xs, defs) == [xs[0]] + rest;
        assert [xs[0]] + (rest + right) == ([xs[0]] + rest) + right;
      } else {
        assert FilterRelevant(zs, defs) == rest + right;
        assert FilterRelevant(xs, defs) == rest;
      }
    }
  }

  /** A product without attributes, or with an empty list, never provides context. */
  lemma NoAttributesDropped(p: Product, defs: seq<Attribute>)
    requires AttrsOf(p) == []
    ensures FilterRelevant([p], defs) == []
  {
    assert [p][1..] == [];
  }

  /** With nothing to generate, no product is relevant. */
  lemma {:induction false} NothingToGenerate(similar: seq<Product>)
    ensures FilterRelevant(similar, []) == []
  {
    if similar != [] {
      NothingToGenerate(similar[1..]);
      RelevantMeans(AttrsOf(similar[0]), []);
    }
  }

  /** Filtering twice is filtering once. */
  lemma {:induction false} FilterIdempotent(similar: seq<Product>, defs: seq<Attribute>)
    ensures FilterRelevant(FilterRelevant(similar, defs), defs) == FilterRelevant(similar, defs)
  {
    if similar != [] {
      FilterIdempotent(similar[1..], defs);
      var rest := FilterRelevant(similar[1..], defs);
      if Relevant(similar[0], Names(defs)) {
        assert ([similar[0]] + rest)[1..] == rest;
      }
    }
  }

  /**
   * `RAGChain.run`: the generation step sees the filtered list, never the raw
   * one; a failure of the generation step is rethrown unchanged.
   */
  function RagRun(f: Foreign, parse: Generation.JsonParse, complete: Generation.Completion,
                  p: Product, similar: seq<Product>, defs: seq<Attribute>): (r: Result<seq<ProductAttribute>>)
    ensures r.Err? <==> complete(Prompts.GenerationPrompt(f, p, FilterRelevant(similar, defs), defs)).Err?
    ensures r.Err? ==> r.error == complete(Prompts.GenerationPrompt(f, p, FilterRelevant(similar, defs), defs)).error
    ensures r.Ok? ==> forall j :: 0 <= j < |r.value| ==>
      FindDef(defs, r.value[j].k).Some? && Generation.Conforms(FindDef(defs, r.value[j].k).value, r.value[j])
  {
    Generation.GenerationRun(f, parse, complete, p, FilterRelevant(similar, defs), defs)
  }

  /** Deleting an irrelevant product from the input does not change the filtered list. */
  lemma FilterSkipsIrrelevant(xs: seq<Product>, q: Product, ys: seq<Product>, defs: seq<Attribute>)
    requires !Relevant(q, Names(defs))
    ensures FilterRelevant(xs + [q] + ys, defs) == FilterRelevant(xs + ys, defs)
  {
    FilterAppend(xs + [q], ys, defs);
    FilterAppend(xs, [q], defs);
    FilterAppend(xs, ys, defs);
    assert [q][1..] == [];
  }

  /** An irrelevant similar product, wherever it sits, has no influence on the outcome. */
  lemma IrrelevantProductIgnored(f: Foreign, parse: Generation.JsonParse, complete: Generation.Completion,
                                 p: Product, xs: seq<Product>, q: Product, ys: seq<Product>, defs: seq<Attribute>)
    requires !Relevant(q, Names(defs))
    ensures RagRun(f, parse, complete, p, xs + [q] + ys, defs) == RagRun(f, parse, complete, p, xs + ys, defs)
  {
    FilterSkipsIrrelevant(xs, q, ys, defs);
  }
}

=== FILE: store.dfy ===
/**
 * The enrichment job store: job records addressed by identifier and updated
 * in place with `$set` documents, and an append-only collection of
 * per-product results tagged with their job identifier.
 */
module EnrichmentStore {
  import opened Wrappers
  import ObjectIds

  datatype Status = Idle | Pending | Processing | Completed | Failed

  /** A stored job record, without its timestamps. */
  datatype Job = Job(
    productIds: seq<string>,
    attributeIds: seq<string>,
    status: Status,
    progress: int,
    productsTotal: int,
    productsProcessed: int,
    error: Option<string>)

  /** A `$set` document over the job fields: an absent field is left as it is. */
  datatype JobUpdate = JobUpdate(
    status: Option<Status>,
    progress: Option<int>,
    productsTotal: Option<int>,
    productsProcessed: Option<int>,
    error: Option<string>)

  /** What `getEnrichmentJobStatus` reports about a job. */
  datatype JobStatus = JobStatus(
    jobId: string,
    status: Status,
    progress: int,
    productsTotal: int,
    productsProcessed: int,
    error: Option<string>)

  /** The outcome recorded for one product of a job. */
  datatype EnrichmentResult = EnrichmentResult(
    productId: string,
    enrichedAttributes: seq<string>,
    success: bool,
    error: Option<string>)

  datatype StoredResult = StoredResult(jobId: string, result: EnrichmentResult)

  /** The contents of both collections. */
  datatype Store = Store(jobs: map<string, Job>, results: seq<StoredResult>)

  const NO_FIELDS := JobUpdate(None, None, None, None, None)

  function Pick<T>(field: Option<T>, current: T): T {
    if field.Some? then field.value else current
  }

  /** The job record created for a list of products and attributes. */
  function NewJob(productIds: seq<string>, attributeIds: seq<string>): (j: Job)
    ensures j.status == Pending && j.progress == 0 && j.productsProcessed == 0
    ensures j.productsTotal == |productIds| && j.error == None
    ensures j.productIds == productIds && j.attributeIds == attributeIds
  {
    Job(productIds, attributeIds, Pending, 0, |productIds|, 0, None)
  }

  /** The record after a `$set` of the fields present in `u`. */
  function ApplyUpdate(j: Job, u: JobUpdate): Job
  {
    Job(j.productIds, j.attributeIds,
        Pick(u.status, j.status), Pick(u.progress, j.progress), Pick(u.productsTotal, j.productsTotal),
        Pick(u.productsProcessed, j.productsProcessed), if u.error.Some? then u.error else j.error)
  }

  /** Two updates in a row act as one whose present fields are taken from the later one first. */
  function Then(first: JobUpdate, second: JobUpdate): JobUpdate
  {
    JobUpdate(
      if second.status.Some? then second.status else first.status,
      if second.progress.Some? then second.progress else first.progress,
      if second.productsTotal.Some? then second.productsTotal else first.productsTotal,
      if second.productsProcessed.Some? then second.productsProcessed else first.productsProcessed,
      if second.error.Some? then second.error else first.error)
  }

  /** A field absent from the update keeps its value; a present one takes the update's value. */
  lemma UpdateFrame(j: Job, u: JobUpdate)
    ensures var r := ApplyUpdate(j, u);
      r.productIds == j.productIds && r.attributeIds == j.attributeIds &&
      (u.status.None? ==> r.status == j.status) && (u.status.Some? ==> r.status == u.status.value) &&
      (u.progress.None? ==> r.progress == j.progress) && (u.progress.Some? ==> r.progress == u.progress.value) &&
      (u.productsTotal.None? ==> r.productsTotal == j.productsTotal) &&
      (u.productsTotal.Some? ==> r.productsTotal == u.productsTotal.value) &&
      (u.productsProcessed.None? ==> r.productsProcessed == j.productsProcessed) &&
      (u.productsProcessed.Some? ==> r.productsProcessed == u.productsProcessed.value) &&
      (u.error.None? ==> r.error == j.error) && (u.error.Some? ==> r.error == u.error)
  {
  }

  /** `$set` algebra: an empty update is the identity, updates are idempotent, and two in a row compose. */
  lemma UpdateAlgebra(j: Job, u: JobUpdate, w: JobUpdate)
    ensures ApplyUpdate(j, NO_FIELDS) == j
    ensures ApplyUpdate(ApplyUpdate(j, u), u) == ApplyUpdate(j, u)
    ensures ApplyUpdate(ApplyUpdate(j, u), w) == ApplyUpdate(j, Then(u, w))
  {
  }

  /** The record's key: the canonical spelling of the identifier. */
  function Key(jobId: string): string { ObjectIds.Canonical(jobId) }

  /** The identifier names a stored job. */
  predicate Known(jobs: map<string, Job>, jobId: string) {
    ObjectIds.IsValid(jobId) && Key(jobId) in jobs
  }

  /** The status view of a stored job, reported under its canonical identifier. */
  function StatusOf(key: string, j: Job): JobStatus
  {
    JobStatus(key, j.status, j.progress, j.productsTotal, j.productsProcessed, j.error)
  }

  /** The job map after `updateOne({_id}, {$set: u})`; a malformed or unknown identifier changes nothing. */
  function UpdatedJobs(jobs: map<string, Job>, jobId: string, u: JobUpdate): (r: map<string, Job>)
    ensures r.Keys == jobs.Keys
    ensures forall key :: key in jobs && key != Key(jobId) ==> r[key] == jobs[key]
    ensures !Known(jobs, jobId) ==> r == jobs
  {
    if Known(jobs, jobId) then jobs[Key(jobId) := ApplyUpdate(jobs[Key(jobId)], u)] else jobs
  }

  /** `modifiedCount === 1`: the identifier names a job and the update changes one of its fields. */
  predicate Modifies(jobs: map<string, Job>, jobId: string, u: JobUpdate) {
    Known(jobs, jobId) && ApplyUpdate(jobs[Key(jobId)], u) != jobs[Key(jobId)]
  }

  /** Repeating an update that was just applied reports no modification. */
  lemma RepeatedUpdateModifiesNothing(jobs: map<string, Job>, jobId: string, u: JobUpdate)
    ensures !Modifies(UpdatedJobs(jobs, jobId, u), jobId, u)
    ensures UpdatedJobs(UpdatedJobs(jobs, jobId, u), jobId, u) == UpdatedJobs(jobs, jobId, u)
  {
    if Known(jobs, jobId) {
      UpdateAlgebra(jobs[Key(jobId)], u, u);
    }
  }

  /** `find({jobId})` projected to results: the results saved under exactly this identifier, in insertion order. */
  function ResultsFor(results: seq<StoredResult>, jobId: string): (r: seq<EnrichmentResult>)
    ensures |r| <= |results|
    ensures forall x :: x in r <==> StoredResult(jobId, x) in results
  {
    if results == [] then []
    else
      var rest := ResultsFor(results[1..], jobId);
      assert forall s :: s in results <==> s == results[0] || s in results[1..];
      if results[0].jobId == jobId then [results[0].result] + rest else rest
  }

  /** Appending a result extends its own job's list by that result and leaves every other job's list alone. */
  lemma {:induction false} ResultsForAppend(results: seq<StoredResult>, s: StoredResult, jobId: string)
    ensures ResultsFor(results + [s], jobId) ==
      ResultsFor(results, jobId) + (if s.jobId == jobId then [s.result] else [])
  {
    if results == [] {
      assert [s][1..] == [];
    } else {
      ResultsForAppend(results[1..], s, jobId);
      assert (results + [s])[1..] == results[1..] + [s];
    }
  }

  /** The store as an object whose collections its operations modify. */
  class EnrichmentRepository {
    var jobs: map<string, Job>
    var results: seq<StoredResult>

    /** Every stored job is keyed by a canonical, well-formed identifier. */
    predicate Valid()
      reads this
    {
      forall key :: key in jobs ==> ObjectIds.IsValid(key) && Key(key) == key
    }

    function State(): Store
      reads this
    {
      Store(jobs, results)
    }

    constructor ()
      ensures Valid() && jobs == map[] && results == []
    {
      jobs := map[];
      results := [];
    }

    /**
     * `createEnrichmentJob(productIds, attributeIds)`; `insertedId` is the
     * identifier the database assigns, `fault` the error the insert throws.
     */
    method CreateEnrichmentJob(productIds: seq<string>, attributeIds: seq<string>, insertedId: string, fault: Option<string>)
      returns (jobId: Result<string>)
      requires Valid()
      requires ObjectIds.IsValid(insertedId) && Key(insertedId) == insertedId && insertedId !in jobs
      modifies this
      ensures Valid()
      ensures fault.Some? ==> jobId == Err(fault.value) && jobs == old(jobs)
      ensures fault.None? ==> jobId == Ok(insertedId) && jobs == old(jobs)[insertedId := NewJob(productIds, attributeIds)]
      ensures fault.None? ==> Known(jobs, insertedId)
      ensures results == old(results)
    {
      if fault.Some? {
        return Err(fault.value);
      }
      jobs := jobs[insertedId := NewJob(productIds, attributeIds)];
      jobId := Ok(insertedId);
    }

    /** `getEnrichmentJobStatus(jobId)`; `None` is the `null` for a malformed or unknown identifier. */
    method GetEnrichmentJobStatus(jobId: string) returns (r: Option<JobStatus>)
      ensures r.None? <==> !Known(jobs, jobId)
      ensures r.Some? ==> r.value == StatusOf(Key(jobId), jobs[Key(jobId)]) && r.value.jobId == Key(jobId)
    {
      if !ObjectIds.IsValid(jobId) {
        return None;
      }
      var key := ObjectIds.Canonical(jobId);
      if key !in jobs {
        return None;
      }
      var job := jobs[key];
      r := Some(JobStatus(key, job.status, job.progress, job.productsTotal, job.productsProcessed, job.error));
    }

    /**
     * `updateEnrichmentJobStatus(jobId, update)`. A malformed identifier
     * never reaches the database; otherwise `fault` is the error the update
     * throws, and a failed update changes nothing.
     */
    method UpdateEnrichmentJobStatus(jobId: string, update: JobUpdate, fault: Option<string>)
      returns (modified: bool, thrown: Option<string>)
      requires Valid()
      modifies this
      ensures Valid()
      ensures !ObjectIds.IsValid(jobId) ==> !modified && thrown.None? && jobs == old(jobs)
      ensures ObjectIds.IsValid(jobId) && fault.Some? ==> !modified && thrown == fault && jobs == old(jobs)
      ensures ObjectIds.IsValid(jobId) && fault.None? ==>
        thrown.None? && modified == Modifies(old(jobs), jobId, update) && jobs == UpdatedJobs(old(jobs), jobId, update)
      ensures results == old(results)
    {
      if !ObjectIds.IsValid(jobId) {
        return false, None;
      }
      if fault.Some? {
        return false, fault;
      }
      var key := ObjectIds.Canonical(jobId);
      thrown := None;
      if key in jobs {
        var before := jobs[key];
        var after := ApplyUpdate(before, update);
        jobs := jobs[key := after];
        modified := after != before;
      } else {
        modified := false;
      }
    }

    /** `saveEnrichmentResult(jobId, result)`: one insertion, tagged with the identifier exactly as given. */
    method SaveEnrichmentResult(jobId: string, result: EnrichmentResult, fault: Option<string>)
      returns (thrown: Option<string>)
      requires Valid()
      modifies this
      ensures Valid()
      ensures thrown == fault
      ensures fault.None? ==> results == old(results) + [StoredResult(jobId, result)]
      ensures fault.Some? ==> results == old(results)
      ensures jobs == old(jobs)
    {
      if fault.Some? {
        return fault;
      }
      results := results + [StoredResult(jobId, result)];
      thrown := None;
    }

    /** `getEnrichmentResultsByJobId(jobId)`: the results saved under that identifier, oldest first. */
    method GetEnrichmentResultsByJobId(jobId: string) returns (rs: seq<EnrichmentResult>)
      ensures rs == ResultsFor(results, jobId)
      ensures forall x :: x in rs <==> StoredResult(jobId, x) in results
    {
      rs := ResultsFor(results, jobId);
    }
  }
}

=== FILE: text.dfy ===
/**
 * The JavaScript string operations the core relies on: `trim`, `split`,
 * `join`, `toLowerCase`, `startsWith` and the decimal rendering of a count.
 */
module Text {

  /** The whitespace that `String.prototype.trim` and the regular-expression class `\s` remove. */
  predicate IsSpace(c: char) {
    c == ' ' || c == '\t' || c == '\n' || c == '\r' ||
    c as int == 0x0B || c as int == 0x0C || c as int == 0xA0 || c as int == 0x1680 ||
    0x2000 <= c as int <= 0x200A || c as int == 0x2028 || c as int == 0x2029 ||
    c as int == 0x202F || c as int == 0x205F || c as int == 0x3000 || c as int == 0xFEFF
  }

  /** The regular-expression class `\d`. */
  predicate IsDigit(c: char) { '0' <= c <= '9' }

  /** The regular-expression class `[a-zA-Z]`. */
  predicate IsLetter(c: char) { 'a' <= c <= 'z' || 'A' <= c <= 'Z' }

  predicate AllSpace(s: string) { forall i :: 0 <= i < |s| ==> IsSpace(s[i]) }
  predicate AllDigits(s: string) { forall i :: 0 <= i < |s| ==> IsDigit(s[i]) }
  predicate AllLetters(s: string) { forall i :: 0 <= i < |s| ==> IsLetter(s[i]) }

  /** Drops the leading whitespace. */
  function TrimStart(s: string): (r: string)
    ensures |r| <= |s| && r == s[|s| - |r|..]
    ensures AllSpace(s[..|s| - |r|])
    ensures r == [] || !IsSpace(r[0])
  {
    if s != [] && IsSpace(s[0]) then TrimStart(s[1..]) else s
  }

  /** Drops the trailing whitespace. */
  function TrimEnd(s: string): (r: string)
    ensures |r| <= |s| && r == s[..|r|]
    ensures AllSpace(s[|r|..])
    ensures r == [] || !IsSpace(r[|r| - 1])
  {
    if s != [] && IsSpace(s[|s| - 1]) then TrimEnd(s[..|s| - 1]) else s
  }

  /** `s.trim()`: the longest infix of `s` that neither starts nor ends with whitespace. */
  function Trim(s: string): (r: string)
    ensures |r| <= |s|
    ensures r == [] || (!IsSpace(r[0]) && !IsSpace(r[|r| - 1]))
    ensures exists i, j :: 0 <= i <= j <= |s| && r == s[i..j] && AllSpace(s[..i]) && AllSpace(s[j..])
  {
    var t := TrimStart(s);
    var u := TrimEnd(t);
    var i := |s| - |t|;
    assert u == s[i..i + |u|];
    assert s[i + |u|..] == t[|u|..];
    u
  }

  /** `s.split(sep)` for a one-character separator. */
  function Split(s: string, sep: char): (parts: seq<string>)
    ensures |parts| >= 1
  {
    if s == [] then [""]
    else
      var rest := Split(s[1..], sep);
      if s[0] == sep then [""] + rest else [[s[0]] + rest[0]] + rest[1..]
  }

  /** `parts.join(sep)` for a one-character separator. */
  function JoinChar(parts: seq<string>, sep: char): string
  {
    if parts == [] then ""
    else if |parts| == 1 then parts[0]
    else parts[0] + [sep] + JoinChar(parts[1..], sep)
  }

  /** `parts.join(sep)`. */
  function Join(parts: seq<string>, sep: string): string
  {
    if parts == [] then ""
    else if |parts| == 1 then parts[0]
    else parts[0] + sep + Join(parts[1..], sep)
  }

  /** No piece of a split contains the separator. */
  lemma {:induction false} SplitPiecesFree(s: string, sep: char)
    ensures forall i :: 0 <= i < |Split(s, sep)| ==> sep !in Split(s, sep)[i]
  {
    if s != [] {
      SplitPiecesFree(s[1..], sep);
      var rest := Split(s[1..], sep);
      if s[0] != sep {
        assert forall i :: 0 <= i < |rest| ==> sep !in rest[i];
        assert sep !in [s[0]] + rest[0];
      }
    }
  }

  /** Splitting and joining again on the same separator gives the original string back. */
  lemma {:induction false} JoinSplit(s: string, sep: char)
    ensures JoinChar(Split(s, sep), sep) == s
  {
    if s != [] {
      JoinSplit(s[1..], sep);
      var rest := Split(s[1..], sep);
      if s[0] == sep {
        assert Split(s, sep) == [""] + rest;
        assert ([""] + rest)[1..] == rest;
        assert s == [sep] + s[1..];
      } else {
        var parts := [[s[0]] + rest[0]] + rest[1..];
        assert Split(s, sep) == parts;
        if |rest| == 1 {
          assert s == [s[0]] + rest[0];
        } else {
          assert parts[1..] == rest[1..];
          assert JoinChar(rest, sep) == rest[0] + [sep] + JoinChar(rest[1..], sep);
          assert s == [s[0]] + s[1..];
        }
      }
    }
  }

  /** The last element of a non-empty sequence, as `Array.prototype.pop` returns it. */
  function Last<T>(xs: seq<T>): T
    requires xs != []
  {
    xs[|xs| - 1]
  }

  /** How the last piece of a split follows from the split of the tail. */
  lemma LastOfSplit(s: string, sep: char)
    requires s != []
    ensures Last(Split(s, sep)) ==
      if s[0] != sep && |Split(s[1..], sep)| == 1 then [s[0]] + Last(Split(s[1..], sep)) else Last(Split(s[1..], sep))
  {
  }

  /** A split has a single piece exactly when the separator does not occur, and that piece is the whole string. */
  lemma {:induction false} SinglePiece(t: string, sep: char)
    ensures |Split(t, sep)| == 1 <==> sep !in t
    ensures |Split(t, sep)| == 1 ==> Split(t, sep)[0] == t
  {
    if t != [] {
      SinglePiece(t[1..], sep);
      assert t == [t[0]] + t[1..];
      assert sep in t <==> t[0] == sep || sep in t[1..];
    }
  }

  /** The last piece of a split is the text after the last separator, or all of `s` when there is none. */
  lemma {:induction false} LastPieceIsSuffix(s: string, sep: char)
    ensures var p := Last(Split(s, sep));
      |p| <= |s| && p == s[|s| - |p|..] && sep !in p &&
      (|p| < |s| ==> s[|s| - |p| - 1] == sep)
  {
    if s != [] {
      LastPieceIsSuffix(s[1..], sep);
      LastOfSplit(s, sep);
      SinglePiece(s[1..], sep);
      var p := Last(Split(s[1..], sep));
      assert s[1..][|s| - 1 - |p|..] == s[|s| - |p|..];
      if s[0] != sep && |Split(s[1..], sep)| == 1 {
        assert p == s[1..];
        assert [s[0]] + p == s;
      } else if s[0] != sep {
        assert |p| < |s| - 1;
      }
    }
  }

  function LowerChar(c: char): char
  {
    if 'A' <= c <= 'Z' then (c as int + 32) as char else c
  }

  /** `s.toLowerCase()` on the ASCII letters. */
  function Lower(s: string): (r: string)
    ensures |r| == |s|
  {
    seq(|s|, i requires 0 <= i < |s| => LowerChar(s[i]))
  }

  /** Lower-casing leaves the separators in place, so it commutes with a split on a non-letter. */
  lemma {:induction false} SplitLower(s: string, sep: char)
    requires !('A' <= sep <= 'Z') && !('a' <= sep <= 'z')
    ensures SplitsAlike(Split(Lower(s), sep), Split(s, sep))
  {
    if s != [] {
      SplitLower(s[1..], sep);
      var ls := Lower(s);
      assert ls[0] == LowerChar(s[0]) && ls[1..] == Lower(s[1..]);
      if s[0] == sep {
        SplitLowerAtSeparator(s, sep);
      } else {
        SplitLowerAtOther(s, sep);
      }
    }
  }

  /** `lowered` holds the lower-cased pieces of `parts`. */
  predicate SplitsAlike(lowered: seq<string>, parts: seq<string>) {
    |lowered| == |parts| && forall i :: 0 <= i < |parts| ==> lowered[i] == Lower(parts[i])
  }

  lemma SplitLowerAtSeparator(s: string, sep: char)
    requires s != [] && s[0] == sep && Lower(s)[0] == sep && Lower(s)[1..] == Lower(s[1..])
    requires SplitsAlike(Split(Lower(s[1..]), sep), Split(s[1..], sep))
    ensures SplitsAlike(Split(Lower(s), sep), Split(s, sep))
  {
    assert Split(Lower(s), sep) == [""] + Split(Lower(s[1..]), sep);
    assert Split(s, sep) == [""] + Split(s[1..], sep);
  }

  lemma SplitLowerAtOther(s: string, sep: char)
    requires !('A' <= sep <= 'Z') && !('a' <= sep <= 'z')
    requires s != [] && s[0] != sep && Lower(s)[0] == LowerChar(s[0]) && Lower(s)[1..] == Lower(s[1..])
    requires SplitsAlike(Split(Lower(s[1..]), sep), Split(s[1..], sep))
    ensures SplitsAlike(Split(Lower(s), sep), Split(s, sep))
  {
    var rest, lowRest := Split(s[1..], sep), Split(Lower(s[1..]), sep);
    var head := [s[0]] + rest[0];
    assert Lower(head) == [LowerChar(s[0])] + Lower(rest[0]);
    assert Split(Lower(s), sep) == [Lower(head)] + lowRest[1..];
    assert Split(s, sep) == [head] + rest[1..];
  }

  function DigitChar(d: nat): char
    requires d < 10
  {
    ('0' as int + d) as char
  }

  /** The decimal numeral of a count, as a template literal renders an integer. */
  function NatToString(n: nat): (r: string)
    ensures r != [] && AllDigits(r)
  {
    if n < 10 then [DigitChar(n)] else NatToString(n / 10) + [DigitChar(n % 10)]
  }

  predicate StartsWith(s: string, prefix: string) {
    |prefix| <= |s| && s[..|prefix|] == prefix
  }
}

=== FILE: types.dfy ===
/** The catalog entities the enrichment core reads and writes. */
module Types {
  import opened Wrappers
  import opened Json

  /** One key/value pair of a product; `u` is the unit of a measure, `confidence` marks a generated value. */
  datatype ProductAttribute = ProductAttribute(k: string, v: Value, u: Option<string>, confidence: Option<real>)

  /** A catalog product; `attr` is absent on a product that has never had attributes. */
  datatype Product = Product(
    id: string,
    name: string,
    brand: string,
    barcode: Option<string>,
    images: seq<string>,
    enriched: bool,
    attr: Option<seq<ProductAttribute>>)

  /**
   * A typed attribute definition. `typ` is kept as the stored string, since the
   * scoring and validation code dispatches on arbitrary strings.
   */
  datatype Attribute = Attribute(
    id: string,
    name: string,
    displayName: string,
    typ: string,
    description: Option<string>,
    options: Option<seq<string>>,
    units: Option<seq<string>>,
    maxLength: Option<int>)

  /** The seven attribute types. */
  const ATTRIBUTE_TYPES: seq<string> :=
    ["short_text", "long_text", "rich_text", "number", "single_select", "multiple_select", "measure"]

  /** A string that is truthy: present and non-empty. */
  predicate Filled(s: Option<string>) { s.Some? && s.value != "" }

  /** `product.attr || []`. */
  function AttrsOf(p: Product): seq<ProductAttribute>
  {
    if p.attr.Some? then p.attr.value else []
  }

  /** `defs.find((a) => a.name === name)`. */
  function FindDef(defs: seq<Attribute>, name: string): (r: Option<Attribute>)
    ensures r.None? <==> forall i :: 0 <= i < |defs| ==> defs[i].name != name
    ensures r.Some? ==> r.value in defs && r.value.name == name
  {
    if defs == [] then None
    else if defs[0].name == name then Some(defs[0])
    else
      FindDef(defs[1..], name)
  }

  /** `defs.map((a) => a.name)`. */
  function Names(defs: seq<Attribute>): (r: seq<string>)
    ensures |r| == |defs|
  {
    seq(|defs|, i requires 0 <= i < |defs| => defs[i].name)
  }

  /** `attrs.map((a) => a.k)`. */
  function Keys(attrs: seq<ProductAttribute>): (r: seq<string>)
    ensures |r| == |attrs|
  {
    seq(|attrs|, i requires 0 <= i < |attrs| => attrs[i].k)
  }
}

=== FILE: validators.dfy ===
/**
 * Request validation: the checks an attribute definition, a product and an
 * import file name must pass, each reporting the first failed check's message.
 */
module Validators {
  import opened Wrappers
  import opened Json
  import opened Types
  import Text

  /** `{valid: true}` or `{valid: false, error}`. */
  datatype Verdict = Valid | Invalid(error: string)

  const NAME_REQUIRED := "Name is required"
  const DISPLAY_NAME_REQUIRED := "Display name is required"
  const TYPE_REQUIRED := "Valid type is required"
  const OPTIONS_REQUIRED := "Options are required for select attributes"
  const UNITS_REQUIRED := "Units are required for measure attributes"
  const PRODUCT_NAME_REQUIRED := "Product name is required"
  const KEY_REQUIRED := "Attribute key is required"
  const NO_EXTENSION := "File has no extension"
  const UNSUPPORTED_FILE := "Unsupported file type. Please upload CSV or Excel file."

  /** A partial attribute definition as a request body supplies it; every field may be missing. */
  datatype AttributeDraft = AttributeDraft(
    name: Option<string>,
    displayName: Option<string>,
    typ: Option<string>,
    options: Option<seq<string>>,
    units: Option<seq<string>>)

  /** `!list || list.length === 0`. */
  predicate Missing<T>(list: Option<seq<T>>) { list.None? || list.value == [] }

  predicate IsSelectType(typ: string) { typ == "single_select" || typ == "multiple_select" }

  /**
   * `validateAttribute(data)`: name, display name, type, then the options of
   * a select type and the units of a measure, in that order.
   */
  function ValidateAttribute(d: AttributeDraft): (r: Verdict)
    ensures r == Invalid(NAME_REQUIRED) <==> !Filled(d.name)
    ensures r == Invalid(DISPLAY_NAME_REQUIRED) <==> Filled(d.name) && !Filled(d.displayName)
    ensures r == Invalid(TYPE_REQUIRED) <==>
      Filled(d.name) && Filled(d.displayName) && !(d.typ.Some? && d.typ.value in ATTRIBUTE_TYPES)
    ensures r.Valid? <==>
      Filled(d.name) && Filled(d.displayName) && d.typ.Some? && d.typ.value in ATTRIBUTE_TYPES &&
      (IsSelectType(d.typ.value) ==> !Missing(d.options)) &&
      (d.typ.value == "measure" ==> !Missing(d.units))
  {
    if !Filled(d.name) then Invalid(NAME_REQUIRED)
    else if !Filled(d.displayName) then Invalid(DISPLAY_NAME_REQUIRED)
    else if !Filled(d.typ) || d.typ.value !in ATTRIBUTE_TYPES then Invalid(TYPE_REQUIRED)
    else if IsSelectType(d.typ.value) && Missing(d.options) then Invalid(OPTIONS_REQUIRED)
    else if d.typ.value == "measure" && Missing(d.units) then Invalid(UNITS_REQUIRED)
    else Valid
  }

  /** Options matter only to the two select types and units only to measure; every other type ignores both. */
  lemma ListsMatterOnlyToTheirTypes(d: AttributeDraft, options: Option<seq<string>>, units: Option<seq<string>>)
    requires d.typ.Some? && !IsSelectType(d.typ.value) && d.typ.value != "measure"
    ensures ValidateAttribute(d.(options := options, units := units)) == ValidateAttribute(d)
  {
  }

  /** A well-named select definition is rejected exactly for its missing options, and a measure for its missing units. */
  lemma ListChecks(d: AttributeDraft)
    requires Filled(d.name) && Filled(d.displayName) && d.typ.Some?
    ensures IsSelectType(d.typ.value) ==> (ValidateAttribute(d) == Invalid(OPTIONS_REQUIRED) <==> Missing(d.options))
    ensures d.typ.value == "measure" ==> (ValidateAttribute(d) == Invalid(UNITS_REQUIRED) <==> Missing(d.units))
  {
  }

  /** A partial product as a request body supplies it. */
  datatype ProductDraft = ProductDraft(name: Option<string>, attr: Option<seq<ProductAttribute>>)

  /** The entry is rejected: an empty key, or a value that is `null` or `undefined`. */
  predicate Faulty(a: ProductAttribute) { a.k == "" || IsNullish(a.v) }

  /** The message for a faulty entry. */
  function EntryError(a: ProductAttribute): string
  {
    if a.k == "" then KEY_REQUIRED else "Value for attribute " + a.k + " is required"
  }

  /** The for-of loop over the entries: the message of the first faulty one, if any. */
  function FirstEntryError(attrs: seq<ProductAttribute>): (r: Option<string>)
  {
    if attrs == [] then None
    else if Faulty(attrs[0]) then Some(EntryError(attrs[0]))
    else FirstEntryError(attrs[1..])
  }

  /** Entry `i` is the first faulty one and `message` is its message. */
  predicate FirstFaultyAt(attrs: seq<ProductAttribute>, i: int, message: string) {
    0 <= i < |attrs| && Faulty(attrs[i]) && message == EntryError(attrs[i]) &&
    forall j :: 0 <= j < i ==> !Faulty(attrs[j])
  }

  /** No message means no entry is faulty; a message is the first faulty entry's, every earlier one being sound. */
  lemma {:induction false} FirstEntryErrorFindsFirst(attrs: seq<ProductAttribute>)
    ensures FirstEntryError(attrs).None? <==> forall i :: 0 <= i < |attrs| ==> !Faulty(attrs[i])
    ensures FirstEntryError(attrs).Some? ==> exists i :: FirstFaultyAt(attrs, i, FirstEntryError(attrs).value)
  {
    if attrs != [] && !Faulty(attrs[0]) {
      FirstEntryErrorFindsFirst(attrs[1..]);
      assert forall i :: 0 < i < |attrs| ==> attrs[i] == attrs[1..][i - 1];
      if FirstEntryError(attrs[1..]).Some? {
        var i :| FirstFaultyAt(attrs[1..], i, FirstEntryError(attrs[1..]).value);
        assert FirstFaultyAt(attrs, i + 1, FirstEntryError(attrs).value);
      }
    } else if attrs != [] {
      assert FirstFaultyAt(attrs, 0, FirstEntryError(attrs).value);
    }
  }

  /** `validateProduct(data)`: the name first, then each entry of an attribute list in order. */
  function ValidateProduct(d: ProductDraft): (r: Verdict)
    ensures !Filled(d.name) ==> r == Invalid(PRODUCT_NAME_REQUIRED)
    ensures d.attr.None? ==> (r.Valid? <==> Filled(d.name))
  {
    if !Filled(d.name) then Invalid(PRODUCT_NAME_REQUIRED)
    else if d.attr.Some? then
      match FirstEntryError(d.attr.value)
      case Some(message) => Invalid(message)
      case None => Valid
    else Valid
  }

  /** A product is valid exactly when it is named and every entry has a key and a present value. */
  lemma ProductValidity(d: ProductDraft)
    ensures ValidateProduct(d).Valid? <==>
      Filled(d.name) && (d.attr.Some? ==> forall i :: 0 <= i < |d.attr.value| ==> !Faulty(d.attr.value[i]))
    ensures Filled(d.name) && ValidateProduct(d).Invalid? ==>
      d.attr.Some? && exists i :: FirstFaultyAt(d.attr.value, i, ValidateProduct(d).error)
  {
    if d.attr.Some? {
      FirstEntryErrorFindsFirst(d.attr.value);
    }
  }

  /** `{valid: true, type}` or `{valid: false, error}`. */
  datatype FileCheck = Accepted(fileType: string) | Rejected(error: string)

  /** `fileName.split(".").pop()?.toLowerCase()`; `pop` on a split always finds a piece. */
  function Extension(fileName: string): string
  {
    Text.Lower(Text.Last(Text.Split(fileName, '.')))
  }

  /** `validateFileType(fileName)`. */
  function ValidateFileType(fileName: string): (r: FileCheck)
    ensures r.Accepted? <==> Extension(fileName) in {"csv", "xlsx", "xls"}
    ensures r == Accepted("csv") <==> Extension(fileName) == "csv"
    ensures r == Rejected(NO_EXTENSION) <==> Extension(fileName) == ""
    ensures r == Accepted("excel") <==> Extension(fileName) in {"xlsx", "xls"}
    ensures r == Rejected(UNSUPPORTED_FILE) <==> Extension(fileName) !in {"", "csv", "xlsx", "xls"}
  {
    var extension := Extension(fileName);
    if extension == "" then Rejected(NO_EXTENSION)
    else if extension == "csv" then Accepted("csv")
    else if extension in ["xlsx", "xls"] then Accepted("excel")
    else Rejected(UNSUPPORTED_FILE)
  }

  /** The extension is the lower-cased text after the last dot, or the whole name when there is no dot. */
  lemma ExtensionIsLastSuffix(fileName: string)
    ensures exists n :: (0 <= n <= |fileName| &&
      Extension(fileName) == Text.Lower(fileName[n..]) && '.' !in fileName[n..] &&
      (n == 0 || fileName[n - 1] == '.'))
  {
    Text.LastPieceIsSuffix(fileName, '.');
    var p := Text.Last(Text.Split(fileName, '.'));
    var n := |fileName| - |p|;
    assert Extension(fileName) == Text.Lower(fileName[n..]);
  }

  /** The extension is empty exactly when the name is empty or ends with a dot. */
  lemma {:induction false} EmptyExtension(fileName: string)
    ensures Extension(fileName) == "" <==> fileName == [] || fileName[|fileName| - 1] == '.'
  {
    Text.LastPieceIsSuffix(fileName, '.');
    var p := Text.Last(Text.Split(fileName, '.'));
    if p != [] {
      assert p[|p| - 1] == fileName[|fileName| - 1];
      assert p[|p| - 1] in p;
    }
  }

  /** Lower-casing twice is lower-casing once. */
  lemma LowerIdempotent(s: string)
    ensures Text.Lower(Text.Lower(s)) == Text.Lower(s)
  {
  }

  /** The extension of a name is that of its lower-cased spelling. */
  lemma {:induction false} ExtensionIgnoresCase(fileName: string)
    ensures Extension(Text.Lower(fileName)) == Extension(fileName)
  {
    Text.SplitLower(fileName, '.');
    var parts := Text.Split(fileName, '.');
    var lowered := Text.Split(Text.Lower(fileName), '.');
    assert Text.Last(lowered) == Text.Lower(Text.Last(parts));
    LowerIdempotent(Text.Last(parts));
  }

  /** Two names that differ only in letter case are judged alike: "A.CSV" is accepted as "a.csv" is. */
  lemma FileTypeIgnoresCase(a: string, b: string)
    requires Text.Lower(a) == Text.Lower(b)
    ensures ValidateFileType(a) == ValidateFileType(b)
  {
    ExtensionIgnoresCase(a);
    ExtensionIgnoresCase(b);
  }
}

=== FILE: vector_search.dfy ===
/**
 * Similar-product retrieval: a vector query when an embedding and the vector
 * index are available, otherwise a three-tier alternative search. Every
 * database outcome is an input: the index listing, the vector query's result
 * for a query vector, the products collection, and which alternative queries
 * throw.
 */
module VectorSearch {
  import opened Wrappers
  import opened Types

  const VECTOR_INDEX := "vector_index"
  const EMBEDDING_DIMENSIONS := 1536
  /** The limit `findSimilarProducts` is called with by the enrichment service. */
  const DEFAULT_LIMIT := 10

  datatype SearchDb = SearchDb(
    /** `listIndexes()` on the products collection: the index names, or the error it throws. */
    indexes: Result<seq<string>>,
    /** The `$vectorSearch` stage for a query vector and a candidate count: its ranked matches, or the error it throws. */
    vectorQuery: (seq<real>, nat) -> Result<seq<Product>>,
    /** The products collection in natural order. */
    products: seq<Product>,
    /** The alternative-search tiers (1, 2, 3) whose query throws. */
    failingTiers: set<nat>)

  /** `cursor.limit(n)` for a positive `n`: the first `n` elements. */
  function Take(xs: seq<Product>, n: nat): (r: seq<Product>)
    ensures |r| <= n && |r| <= |xs| && r == xs[..|r|]
    ensures |xs| <= n ==> r == xs
  {
    if |xs| <= n then xs else xs[..n]
  }

  /**
   * The `$project` stage keeps `_id`, `name`, `description`, `brand`,
   * `category` and `attributes`; the `attr`, `barcode` and `images` fields a
   * product is stored with are not among them.
   */
  function Project(p: Product): (r: Product)
    ensures r.attr.None? && r.id == p.id && r.name == p.name && r.brand == p.brand
  {
    p.(barcode := None, images := [], enriched := false, attr := None)
  }

  function ProjectAll(ps: seq<Product>): (r: seq<Product>)
    ensures |r| == |ps|
    ensures forall i :: 0 <= i < |ps| ==> r[i] == Project(ps[i])
  {
    if ps == [] then [] else [Project(ps[0])] + ProjectAll(ps[1..])
  }

  /** Tier 1, `{attr: {$exists: true, $not: {$size: 0}}}`: an attribute list that is not empty. */
  predicate HasAttributes(p: Product) {
    p.attr.Some? && |p.attr.value| != 0
  }

  /** Tier 2, `{"attr.0": {$exists: true}}`: an attribute list with a first element. */
  predicate HasFirstAttribute(p: Product) {
    p.attr.Some? && 0 < |p.attr.value|
  }

  function WithAttributes(ps: seq<Product>): (r: seq<Product>)
    ensures forall p :: p in r <==> p in ps && HasAttributes(p)
  {
    if ps == [] then []
    else
      var rest := WithAttributes(ps[1..]);
      assert forall p :: p in ps <==> p == ps[0] || p in ps[1..];
      if HasAttributes(ps[0]) then [ps[0]] + rest else rest
  }

  function WithFirstAttribute(ps: seq<Product>): (r: seq<Product>)
    ensures forall p :: p in r <==> p in ps && HasFirstAttribute(p)
  {
    if ps == [] then []
    else
      var rest := WithFirstAttribute(ps[1..]);
      assert forall p :: p in ps <==> p == ps[0] || p in ps[1..];
      if HasFirstAttribute(ps[0]) then [ps[0]] + rest else rest
  }

  /**
   * `findSimilarProductsAlternative(limit)`: the first non-empty tier, each
   * capped at `limit`; a tier that throws ends the search with nothing.
   */
  function Alternative(db: SearchDb, limit: nat): (r: seq<Product>)
    requires limit > 0
    ensures |r| <= limit
    ensures forall p :: p in r ==> p in db.products
    ensures 1 in db.failingTiers ==> r == []
    ensures 1 !in db.failingTiers && WithAttributes(db.products) != [] ==> r == Take(WithAttributes(db.products), limit)
  {
    if 1 in db.failingTiers then []
    else
      var tier1 := Take(WithAttributes(db.products), limit);
      if |tier1| > 0 then tier1
      else if 2 in db.failingTiers then []
      else
        var tier2 := Take(WithFirstAttribute(db.products), limit);
        if |tier2| > 0 then tier2
        else if 3 in db.failingTiers then []
        else Take(db.products, limit)
  }

  /** Both tier filters select the same products, in the same order. */
  lemma {:induction false} TierFiltersAgree(ps: seq<Product>)
    ensures WithFirstAttribute(ps) == WithAttributes(ps)
  {
    if ps != [] {
      TierFiltersAgree(ps[1..]);
    }
  }

  /**
   * The second tier never finds what the first missed: when the first tier
   * runs and finds nothing, the result is the third tier's (or nothing, if a
   * later tier throws).
   */
  lemma {:induction false} SecondTierRedundant(db: SearchDb, limit: nat)
    requires limit > 0
    requires 1 !in db.failingTiers && WithAttributes(db.products) == []
    ensures WithFirstAttribute(db.products) == []
    ensures Alternative(db, limit) == (if 2 in db.failingTiers || 3 in db.failingTiers then [] else Take(db.products, limit))
  {
    TierFiltersAgree(db.products);
  }

  /** `checkVectorIndexExists()`: some index is named "vector_index"; a listing error counts as absent. */
  predicate IndexExists(indexes: Result<seq<string>>) {
    indexes.Ok? && VECTOR_INDEX in indexes.value
  }

  /** The vector stage ran and found something, so its result is returned. */
  predicate VectorPathTaken(embedding: seq<real>, limit: nat, db: SearchDb) {
    embedding != [] && IndexExists(db.indexes) &&
    db.vectorQuery(embedding, limit * 10).Ok? && db.vectorQuery(embedding, limit * 10).value != []
  }

  /**
   * `findSimilarProducts(embedding, limit)`. It never throws: an empty
   * embedding, a missing index, an empty vector result or a vector-query
   * error all fall back to the alternative search.
   */
  function FindSimilarProducts(embedding: seq<real>, limit: nat, db: SearchDb): (r: seq<Product>)
    requires limit > 0
    ensures |r| <= limit
    ensures !VectorPathTaken(embedding, limit, db) ==> r == Alternative(db, limit)
    ensures VectorPathTaken(embedding, limit, db) ==>
      r == ProjectAll(Take(db.vectorQuery(embedding, limit * 10).value, limit)) && r != []
  {
    if embedding == [] then Alternative(db, limit)
    else if !IndexExists(db.indexes) then Alternative(db, limit)
    else
      var result := db.vectorQuery(embedding, limit * 10);
      if result.Err? then Alternative(db, limit)
      else if |result.value| == 0 then Alternative(db, limit)
      else ProjectAll(Take(result.value, limit))
  }

  /** The products the vector stage returns carry no attribute list. */
  lemma VectorResultsCarryNoAttributes(embedding: seq<real>, limit: nat, db: SearchDb)
    requires limit > 0 && VectorPathTaken(embedding, limit, db)
    ensures forall p :: p in FindSimilarProducts(embedding, limit, db) ==> p.attr.None?
  {
  }

  /** `generateEmbedding(text)`: the service's vector, or 1536 zeros when the service fails. */
  function Embedding(reply: Result<seq<real>>): (e: seq<real>)
    ensures reply.Ok? ==> e == reply.value
    ensures reply.Err? ==> |e| == EMBEDDING_DIMENSIONS && forall i :: 0 <= i < |e| ==> e[i] == 0.0
  {
    if reply.Ok? then reply.value else seq(EMBEDDING_DIMENSIONS, _ => 0.0)
  }

  /** A failed embedding is not empty, so the search still consults the index and the vector query. */
  lemma FailedEmbeddingStillQueries(reply: Result<seq<real>>, limit: nat, db: SearchDb)
    requires limit > 0 && reply.Err?
    requires IndexExists(db.indexes)
    requires db.vectorQuery(Embedding(reply), limit * 10).Ok? && db.vectorQuery(Embedding(reply), limit * 10).value != []
    ensures FindSimilarProducts(Embedding(reply), limit, db) ==
      ProjectAll(Take(db.vectorQuery(Embedding(reply), limit * 10).value, limit))
  {
    assert Embedding(reply) != [] by { assert |Embedding(reply)| == EMBEDDING_DIMENSIONS; }
  }

  datatype IndexSetup = ListingFailed | AlreadyPresent | Created | CreationFailed

  /**
   * `createVectorSearchIndex()`: the create command is issued only when the
   * listing succeeds without a "vector_index"; every error is swallowed.
   * `creation` is the error the create command throws, if any.
   */
  function CreateVectorSearchIndex(indexes: Result<seq<string>>, creation: Option<string>): (r: IndexSetup)
    ensures (r == Created || r == CreationFailed) <==> indexes.Ok? && VECTOR_INDEX !in indexes.value
    ensures r == AlreadyPresent <==> IndexExists(indexes)
    ensures r == Created <==> indexes.Ok? && VECTOR_INDEX !in indexes.value && creation.None?
  {
    if indexes.Err? then ListingFailed
    else if VECTOR_INDEX in indexes.value then AlreadyPresent
    else if creation.Some? then CreationFailed
    else Created
  }
}

=== FILE: wrappers.dfy ===
/** Failure-carrying values shared by every module of the model. */
module Wrappers {

  /** A value that may be absent: a missing optional field, or `undefined`. */
  datatype Option<+T> = None | Some(value: T)

  /** The outcome of an operation that may throw; `Err` carries the error message. */
  datatype Result<+T> = Ok(value: T) | Err(error: string)

  /** A list that is kept only when it has an element: an optional field set under `length > 0`. */
  function NonEmpty<T>(xs: seq<T>): (r: Option<seq<T>>)
    ensures r.None? <==> xs == []
    ensures r.Some? ==> r.value == xs
  {
    if xs == [] then None else Some(xs)
  }
}
